=== FILE: README.md ===
# ace-tool-rs core, modelled in Dafny

ace-tool-rs is an MCP (Model Context Protocol) server. It indexes a code
base for semantic search and enhances user prompts. Over newline-delimited
JSON-RPC 2.0 on standard input and output it offers the `search_context`
tool. That tool uploads a project's files, cut into line-bounded blobs and
packed into batches, to a retrieval service and then queries it. An upload
strategy adapts its concurrency and timeout to how the service behaves. A
second tool, `enhance_prompt`, sends a prompt to the Augment endpoint or
to a Claude, OpenAI or Gemini endpoint. The user can edit the result in a
small local web page before it is returned.

This project models the logic of that server that is deterministic once
the network, the filesystem, hashing and JSON are abstracted:

- `wrappers.dfy` and `strings.dfy`: `Option`/`Result` and the parts of
  Rust's `str` the code relies on (trimming, `lines`, replacement, UTF-8
  byte lengths, decimal rendering and parsing).
- `config.dfy`, `metrics.dfy` and `adaptive.dfy`: the upload-strategy
  tiers, the runtime-metrics window, and the AIMD (additive increase,
  multiplicative decrease) strategy. The strategy has a warmup phase,
  sample and cooldown gates, and command-line pins. The metrics window
  and the strategy are classes whose methods update their fields. Each
  method is proved to follow a value-level step function, and the bounds
  and gates are proved about that function.
- `manager.dfy`: content sanitising, binary detection, the exclude glob,
  line chunking, greedy batch packing, the retry policy of a batch upload,
  and the set accounting of an indexing run.
- `path_normalizer.dfy`: Windows, WSL and UNC path conversion, with the
  round trips between them.
- `prompt.dfy`, `augment.dfy` and `third_party.dfy`: the text helpers of
  prompt enhancement and the reply handling of the four endpoint kinds.
- `http_logger.dfy`: header masking and UTF-8-safe truncation of the
  request logger.
- `project_detector.dfy`: the `.gitignore` update.
- `enhancer_server.dfy`: the session table of the enhancer web page, as a
  class.
- `tools.dfy` and `mcp_server.dfy`: the two tools' argument handling and
  the JSON-RPC dispatch, with the error codes of section 5.1 of the
  JSON-RPC 2.0 specification.

Strings are `seq<char>`: a Dafny `char`, like a Rust `char`, is a Unicode
scalar value. Where the source measures bytes, the UTF-8 width of each
character is added up. Integer thresholds are exact, and ratios are
compared by cross-multiplication.

## Model

| member | source | states |
|---|---|---|
| Config.GetUploadStrategy | src/config.rs:107-142 | every tier has batch size 10..70, concurrency 1..4 and timeout 30..90 s; concurrency is 1 exactly below 100 blobs and 4 exactly from 2000 |
| Config.UploadStrategyMonotone | src/config.rs:107-142 | more blobs never give a smaller batch, a lower concurrency or a shorter timeout |
| Config.UploadStrategyTable | src/config.rs:107-142 | the four tiers (<100, <500, <2000, otherwise) have the parameters (10,1,30000), (30,2,45000), (50,3,60000), (70,4,90000) |
| Config.NormalizeBaseUrl | src/config.rs:52-62 | the rewritten base URL always starts with "https:" and never ends in '/' |
| Config.NormalizeBaseUrlCases | src/config.rs:52-62 | "http://" is upgraded, "https://" is kept, anything else is prefixed with "https://", then trailing slashes go |
| Config.NormalizeBaseUrlIdempotent | src/config.rs:52-62 | a rewritten URL with a host is left unchanged by a second rewrite |
| Config.New | src/config.rs:51-87 | construction fails exactly when the token is empty (as written); on success the fields are the rewritten URL, the token and the options with defaults 800 lines and 60 s |
| Config.EmptyBaseUrlAccepted | src/config.rs:52-66 | an empty base URL with a token is accepted and stored as "https:" (the emptiness check is dead) |
| Config.NewChecked | src/config.rs:64-70 | with the emptiness check applied to the given URL: fails exactly when the base URL or the token is empty, and otherwise agrees with `Config::new` |
| Metrics.SuccessCount | src/strategy/metrics.rs:113-119 | the number of successes never exceeds the window length |
| Metrics.RateLimitCountAppend | src/strategy/metrics.rs:74-76 | appending an outcome raises the rate-limit count by one exactly when it is a 429 |
| Metrics.RateLimitCountPositive | src/strategy/metrics.rs:142-144 | the count is positive iff some outcome in the window is rate-limited |
| Metrics.Capacity | src/strategy/metrics.rs:78-88 | the window always keeps at least the newest outcome, so its capacity is at least 1 |
| Metrics.LastN | src/strategy/metrics.rs:78-88 | the last n outcomes: a suffix of length min(n, length) |
| Metrics.Counted | src/strategy/metrics.rs:62-68 | the outcomes `record` keeps (every non-5xx), never more than were given |
| Metrics.Initial | src/strategy/metrics.rs:46-58 | a new metrics object has an empty window and counters consistent with it |
| Metrics.Recorded | src/strategy/metrics.rs:61-89 | a 5xx changes nothing; any other outcome bumps the adjustment counter; the counter invariant is preserved |
| Metrics.RecordedNewest | src/strategy/metrics.rs:61-89 | an outcome other than a 5xx becomes the newest entry of the window |
| Metrics.AdjustmentReset | src/strategy/metrics.rs:137-139 | resetting zeroes the adjustment counter and changes nothing else |
| Metrics.Replay | src/strategy/metrics.rs:61-89 | recording a sequence of outcomes keeps the window size |
| Metrics.SuccessRate | src/strategy/metrics.rs:113-119 | the success rate is a proper fraction, 1 for an empty window, and successes over the window length otherwise |
| Metrics.LastNOfAppend | src/strategy/metrics.rs:78-88 | trimming before or after appending gives the same window |
| Metrics.CountedAppend | src/strategy/metrics.rs:62-68 | a 5xx outcome adds nothing to the kept outcomes, any other adds itself |
| Metrics.ReplayAppend | src/strategy/metrics.rs:61-89 | recording one more outcome after a sequence is one more `record` step |
| Metrics.WindowIsLastRecorded | src/strategy/metrics.rs:61-89 | from a fresh object, the window is exactly the last `Capacity` non-5xx outcomes in order, the rate-limit counter matches it, and the adjustment counter counts them all |
| Metrics.EvictingStep | src/strategy/metrics.rs:78-85 | popping the oldest on a full window keeps the newest `Capacity` outcomes, and the saturating decrement leaves the counter equal to the window's count |
| Metrics.GrowingStep | src/strategy/metrics.rs:74-88 | with room in the window nothing is evicted and the counter follows the new outcome |
| Metrics.OldestCounted | src/strategy/metrics.rs:80-84 | a rate-limited oldest outcome is counted, so the saturating decrement on its eviction never saturates |
| Metrics.RecordedSteps | src/strategy/metrics.rs:72-88 | the pop-then-push steps of `record` produce exactly the `Recorded` state, which keeps the counter invariant |
| Metrics.RuntimeMetrics.constructor | src/strategy/metrics.rs:46-58 | the new object is valid and empty |
| Metrics.RuntimeMetrics.Record | src/strategy/metrics.rs:61-89 | the in-place update keeps the counter invariant and yields exactly the state `Recorded` describes |
| Metrics.RuntimeMetrics.SuccessRatio | src/strategy/metrics.rs:113-119 | 1/1 for an empty window, successes/length otherwise |
| Metrics.RuntimeMetrics.HasMinimumSamples | src/strategy/metrics.rs:122-124 | true iff the window holds at least the asked number of outcomes |
| Metrics.RuntimeMetrics.SampleCount | src/strategy/metrics.rs:127-129 | the window length |
| Metrics.RuntimeMetrics.RequestsSinceAdjustment | src/strategy/metrics.rs:132-134 | the adjustment counter of the state |
| Metrics.RuntimeMetrics.ResetAdjustmentCounter | src/strategy/metrics.rs:137-139 | the adjustment counter becomes 0 and the invariant holds |
| Metrics.RuntimeMetrics.HasRateLimitErrors | src/strategy/metrics.rs:142-144 | true iff a rate-limited outcome is in the window |
| Adaptive.InitialStrategy | src/strategy/adaptive.rs:74-125 | adaptive and unpinned starts in warmup at concurrency 1, otherwise at the target (pin or tier, at least 1); the timeout is the pin in milliseconds or the tier's; batch size from the tier; empty metrics |
| Adaptive.Downgraded | src/strategy/adaptive.rs:271-308 | concurrency never rises except to the minimum and the timeout never falls except to the 180 s cap; pinned values and every other field stay |
| Adaptive.Upgraded | src/strategy/adaptive.rs:311-347 | concurrency never falls and the timeout never rises, nothing else changes; Upgrade only when one of them moved, and NoChange leaves the state as it is |
| Adaptive.WarmupExit | src/strategy/adaptive.rs:186-234 | never a Downgrade; only the phase, the concurrency and the adjustment counter can change, never the window or the timeout; an Upgrade completes warmup and restarts the cooldown |
| Adaptive.Evaluate | src/strategy/adaptive.rs:237-268 | NoChange leaves the state as it is; any adjustment restarts the cooldown; only concurrency, timeout and that counter can change |
| Adaptive.Step | src/strategy/adaptive.rs:154-183 | the window is the recorded one; an active warmup counts the request; a completed warmup never restarts; the timeout does not move during warmup |
| Adaptive.Adjustments | src/strategy/adaptive.rs:154-183 | one reported adjustment per recorded outcome |
| Adaptive.InitialStrategyInv | src/strategy/adaptive.rs:74-125 | the initial state satisfies the strategy invariant (bounds, pins, warmup shape, consistent metrics) |
| Adaptive.StepPreservesInv | src/strategy/adaptive.rs:154-183 | every `record_outcome` keeps the invariant and never touches pins, targets, batch size or the adaptive flag |
| Adaptive.RecordedInv | src/strategy/adaptive.rs:164 | recording into the metrics keeps the invariant |
| Adaptive.WarmupExitPreservesInv | src/strategy/adaptive.rs:186-234 | a warmup step keeps the invariant |
| Adaptive.EvaluatePreservesInv | src/strategy/adaptive.rs:237-268 | an evaluation step keeps the invariant |
| Adaptive.DowngradedInv | src/strategy/adaptive.rs:271-308 | halving concurrency (at least 1) and stretching the timeout (at most 180 s) keeps the invariant |
| Adaptive.UpgradedInv | src/strategy/adaptive.rs:311-349 | one more connection and four fifths of the timeout, within the target and the limits, keep the invariant |
| Adaptive.RunPreservesInv | src/strategy/adaptive.rs:154-183 | the invariant holds after any sequence of outcomes |
| Adaptive.BoundsAfterAnyRun | src/strategy/adaptive.rs:8-14 | from any start and after any outcomes: concurrency at least 1 and, unpinned, at most the tier's (at most 4 < 8); unpinned timeout within [15 s, 180 s]; pinned values never move |
| Adaptive.PinnedNeverChanges | src/strategy/adaptive.rs:279-285 | a pinned concurrency or timeout is never changed by a step |
| Adaptive.InactiveNeverAdjusts | src/strategy/adaptive.rs:170-180 | with adaptive mode off or both parameters pinned, a step reports NoChange and moves nothing |
| Adaptive.GatedStepNoChange | src/strategy/adaptive.rs:238-244 | fewer than 20 samples or fewer than 5 requests since the last adjustment: NoChange and only the metrics change |
| Adaptive.AdjustmentRestartsCooldown | src/strategy/adaptive.rs:263-265 | every Upgrade or Downgrade resets the requests-since-adjustment counter |
| Adaptive.DowngradeRule | src/strategy/adaptive.rs:246-254 | past the gates, under 70 % successes, a 429 in the window or high latency downgrades, before any upgrade is considered |
| Adaptive.UpgradeRule | src/strategy/adaptive.rs:255-258 | an Upgrade outside warmup implies over 95 % successes, no 429 in the window, healthy latency, and concurrency +1 or timeout ×4/5 within the bounds |
| Adaptive.UpgradeAddsOne | src/strategy/adaptive.rs:311-349 | an unpinned strategy below its target gains exactly one connection on an upgrade step |
| Adaptive.WarmupRules | src/strategy/adaptive.rs:186-234 | requests 1-4 change nothing; the 10th ends warmup; in between ≥90 % and latency not high jumps to the target with Upgrade, <70 % ends warmup at concurrency 1; warmup never downgrades |
| Adaptive.CooldownSpacing | src/strategy/adaptive.rs:242-244 | within the cooldown no outcome adjusts anything, so two adjustments are at least five requests apart |
| Adaptive.AdaptiveStrategy.constructor | src/strategy/adaptive.rs:74-125 | the object starts in the state `InitialStrategy` describes |
| Adaptive.AdaptiveStrategy.CurrentStrategy | src/strategy/adaptive.rs:129-136 | the current batch size, concurrency and timeout |
| Adaptive.AdaptiveStrategy.RecordOutcome | src/strategy/adaptive.rs:154-183 | the in-place update follows `Step` exactly, state and reported adjustment |
| Adaptive.AdaptiveStrategy.CheckWarmupExit | src/strategy/adaptive.rs:186-234 | the in-place update follows `WarmupExit` |
| Adaptive.AdaptiveStrategy.EvaluateAdjustment | src/strategy/adaptive.rs:237-268 | the in-place update follows `Evaluate` |
| Adaptive.AdaptiveStrategy.ApplyDowngrade | src/strategy/adaptive.rs:271-308 | the new state is `Downgraded` of the old and the result is Downgrade |
| Adaptive.AdaptiveStrategy.ApplyUpgrade | src/strategy/adaptive.rs:311-349 | the new state and result are those of `Upgraded` |
| IndexManager.SanitizeContent | src/index/manager.rs:310-318 | the result is no longer than the content and holds none of the stripped control characters |
| IndexManager.SanitizeAppend | src/index/manager.rs:310-318 | sanitising works character by character: it distributes over concatenation |
| IndexManager.SanitizeChar | src/index/manager.rs:313-316 | one character is deleted exactly when it is a stripped control; tab, line feed and carriage return stay |
| IndexManager.SanitizeUnchangedIff | src/index/manager.rs:310-318 | content is unchanged iff it holds no stripped control |
| IndexManager.SanitizeIdempotent | src/index/manager.rs:310-318 | sanitising twice equals sanitising once |
| IndexManager.SanitizedNeverBinary | src/index/manager.rs:321-331 | sanitised content is never judged binary |
| IndexManager.IsBinaryContent | src/index/manager.rs:321-331 | content judged binary always holds a character that sanitising deletes |
| IndexManager.FormFeedsNotBinary | src/index/manager.rs:327-329 | vertical tabs and form feeds are stripped by sanitising but not counted as binary |
| IndexManager.MatchLiteral | src/index/manager.rs:227-236 | a pattern without wildcards matches exactly itself ('.' is escaped) |
| IndexManager.MatchPattern | src/index/manager.rs:227-236 | a string matched by a pattern without '*' has the pattern's length ('?' and every other character match one character) |
| IndexManager.MatchStar | src/index/manager.rs:227-236 | "*" matches exactly the strings without a line feed (the regex '.') |
| IndexManager.MatchStarSuffix | src/index/manager.rs:227-236 | "*" + literal matches exactly a line-feed-free run followed by the literal |
| IndexManager.EffectiveMaxLines | src/index/manager.rs:339-343 | the line limit used is never 0 (0 falls back to 800) |
| IndexManager.CeilDivBounds | src/index/manager.rs:352 | the chunk count covers every line and every chunk index starts inside the file |
| IndexManager.ChunkSlice | src/index/manager.rs:357-359 | chunk i runs from line i·max to the next multiple of max or the end |
| IndexManager.SplitFileContent | src/index/manager.rs:334-369 | a file of at most max lines is one verbatim blob; a longer one gives ceil(lines/max) blobs, blob i being the "\n"-join of chunk i under "<path>#chunk<i+1>of<n>" |
| IndexManager.ChunkAt | src/index/manager.rs:356-366 | one loop iteration builds exactly chunk blob i |
| IndexManager.ChunkSeq | src/index/manager.rs:355-367 | the first k chunks, in order |
| IndexManager.ChunksCoverLines | src/index/manager.rs:352-367 | the chunks are non-empty, hold at most max lines, and concatenate back to the file's lines in order |
| IndexManager.ChunkPrefix | src/index/manager.rs:355-367 | the first k chunks concatenate to the first min(k·max, total) lines |
| IndexManager.PackedAppend | src/index/manager.rs:483-509 | closing a well-formed batch that had to be closed keeps the packing property |
| IndexManager.CloseStep | src/index/manager.rs:494-498 | closing the open batch before a blob that does not fit keeps the loop invariant |
| IndexManager.ExtendStep | src/index/manager.rs:501-502 | adding a fitting blob to the open batch keeps the loop invariant |
| IndexManager.FinishBatches | src/index/manager.rs:505-507 | pushing the last open batch yields batches that concatenate to the blobs and are packed |
| IndexManager.PlaceBlob | src/index/manager.rs:489-502 | one iteration keeps the loop invariant and the running byte size |
| IndexManager.BuildBatches | src/index/manager.rs:483-509 | the batches concatenate to the blobs in order, are empty iff there are no blobs, respect the count ceiling max(1, n) and the 5 MiB ceiling unless single, and are closed only when full or when the next blob would overflow |
| IndexManager.BatchBytesAtLeastMember | src/index/manager.rs:490 | a batch weighs at least each of its blobs |
| IndexManager.OversizedBlobAlone | src/index/manager.rs:493-496 | a blob over 5 MiB travels in a batch of its own |
| IndexManager.Classify | src/index/manager.rs:536-612 | one attempt: a 2xx stops with the decoded names (or the decode error); a retry waits once except after the last attempt, where only a transport error carries on; the last transport error is remembered |
| IndexManager.RetryResumes | src/index/manager.rs:563-607 | a retrying attempt adds one request and its wait and hands over to the next attempt |
| IndexManager.StopEnds | src/index/manager.rs:539-584 | a stopping attempt ends the upload with its result |
| IndexManager.SumBatchBytes | src/index/manager.rs:513 | the summed byte size of a batch |
| IndexManager.UploadBatch | src/index/manager.rs:512-616 | the result, sleeps and request count are those of the retry policy, with the 5 MiB pre-check |
| IndexManager.UploadAttemptLoop | src/index/manager.rs:521-615 | the attempt loop yields exactly the result, sleeps and requests of the specification from attempt 0 |
| IndexManager.UploadAttemptsShape | src/index/manager.rs:521-615 | at most 3 requests, a wait between consecutive requests and none after the last |
| IndexManager.UploadBatchBounded | src/index/manager.rs:512-616 | at most 3 requests; nothing is sent iff the batch is over 5 MiB; one wait fewer than requests |
| IndexManager.UploadAuthFailsImmediately | src/index/manager.rs:542-552 | 400, 401 and 403 end the upload with an error after one request and no wait |
| IndexManager.UploadOkComesFromSuccess | src/index/manager.rs:554-557 | a successful upload returns the names decoded from some 2xx response |
| IndexManager.UploadWaits | src/index/manager.rs:580-607 | with only transport errors or 5xx, the upload sleeps 1 s then 2 s, sends 3 requests and fails |
| IndexManager.BatchResults | src/index/manager.rs:705-718 | one upload result per batch |
| IndexManager.FailedBatches | src/index/manager.rs:721-731 | never more failures than batches |
| IndexManager.UploadedNamesAppend | src/index/manager.rs:721-731 | a successful batch appends its names; a failed one appends nothing |
| IndexManager.FailedBatchesAppend | src/index/manager.rs:721-731 | a failed batch adds one to the failure count |
| IndexManager.Enumerate | src/index/manager.rs:659-667 | a set listed once each, in some order, without duplicates |
| IndexManager.NameBlobs | src/index/manager.rs:650-655 | the map's keys are exactly the names of the blobs, each key mapping to a blob of that name |
| IndexManager.SelectBlobs | src/index/manager.rs:679-682 | the blobs of the given names, in the order of the names |
| IndexManager.UploadAll | src/index/manager.rs:700-731 | the uploaded names and failure count are those of the batch results in batch order |
| IndexManager.UploadNewBlobs | src/index/manager.rs:678-731 | the batches hold the blobs of the new names in order, packed for the tier of that many blobs, and the counts follow the batch results |
| IndexManager.Outcome | src/index/manager.rs:751-781 | status "error" when saving failed, else "partial" when a batch failed, else "success"; the message starts "Failed to save index (indexed " exactly when saving failed, and otherwise "Indexed <total> blobs " |
| IndexManager.NewBlobsCovered | src/index/manager.rs:659-682 | the batches hold exactly one blob per name not yet indexed, each from the walk |
| IndexManager.IndexBlobs | src/index/manager.rs:647-797 | the upload covers exactly the new names, the saved index is the already-indexed names then the uploaded ones, and the status, message and counts follow the batch results (the three messages of `Outcome`) |
| IndexManager.IndexProject | src/index/manager.rs:619-797 | a failed walk and an empty walk give their "error" results and save nothing; otherwise as `IndexBlobs`, including the exact status message |
| PathNormalizer.WinToWsl | src/utils/path_normalizer.rs:74-92 | converts exactly the drive paths ("X:" or "X:/…" after '\\'→'/') into "/mnt/x…" with a lower-case drive letter, the rest kept with forward slashes |
| PathNormalizer.WslToWin | src/utils/path_normalizer.rs:96-112 | converts exactly "/mnt/x" and "/mnt/x/…" into "X:" plus the rest with backslashes |
| PathNormalizer.MntPathIffConvertible | src/utils/path_normalizer.rs:180-189 | `is_wsl_mnt_path` holds iff `wsl_to_win` converts the path |
| PathNormalizer.IsWslMntPath | src/utils/path_normalizer.rs:180-189 | an accepted path is one `wsl_to_win` converts, four characters shorter |
| PathNormalizer.IsWslUncPath | src/utils/path_normalizer.rs:171-177 | an accepted path is at least as long as the shortest UNC prefix |
| PathNormalizer.WinWslRoundTrip | src/utils/path_normalizer.rs:74-112 | an upper-case drive path with backslashes survives Windows→WSL→Windows unchanged |
| PathNormalizer.WslWinRoundTrip | src/utils/path_normalizer.rs:74-112 | a lower-case /mnt path with forward slashes survives WSL→Windows→WSL unchanged |
| PathNormalizer.BuildWslUnc | src/utils/path_normalizer.rs:158-168 | the result starts with "\\\\wsl.localhost\\" and the distro; an absolute inner path follows with backslashes |
| PathNormalizer.UncRemainder | src/utils/path_normalizer.rs:126-133 | what follows either UNC prefix (matched case-insensitively after '/'→'\\') |
| PathNormalizer.SplitDistro | src/utils/path_normalizer.rs:134-153 | the distro is the non-empty text before the first '\\' and the inner path the rest with forward slashes, or "/" when there is none; an empty or separator-first remainder is rejected |
| PathNormalizer.ParseWslUnc | src/utils/path_normalizer.rs:126-156 | parses exactly when a UNC prefix is followed by a non-empty distro; the inner path is absolute with forward slashes |
| PathNormalizer.ParseBuildRoundTrip | src/utils/path_normalizer.rs:126-168 | parsing a built UNC path gives back the distro and the absolute inner path |
| PathNormalizer.UncPathHasRemainder | src/utils/path_normalizer.rs:171-177 | every path `is_wsl_unc_path` accepts has a UNC remainder |
| PathNormalizer.NormalizePath | src/utils/path_normalizer.rs:192-249 | per environment: UNC paths give their inner path as canonical; Windows converts /mnt paths to drive paths; WSL converts drive paths to /mnt paths; a Windows UNC path keeps the input as its local form; Unix and an unconverted Windows path keep the input as local and swap every '\\' for '/' in the canonical form; canonical never holds '\\' outside WSL |
| PathNormalizer.NormalizeRelativePath | src/utils/path_normalizer.rs:252-254 | every backslash becomes '/', every other character stays |
| PathNormalizer.NormalizeRelativePathIdempotent | src/utils/path_normalizer.rs:252-254 | normalising twice equals normalising once |
| Prompt.EndpointName | src/service/common.rs:38-48 | every endpoint displays as a non-empty lower-case ASCII name |
| Prompt.FromEnvStr | src/service/common.rs:52-60 | the trimmed, lower-cased text names the chosen endpoint; anything other than old/claude/openai/gemini gives the default New |
| Prompt.FromEnvStrDisplay | src/service/common.rs:38-60 | parsing an endpoint's display name gives back that endpoint |
| Prompt.ThirdPartyFromEnv | src/service/common.rs:52-66 | the parsed endpoint is third-party iff the text is claude, openai or gemini (trimmed, any case) |
| Prompt.IsThirdParty | src/service/common.rs:63-65 | exactly the endpoints other than the two Augment ones |
| Prompt.MapAuthError | src/service/common.rs:284-293 | an error exactly for 401 and 403, with the provider-prefixed message of each |
| Prompt.RenderEnhancePrompt | src/service/common.rs:258-268 | fails iff the template lacks the placeholder; otherwise the text before the first placeholder, the prompt verbatim, then the rest of the template |
| Prompt.BuildThirdPartyPrompt | src/service/common.rs:271-281 | the rendered prompt followed by the Chinese reply hint exactly when the prompt is Chinese text |
| Prompt.CjkCount | src/service/common.rs:229-231 | the count of U+4E00..U+9FA5 characters never exceeds the length |
| Prompt.NonWhitespaceCount | src/service/common.rs:241 | the count of non-whitespace characters never exceeds the length |
| Prompt.CjkNotWhitespace | src/service/common.rs:229-241 | every counted ideograph is also a non-whitespace character |
| Prompt.IsChineseText | src/service/common.rs:227-247 | Chinese iff at least 3 ideographs, or at least one making up at least a tenth of the non-whitespace characters |
| Prompt.CountsAppend | src/service/common.rs:229-241 | both counts add up over concatenation |
| Prompt.WhitespaceCounts | src/service/common.rs:241 | whitespace contributes to neither count |
| Prompt.ChineseIgnoresWhitespace | src/service/common.rs:227-247 | surrounding whitespace never changes the verdict |
| Prompt.NoToolNameInsideAce | src/service/common.rs:250-253 | neither Augment tool name overlaps "search_context" at any offset |
| Prompt.AceNowhereInToolName | src/service/common.rs:250-253 | the replacement cannot combine with neighbouring text into a new tool name |
| Prompt.ReplaceToolNames | src/service/common.rs:250-253 | no "codebase-retrieval" or "codebase_retrieval" remains; text without them is unchanged |
| Prompt.ToolRewriteFacts | src/service/common.rs:250-253 | the two successive replacements leave neither name and change nothing when neither occurs |
| Prompt.ReplaceToolNamesIdempotent | src/service/common.rs:250-253 | rewriting twice equals rewriting once |
| Prompt.OpenTagEnd | src/service/common.rs:212 | an opening tag at p ends at the first '>' after the tag name, with whitespace before any attributes |
| Prompt.FirstOpenTag | src/service/common.rs:209-224 | the leftmost opening tag from a position on, and none when there is none |
| Prompt.SkipWhitespace | src/service/common.rs:212 | the first non-whitespace position at or after k |
| Prompt.FirstCloseTag | src/service/common.rs:209-224 | the leftmost closing tag (optional whitespace before '>') from a position on |
| Prompt.TaggedSpan | src/service/common.rs:209-224 | the enclosed text runs from the end of the first opening tag to the first closing tag after it |
| Prompt.ExtractEnhancedPrompt | src/service/common.rs:209-224 | Some(trimmed enclosed text) iff a tagged span exists and it is not blank |
| Prompt.ExtractedIsTrimmed | src/service/common.rs:216-222 | an extracted prompt is never blank and never starts or ends with whitespace |
| Prompt.ExtractFromTaggedBlock | src/service/common.rs:209-224 | for a text with one tagged block, extraction gives exactly its trimmed content, or None when blank |
| Prompt.StripFirstPrefix | src/service/common.rs:189-207 | None iff no prefix matches; otherwise the text after a matching prefix |
| Prompt.ParseHistoryLine | src/service/common.rs:189-207 | a role exactly for lines starting with a user or assistant prefix; "user" iff a user prefix matches; the content is trimmed |
| Prompt.UserLine | src/service/common.rs:190-195 | "User:" + x gives ("user", trim(x)) |
| Prompt.AssistantLine | src/service/common.rs:197-202 | "Assistant:" + x gives ("assistant", trim(x)) |
| Prompt.AiLine | src/service/common.rs:197-202 | "AI:" + x gives ("assistant", trim(x)) |
| Prompt.NotUserLine | src/service/common.rs:190-195 | a line starting with 'A' matches no user prefix |
| Prompt.ClassifyKinds | src/service/common.rs:154-176 | a line is blank iff all whitespace, opens a message iff its trimmed form has a role prefix, and is otherwise kept verbatim |
| Prompt.BlankLine | src/service/common.rs:156-161 | an all-whitespace line is blank |
| Prompt.Kinds | src/service/common.rs:153 | one line kind per line |
| Prompt.ParseChatHistory | src/service/common.rs:149-187 | the loop returns exactly the messages the line-kind scan specifies |
| Prompt.HistoryLine | src/service/common.rs:154-176 | one iteration performs exactly one scan step on the line's kind |
| Prompt.ScanAppend | src/service/common.rs:153-177 | scanning a concatenation is scanning the parts in turn |
| Prompt.ScanFromOpener | src/service/common.rs:163-172 | an opening line closes whatever was open before it |
| Prompt.HistoryAppend | src/service/common.rs:149-187 | a conversation split before an opening line parses into the messages of each part, in order |
| Prompt.NoOpenerNoMessages | src/service/common.rs:173-175 | without an opening line there are no messages |
| Prompt.LeadingLinesDropped | src/service/common.rs:173-175 | lines before the first opening line are dropped |
| Prompt.BlankConversation | src/service/common.rs:156-161 | an all-blank conversation has no messages |
| Prompt.BodyTexts | src/service/common.rs:156-175 | the body text of each non-opening line ("" for a blank one) |
| Prompt.OneMessageScan | src/service/common.rs:163-175 | an opening line and its body lines form one open message |
| Prompt.OneMessage | src/service/common.rs:163-187 | an opener followed by body lines gives one message: the role, and the opener's text and the body lines joined with "\n" |
| Prompt.Roles | src/service/common.rs:149-187 | the roles of the messages, in order |
| Prompt.ScanRoles | src/service/common.rs:149-187 | the scan produces one message per opening line, with its role |
| Prompt.HistoryRoles | src/service/common.rs:149-187 | the message roles are exactly the roles of the opening lines, in order |
| Prompt.KnownRoles | src/service/common.rs:189-207 | every opening line has role "user" or "assistant" |
| ThirdParty.VersionRoot | src/service/claude.rs:42-44 | the base URL with trailing slashes and then one version suffix removed is always a prefix of the base URL |
| ThirdParty.VersionRootVariants | src/service/claude.rs:42-45 | a base, the base with a trailing slash, with the version suffix, and with both, all share one root |
| ThirdParty.VersionRootOnce | src/service/claude.rs:44 | only one version suffix is stripped |
| ThirdParty.ClaudeUrlVariants | src/service/claude.rs:42-46 | the messages URL is root + "/v1/messages", the same for base, base/, base/v1 and base/v1/ |
| ThirdParty.ClaudeUrl | src/service/claude.rs:42-46 | "/v1/messages" after a prefix of the base URL |
| ThirdParty.OpenAIUrl | src/service/openai.rs:45-49 | "/v1/chat/completions" after a prefix of the base URL |
| ThirdParty.GeminiUrl | src/service/gemini.rs:61-65 | "/v1beta/models/" + model + ":generateContent" after a prefix of the base URL |
| ThirdParty.OpenAIUrlVariants | src/service/openai.rs:45-49 | the completions URL is root + "/v1/chat/completions", the same for base, base/, base/v1 and base/v1/ |
| ThirdParty.GeminiUrlVariants | src/service/gemini.rs:61-65 | the URL is root + "/v1beta/models/" + model + ":generateContent", the same for every trailing variant |
| ThirdParty.ChatMessages | src/service/claude.rs:55-75 | the history messages unchanged and in order, followed by one user message carrying the final prompt |
| ThirdParty.GeminiRole | src/service/gemini.rs:80-84 | "model" exactly for "assistant", "user" for every other role |
| ThirdParty.GeminiContents | src/service/gemini.rs:77-95 | one content per history message with its Gemini role and its text as the only part, then the final prompt as a user content |
| ThirdParty.FinishReply | src/service/claude.rs:99-125 | 401/403 give the auth error; any other non-2xx gives "<provider> API failed: <status> - <body>"; on 2xx a text error passes through and a text becomes its tagged block's content when it has one, else itself, with tool names rewritten |
| ThirdParty.TaggedReplyExtracts | src/service/claude.rs:122-123 | a successful text holding a tagged block yields the block's trimmed content, with tool names rewritten |
| ThirdParty.StatusBeforeBody | src/service/claude.rs:99-105 | a non-2xx status fails the call whatever the body decodes to |
| ThirdParty.PlainTextPassesThrough | src/service/claude.rs:122-125 | a reply text without tag and tool names is returned unchanged |
| ThirdParty.ClaudeBlocksTextAppend | src/service/claude.rs:110-116 | the text of concatenated block runs is the concatenation of their texts |
| ThirdParty.ClaudeOtherBlockIgnored | src/service/claude.rs:113-114 | a non-text block, or a text block without text, adds nothing |
| ThirdParty.ClaudeText | src/service/claude.rs:107-120 | succeeds iff the body decodes and the joined text is non-empty, and then is that text |
| ThirdParty.OpenAIText | src/service/openai.rs:109-116 | succeeds iff the body decodes and the first choice has content, and then is that content |
| ThirdParty.GeminiText | src/service/gemini.rs:133-141 | succeeds iff the body decodes and the first candidate's first part has text, and then is that text |
| ThirdParty.ClaudeReply | src/service/claude.rs:94-125 | a success has a 2xx status and a decoded body, and its value is the joined block text, tag-extracted when tagged, with tool names rewritten |
| ThirdParty.OpenAIReply | src/service/openai.rs:96-121 | a success has a 2xx status and a first choice with content, and its value is that content, tag-extracted when tagged, with tool names rewritten |
| ThirdParty.GeminiReply | src/service/gemini.rs:120-146 | a success has a 2xx status and a first part with text, and its value is that text, tag-extracted when tagged, with tool names rewritten |
| ThirdParty.ClaudeReplyOk | src/service/claude.rs:94-125 | a Claude call succeeds iff 2xx status, decodable body and non-empty text |
| ThirdParty.OpenAIReplyOk | src/service/openai.rs:96-121 | an OpenAI call succeeds iff 2xx status, decodable body and a first choice with content |
| ThirdParty.GeminiReplyOk | src/service/gemini.rs:120-146 | a Gemini call succeeds iff 2xx status, decodable body and a first part with text |
| Augment.Texts | src/service/augment.rs:374-396 | at most one text per line, in line order |
| Augment.WholeBodyText | src/service/augment.rs:401-404 | succeeds iff the whole body decodes to a response with a text, and then is that text |
| Augment.ReadPayload | src/service/augment.rs:375-388 | the payload handed to the decoder is exactly the line's stream payload (trim, optional "data:" strip, trim, skip blank and "[DONE]") |
| Augment.StreamLine | src/service/augment.rs:390-395 | a line without a decoded text changes nothing; one with a text appends it and sets the parsed flag |
| Augment.ParseStreamingResponse | src/service/augment.rs:370-406 | the loop returns the concatenated line texts when any line parsed, and the whole-body fallback otherwise |
| Augment.StreamingResult | src/service/augment.rs:370-406 | succeeds once any line contributed a text; fails exactly when no line did and the whole body does not decode to a text |
| Augment.TextsAppend | src/service/augment.rs:374-396 | the texts of a concatenated body are the texts of each part, in order |
| Augment.TextsEmpty | src/service/augment.rs:398-400 | no texts iff no line contributes one |
| Augment.TextsSingle | src/service/augment.rs:390-395 | a single line contributes its text or nothing |
| Augment.BlankLineSkipped | src/service/augment.rs:375-378 | an all-whitespace line is skipped |
| Augment.EmptyTrimSkipped | src/service/augment.rs:375-378 | a line that trims to nothing is skipped |
| Augment.DoneLineSkipped | src/service/augment.rs:386-388 | the "[DONE]" marker is skipped |
| Augment.EmptyEventSkipped | src/service/augment.rs:381-388 | a bare "data:" line is skipped |
| Augment.JsonLinePayload | src/service/augment.rs:375-390 | a line whose trimmed form starts with '{' is decoded as that trimmed form |
| Augment.DataLinePayload | src/service/augment.rs:381-388 | a "data:" line hands on its trimmed rest, unless that is empty or "[DONE]" |
| Augment.DataLineCases | src/service/augment.rs:381-388 | a "data:" line carrying a JSON object hands on that object; "data: [DONE]" is skipped |
| Augment.NoFallbackOnceParsed | src/service/augment.rs:398-400 | once any line yields a text the result is the concatenation of the line texts, never the fallback |
| Augment.FallbackWhenNothingParsed | src/service/augment.rs:398-405 | when no line yields a text the whole body is decoded, and fails iff it does not decode or has no text |
| Augment.HandleResponseText | src/service/augment.rs:332-366 | 401 and 403 give their fixed errors, any other non-2xx the status and body; on 2xx the new endpoint returns the whole-body decoded text rewritten, or its decoding error, the old endpoint the streamed text's tagged block, or the whole streamed text when untagged, rewritten, or the streaming error |
| Augment.StatusBeforeParsing | src/service/augment.rs:333-345 | a failing status gives the same error whatever the body decodes to |
| Augment.OldEndpointExtracts | src/service/augment.rs:347-363 | on the old endpoint a tagged block in the streamed text yields its trimmed content, rewritten |
| Augment.OldEndpointUntagged | src/service/augment.rs:355-363 | on the old endpoint an untagged streamed text is returned whole, with tool names rewritten |
| ProjectDetector.GitignoreUpdate | src/utils/project_detector.rs:36-46 | no new content iff some line already ignores `.ace-tool`; new content always extends the old |
| ProjectDetector.GitignoreHasAceTool | src/utils/project_detector.rs:53-62 | a file that ignores `.ace-tool` is at least as long as that name |
| ProjectDetector.SingleLine | src/utils/project_detector.rs:54 | a text without line endings, ended by one, is one line |
| ProjectDetector.PlainEntry | src/utils/project_detector.rs:55-60 | a trimmed line without '#' names itself |
| ProjectDetector.AceDirEntryLine | src/utils/project_detector.rs:42-46 | the appended ".ace-tool/" line is one line and ignores the directory |
| ProjectDetector.EntryWithComment | src/utils/project_detector.rs:59 | a trailing " #comment" does not change the entry a line names |
| ProjectDetector.OnlyExactEntries | src/utils/project_detector.rs:60 | entries that merely start with ".ace-tool" (other than ".ace-tool/") do not count |
| ProjectDetector.UpdatedHasAceTool | src/utils/project_detector.rs:24-62 | after the update the file always ignores `.ace-tool` |
| ProjectDetector.UpdateIdempotent | src/utils/project_detector.rs:24-62 | updating twice equals updating once, and the second update writes nothing |
| ProjectDetector.UpdateAppends | src/utils/project_detector.rs:42-46 | ".ace-tool/\n" is appended, after a "\n" only when the old content does not already end with one |
| EnhancerServer.SplitOn | src/enhancer/server.rs:359-360 | at least one piece, none containing the separator |
| EnhancerServer.SplitOnJoin | src/enhancer/server.rs:359-360 | joining the pieces with the separator gives back the text |
| EnhancerServer.FirstSessionParam | src/enhancer/server.rs:360-367 | None iff no parameter is "session=…"; otherwise the value of such a parameter |
| EnhancerServer.SessionIdFromQuery | src/enhancer/server.rs:359-367 | no query gives no id, and an id never contains '&' |
| EnhancerServer.LeadingSessionParam | src/enhancer/server.rs:359-368 | "session=v&rest" yields v |
| EnhancerServer.ResolveSubmission | src/enhancer/server.rs:464-486 | the answer is the original prompt, the end marker or the content, and it is the content unless the content is a magic string or an action chose otherwise |
| EnhancerServer.UnknownActionIgnored | src/enhancer/server.rs:474-485 | an unknown action falls back to the magic-string rule |
| EnhancerServer.ActionWins | src/enhancer/server.rs:466-473 | "use_original" gives the original prompt and "end_conversation" the end marker, whatever the content |
| EnhancerServer.SessionTable.constructor | src/enhancer/server.rs:78-87 | empty tables, no callback, and the table invariant |
| EnhancerServer.SessionTable.SetEnhanceCallback | src/enhancer/server.rs:275-278 | only the callback changes |
| EnhancerServer.SessionTable.CreateSession | src/enhancer/server.rs:190-231 | a Pending session and a responder under the fresh id; nothing else changes; a session is Pending exactly while its responder is registered |
| EnhancerServer.SessionTable.GetSessionData | src/enhancer/server.rs:354-411 | 400 without a session parameter, 404 for an unknown id, otherwise the session's prompt, status name and creation time with the 8-minute timeout |
| EnhancerServer.SessionTable.Submit | src/enhancer/server.rs:415-500 | 400 for a bad body, 404 for an unknown id, 400 for a non-Pending session, all without change; otherwise the session is Completed, its responder removed and the resolved answer sent |
| EnhancerServer.SessionTable.ReEnhance | src/enhancer/server.rs:504-597 | the same guards plus 500 without a callback; with a callback on a Pending session, Ok(v) answers v and stores it as the session's enhanced prompt, the only change, and Err(e) answers 500 "Enhancement failed: " + e with no change |
| EnhancerServer.SessionTable.WaitForSession | src/enhancer/server.rs:234-271 | the session is removed in every case; a sent answer is received, a registered responder means timeout and is removed, otherwise the channel closed |
| EnhancerServer.SubmitOnce | src/enhancer/server.rs:190-500 | create, submit, submit again, wait: the first submit succeeds, the second is refused, the waiter receives the resolved answer and the session is gone |
| Tools.NormalizeRoot | src/tools/search_context.rs:126 | no backslash remains and the length is kept |
| Tools.SearchContext | src/tools/search_context.rs:106-165 | the query guard, then the path guard, then missing path, non-directory, and the search result or its error, each with its exact text |
| Tools.QueryCheckedFirst | src/tools/search_context.rs:107-114 | without a query the result does not depend on the path, the filesystem or the index |
| Tools.SearchPathNormalized | src/tools/search_context.rs:125-141 | a path and its normalised form give the same result |
| Tools.EnhancePrompt | src/tools/enhance_prompt.rs:87-143 | the prompt guard; an absent history is ""; the root is normalised; the flag chooses the simple enhancer; the result or "Error: " + its error |
| Tools.EnhanceDefaults | src/tools/enhance_prompt.rs:97-106 | an absent history equals an empty one and an absent root stays absent |
| McpServer.HandleCallTool | src/mcp/server.rs:121-166 | the id is echoed; an error, always -32602, exactly for missing or undecodable params, an unknown tool or undecodable arguments; otherwise the tool's text |
| McpServer.AbsentArgumentsDefault | src/mcp/server.rs:138-150 | a call without arguments answers "Error: query is required" |
| McpServer.OnlySearchContextCallable | src/mcp/server.rs:164 | any other tool name gives "Unknown tool" |
| McpServer.HandleRequest | src/mcp/server.rs:69-118 | no reply exactly for "initialized"; the id is echoed; the fixed server info, the one-tool list, the empty ping reply, and -32601 for an unknown method |
| McpServer.DispatchErrorCodes | src/mcp/server.rs:69-82 | -32601 exactly for unknown methods and -32602 exactly for tools/call |
| McpServer.LineResponse | src/mcp/server.rs:36-61 | an empty line gets no reply; an undecodable line gets a -32700 error without id |
| McpServer.ResponsesAppend | src/mcp/server.rs:27-66 | the responses to a stream are those to its parts, in order: a bad line does not stop the server |
| McpServer.ResponsesBounded | src/mcp/server.rs:27-66 | at most one response per line, none for empty lines |
| McpServer.Run | src/mcp/server.rs:27-66 | the loop writes exactly the responses to the lines read, in order |
| HttpLogger.SensitiveInAnyCase | src/http_logger.rs:24-31 | each listed header is recognised as written and in upper case |
| HttpLogger.IsSensitiveHeader | src/http_logger.rs:166-169 | a name judged sensitive has between 6 and 19 characters, the lengths of the listed names |
| HttpLogger.MaskToken | src/http_logger.rs:181-209 | the mask keeps the "Bearer " scheme exactly when the value has it, and has at most 18 characters |
| HttpLogger.ShowEnds | src/http_logger.rs:186-191 | a secret of more than eight characters shows exactly its first four and last four around "...", 11 characters in all |
| HttpLogger.MaskTokenByChars | src/http_logger.rs:181-209 | the byte-length test never decides anything: the mask is "Bearer " plus the token's ends, or the value's ends, by character count alone |
| HttpLogger.MaskHidesMiddle | src/http_logger.rs:181-209 | two values with the same scheme and the same four first and last characters mask alike: the middle is never revealed |
| HttpLogger.MaskSensitiveHeader | src/http_logger.rs:172-178 | a non-sensitive value passes unchanged; a sensitive one is masked to at most 18 characters |
| HttpLogger.BoundaryChars | src/http_logger.rs:232 | a byte offset that is a boundary is the byte length of that many whole characters |
| HttpLogger.PrefixEndIsBoundary | src/http_logger.rs:232 | the end of every whole-character prefix is a boundary |
| HttpLogger.FittingChars | src/http_logger.rs:231-234 | the longest whole-character prefix within the byte budget: it fits, one more character would not |
| HttpLogger.TruncatedShape | src/http_logger.rs:225-237 | a body within the limit is kept; a longer one keeps a prefix within the limit and less than four bytes short of it, then the note with the total byte count |
| HttpLogger.Truncated | src/http_logger.rs:225-237 | a body within the limit is unchanged; a longer one ends with the truncation note, preceded by at most `max` bytes |
| HttpLogger.TruncateUtf8Safe | src/http_logger.rs:225-237 | the walk down to a boundary yields exactly the truncation of the longest fitting prefix |
| HttpLogger.LargestBoundary | src/http_logger.rs:231-234 | the first boundary found walking down from the limit is the end of the longest fitting prefix |
| HttpLogger.NextCharBytes | src/http_logger.rs:232-234 | one more character adds one to four bytes |
| Strings.LinesAppend | src/service/augment.rs:374 | splitting into lines distributes over concatenation at a line end |
| Strings.ParseNatToString | src/index/manager.rs:563-567 | a decimal rendering of a 64-bit value parses back to that value |
| Strings.ParseU64 | src/index/manager.rs:567 | a parsed value is below 2^64 |
| Strings.TrimEmptyIff | src/service/augment.rs:375-378 | trimming gives "" exactly for all-whitespace text |
| Strings.ReplaceCharInverse | src/utils/path_normalizer.rs:74-112 | replacing a character by one absent from the text and back restores it |

## Left out

- JSON (serde) encoding and decoding is abstract. Decoders are function parameters or arrive as pre-decoded datatypes with their error text, so serde's exact error messages are not modelled.
- Network I/O is not modelled. Every HTTP exchange is reduced to its status, headers and body text, supplied by an oracle or a parameter. In the index manager a transport failure is one abstract outcome. The third-party clients' "API request failed" error for a request that never got a reply is left out.
- Status text in error messages is left out. Where the source formats a `reqwest::StatusCode` ("404 Not Found"), the model writes only the number; the reason phrase is left out.
- Filesystem access is not modelled: the directory walk, `.gitignore` library matching, file reading and encoding detection, the index file, and the `.ace-tool` directory and `.gitignore` reads and writes. Their results are parameters, and a path's kind is an oracle.
- SHA-256 blob naming and UUID generation are parameters. A fresh session id carries a precondition that it was never issued before.
- The EWMA latency average and its ratio test are floating point and are not modelled. The latency classification is an input of each strategy step. The f64 success-rate thresholds are replaced by exact cross-multiplications, and `×1.5` and `×0.8` by `3t/2` and `4t/5` rounded down. These agree with the f64 results for every timeout the strategy can hold.
- Concurrency is modelled sequentially. `buffer_unordered` completion order is not modelled: batch results are accounted in batch order, and the order of a `HashSet` iteration is an arbitrary enumeration. Locks, the oneshot channels and the 8-minute timer are modelled one event at a time. Waiting is the moment the wait ends, with a registered responder meaning the timer fired.
- The stdio loop reads a finite sequence of lines. Writing, flushing and the -32603 error for a response that fails to serialise are left out.
- Content-Length framing of MCP messages is not part of this model. The server modelled reads newline-delimited messages only.
- The enhancer web page's HTTP layer (port probing, routing, CORS, the request body size limit, the HTML page) is left out. Reading a submit or re-enhance body gives either a request or an error text.
- `PromptEnhancer::new` failing inside `enhance_prompt` is folded into the enhancer parameter's error, which produces the same "Error: " text.
- `enhance` and `enhance_simple`, the Augment and third-party HTTP calls themselves, and the environment lookup of the third-party settings are left out. Only their inputs and reply handling are modelled.
- The prompt template's text is a parameter.
- Logging (`tracing`), the HTTP request logger's file output, and its environment switch are left out.
- The configuration's extension, file-name and exclude tables are not modelled.
- `RuntimeEnv::detect` is left out; the environment is an input of path normalisation.
- IndexManager.MatchPattern: patterns containing regex metacharacters other than '.', '*' and '?' are excluded by its precondition. The source passes them unescaped to the regex engine, and an invalid regex matches nothing.
- Adaptive.InitialStrategy: the pinned timeout `upload_timeout_secs * 1000` is unbounded, so a pin large enough to overflow a u64 (a panic in debug builds, wrap-around in release builds) is not modelled.
- Adaptive.AdaptiveStrategy.constructor: the same unbounded `upload_timeout_secs * 1000` as `InitialStrategy`, so a u64 overflow there is not modelled.
- IndexManager.UploadBatch: the `retry_after * 1000` multiplication is unbounded, so a Retry-After value near 2^64 that would overflow a u64 is not modelled.
- Rust's `to_lowercase` on header names is modelled for ASCII letters and the Kelvin sign only. These are the only characters whose lowercase is an ASCII letter, so comparisons with the ASCII header names are exact.

## Findings

| source | as written | input that shows it | evidently intended | confidence | as-written member | corrected member |
|---|---|---|---|---|---|---|
| src/config.rs:64-66 | the empty-base-URL check runs after the scheme rewrite, when the URL is never empty, so it cannot fire | base_url "" with token "t" is accepted and stored as "https:" | an empty base URL is rejected with "base_url cannot be empty" | not executed | Config.EmptyBaseUrlAccepted | Config.NewChecked |

=== FILE: adaptive.dfy ===
/**
  The AIMD (additive increase, multiplicative decrease) upload strategy: a
  warmup phase at concurrency 1, then adjustments gated by a minimum number
  of samples and a cooldown, with command-line pins that freeze a parameter.

  The state is specified as a value (`StrategyState`) and one step of
  `record_outcome` as the function `Step`; the class `AdaptiveStrategy`
  updates its fields in place and is proved to follow `Step`. Success-rate
  thresholds are compared exactly by cross-multiplication, and the EWMA
  latency classification is an input of each step.
*/
module Adaptive {
  import opened Wrappers
  import opened Config
  import opened Metrics

  const MinConcurrency: nat := 1
  const MaxConcurrency: nat := 8
  const MinTimeoutMs: nat := 15000
  const MaxTimeoutMs: nat := 180000
  const MinSamples: nat := 20
  const CooldownRequests: nat := 5
  const WarmupRequests: nat := 5
  const MaxWarmupRequests: nat := 10
  const MetricsWindowSize: nat := 20

  datatype StrategyAdjustment = Upgrade | Downgrade | NoChange

  datatype WarmupState = Active | Completed

  /** The fields of `AdaptiveStrategy`, as a value. */
  datatype StrategyState = StrategyState(
    concurrency: nat,
    timeoutMs: nat,
    targetConcurrency: nat,
    targetTimeoutMs: nat,
    batchSize: nat,
    metrics: MetricsState,
    adaptiveEnabled: bool,
    overrides: CliOverrides,
    warmup: WarmupState,
    warmupRequestCount: nat)

  /** The new state and the adjustment reported by one step. */
  datatype StepResult = StepResult(state: StrategyState, adjustment: StrategyAdjustment)

  /** One recorded outcome with the latency classification that follows it. */
  datatype Observation = Observation(outcome: RequestOutcome, health: LatencyHealth)

  function Max(a: nat, b: nat): nat { if a >= b then a else b }

  function Min(a: nat, b: nat): nat { if a <= b then a else b }

  predicate ConcurrencyPinned(s: StrategyState) { s.overrides.uploadConcurrency.Some? }

  predicate TimeoutPinned(s: StrategyState) { s.overrides.uploadTimeoutSecs.Some? }

  /** `AdaptiveStrategy::new`: warmup at concurrency 1 when adaptive and the
      concurrency is not pinned; otherwise the target (pin or tier, at least
      1) from the start. The timeout is the pin in milliseconds, else the
      tier's timeout. */
  function InitialStrategy(blobCount: nat, overrides: CliOverrides, adaptiveEnabled: bool): (s: StrategyState)
    ensures var tier := GetUploadStrategy(blobCount);
            && (adaptiveEnabled && overrides.uploadConcurrency.None? ==> s.concurrency == 1 && s.warmup == Active)
            && (!(adaptiveEnabled && overrides.uploadConcurrency.None?) ==>
                  s.warmup == Completed
                  && s.concurrency == Max(overrides.uploadConcurrency.GetOr(tier.concurrency), 1))
            && s.timeoutMs == (if overrides.uploadTimeoutSecs.Some? then overrides.uploadTimeoutSecs.value * 1000 else tier.timeoutMs)
            && s.batchSize == tier.batchSize
            && s.metrics == Metrics.Initial(MetricsWindowSize)
  {
    var tier := GetUploadStrategy(blobCount);
    var targetConcurrency := Max(overrides.uploadConcurrency.GetOr(tier.concurrency), MinConcurrency);
    var targetTimeoutMs := if overrides.uploadTimeoutSecs.Some? then overrides.uploadTimeoutSecs.value * 1000 else tier.timeoutMs;
    var warm := adaptiveEnabled && overrides.uploadConcurrency.None?;
    StrategyState(
      if warm then MinConcurrency else targetConcurrency,
      targetTimeoutMs,
      targetConcurrency,
      targetTimeoutMs,
      tier.batchSize,
      Metrics.Initial(MetricsWindowSize),
      adaptiveEnabled,
      overrides,
      if warm then Active else Completed,
      0)
  }

  /** `apply_downgrade`: halve the concurrency (at least 1) and stretch the
      timeout by half (at most 180 s), each unless pinned. */
  function Downgraded(s: StrategyState): (r: StrategyState)
    ensures r == s.(concurrency := r.concurrency, timeoutMs := r.timeoutMs)
    ensures r.concurrency <= s.concurrency || r.concurrency == MinConcurrency
    ensures r.timeoutMs >= s.timeoutMs || r.timeoutMs == MaxTimeoutMs
    ensures ConcurrencyPinned(s) ==> r.concurrency == s.concurrency
    ensures TimeoutPinned(s) ==> r.timeoutMs == s.timeoutMs
  {
    s.(concurrency := if ConcurrencyPinned(s) then s.concurrency else Max(s.concurrency / 2, MinConcurrency),
       timeoutMs := if TimeoutPinned(s) then s.timeoutMs else Min(s.timeoutMs * 3 / 2, MaxTimeoutMs))
  }

  /** `apply_upgrade`: one more connection unless at the maximum or the
      target, a fifth off the timeout unless at the minimum or the target;
      NoChange when neither moves. */
  function Upgraded(s: StrategyState): (r: StepResult)
    ensures r.adjustment != Downgrade
    ensures r.adjustment == NoChange ==> r.state == s
    ensures r.state == s.(concurrency := r.state.concurrency, timeoutMs := r.state.timeoutMs)
    ensures r.state.concurrency >= s.concurrency && r.state.timeoutMs <= s.timeoutMs
    ensures r.adjustment == Upgrade ==> r.state.concurrency > s.concurrency || r.state.timeoutMs < s.timeoutMs
  {
    var atMaxConcurrency := s.concurrency >= MaxConcurrency || s.concurrency >= s.targetConcurrency;
    var atMinTimeout := s.timeoutMs <= MinTimeoutMs || s.timeoutMs <= s.targetTimeoutMs;
    if atMaxConcurrency && atMinTimeout then StepResult(s, NoChange)
    else
      var c := if !ConcurrencyPinned(s) && !atMaxConcurrency then Min(s.concurrency + 1, MaxConcurrency) else s.concurrency;
      var t := if !TimeoutPinned(s) && !atMinTimeout then Max(s.timeoutMs * 4 / 5, MinTimeoutMs) else s.timeoutMs;
      if c == s.concurrency && t == s.timeoutMs then StepResult(s, NoChange)
      else StepResult(s.(concurrency := c, timeoutMs := t), Upgrade)
  }

  /** `check_warmup_exit`, on the state whose warmup count already includes
      this request. */
  function WarmupExit(s: StrategyState, health: LatencyHealth): (r: StepResult)
    ensures r.adjustment != Downgrade
    ensures r.state == s.(warmup := r.state.warmup, concurrency := r.state.concurrency, metrics := r.state.metrics)
    ensures r.state.metrics.window == s.metrics.window
    ensures r.adjustment == NoChange ==> r.state.concurrency == s.concurrency && r.state.metrics == s.metrics
    ensures r.adjustment == Upgrade ==> r.state.warmup == Completed && r.state.metrics.requestsSinceAdjustment == 0
  {
    if s.warmupRequestCount < WarmupRequests then StepResult(s, NoChange)
    else if s.warmupRequestCount >= MaxWarmupRequests then StepResult(s.(warmup := Completed), NoChange)
    else if |s.metrics.window| == 0 then StepResult(s, NoChange)
    else
      var rate := SuccessRate(s.metrics.window);
      if AtLeast(rate, 9, 10) && health != High then
        StepResult(s.(warmup := Completed,
                      concurrency := if ConcurrencyPinned(s) then s.concurrency else s.targetConcurrency,
                      metrics := AdjustmentReset(s.metrics)),
                   Upgrade)
      else if Below(rate, 7, 10) then StepResult(s.(warmup := Completed), NoChange)
      else StepResult(s, NoChange)
  }

  /** `evaluate_adjustment`: gating, then downgrade before upgrade; any
      adjustment restarts the cooldown. */
  function Evaluate(s: StrategyState, health: LatencyHealth): (r: StepResult)
    ensures r.adjustment == NoChange ==> r.state == s
    ensures r.adjustment != NoChange ==> r.state.metrics == AdjustmentReset(s.metrics)
    ensures r.state == s.(concurrency := r.state.concurrency, timeoutMs := r.state.timeoutMs, metrics := r.state.metrics)
  {
    if |s.metrics.window| < MinSamples then StepResult(s, NoChange)
    else if s.metrics.requestsSinceAdjustment < CooldownRequests then StepResult(s, NoChange)
    else
      var rate := SuccessRate(s.metrics.window);
      var r :=
        if Below(rate, 7, 10) || s.metrics.rateLimitCount > 0 || health == High then StepResult(Downgraded(s), Downgrade)
        else if Above(rate, 95, 100) && health == Healthy then Upgraded(s)
        else StepResult(s, NoChange);
      if r.adjustment != NoChange then r.(state := r.state.(metrics := AdjustmentReset(r.state.metrics)))
      else r
  }

  /** `record_outcome` */
  function Step(s: StrategyState, o: RequestOutcome, health: LatencyHealth): (r: StepResult)
    ensures r.state.metrics.window == Recorded(s.metrics, o).window
    ensures r.state.warmupRequestCount == s.warmupRequestCount + (if s.warmup == Active then 1 else 0)
    ensures s.warmup == Completed ==> r.state.warmup == Completed
    ensures s.warmup == Active ==> r.state.timeoutMs == s.timeoutMs
  {
    var recorded := s.(metrics := Recorded(s.metrics, o));
    if recorded.warmup == Active then
      WarmupExit(recorded.(warmupRequestCount := recorded.warmupRequestCount + 1), health)
    else if !recorded.adaptiveEnabled then StepResult(recorded, NoChange)
    else if ConcurrencyPinned(recorded) && TimeoutPinned(recorded) then StepResult(recorded, NoChange)
    else Evaluate(recorded, health)
  }

  /** The state after a sequence of observations. */
  function Run(s: StrategyState, obs: seq<Observation>): StrategyState
    decreases |obs|
  {
    if obs == [] then s else Run(Step(s, obs[0].outcome, obs[0].health).state, obs[1..])
  }

  /** The adjustments reported along a sequence of observations. */
  function Adjustments(s: StrategyState, obs: seq<Observation>): (r: seq<StrategyAdjustment>)
    ensures |r| == |obs|
    decreases |obs|
  {
    if obs == [] then []
    else
      var step := Step(s, obs[0].outcome, obs[0].health);
      [step.adjustment] + Adjustments(step.state, obs[1..])
  }

  /** The invariant kept by every step: concurrency at least 1 and, unless
      pinned, at most the tier target; an unpinned timeout within
      [15 s, 180 s]; pinned values equal to their pins; warmup only while
      adaptive and unpinned, at concurrency 1 and before the forced exit;
      the metrics window consistent. */
  predicate Inv(s: StrategyState) {
    && ValidState(s.metrics)
    && s.metrics.windowSize == MetricsWindowSize
    && s.concurrency >= MinConcurrency
    && (!ConcurrencyPinned(s) ==> s.concurrency <= s.targetConcurrency <= 4)
    && (ConcurrencyPinned(s) ==>
          s.concurrency == s.targetConcurrency == Max(s.overrides.uploadConcurrency.value, MinConcurrency))
    && (!TimeoutPinned(s) ==> MinTimeoutMs <= s.timeoutMs <= MaxTimeoutMs && 30000 <= s.targetTimeoutMs <= 90000)
    && (TimeoutPinned(s) ==> s.timeoutMs == s.targetTimeoutMs == s.overrides.uploadTimeoutSecs.value * 1000)
    && (s.warmup == Active ==>
          s.adaptiveEnabled && !ConcurrencyPinned(s) && s.concurrency == MinConcurrency
          && s.warmupRequestCount < MaxWarmupRequests)
  }

  lemma InitialStrategyInv(blobCount: nat, overrides: CliOverrides, adaptiveEnabled: bool)
    ensures Inv(InitialStrategy(blobCount, overrides, adaptiveEnabled))
  {
  }

  /** `r` satisfies the invariant and has the pins, the targets, the batch
      size and the adaptive flag of `s`. */
  predicate Keeps(s: StrategyState, r: StrategyState) {
    && Inv(r)
    && r.overrides == s.overrides && r.adaptiveEnabled == s.adaptiveEnabled
    && r.targetConcurrency == s.targetConcurrency && r.targetTimeoutMs == s.targetTimeoutMs
    && r.batchSize == s.batchSize
  }

  /** Every step keeps the invariant and never touches the pins, the
      targets, the batch size or the adaptive flag. */
  lemma StepPreservesInv(s: StrategyState, o: RequestOutcome, health: LatencyHealth)
    requires Inv(s)
    ensures Keeps(s, Step(s, o, health).state)
  {
    var recorded := s.(metrics := Recorded(s.metrics, o));
    var r := Step(s, o, health).state;
    RecordedInv(s, o);
    StepCases(s, o, health);
    if recorded.warmup == Active {
      WarmupExitPreservesInv(recorded, health);
      KeepsTransfer(s, recorded, WarmupExit(recorded.(warmupRequestCount := recorded.warmupRequestCount + 1), health).state, r);
    } else if recorded.adaptiveEnabled && !(ConcurrencyPinned(recorded) && TimeoutPinned(recorded)) {
      EvaluatePreservesInv(recorded, health);
      KeepsTransfer(s, recorded, Evaluate(recorded, health).state, r);
    } else {
      KeepsTransfer(s, recorded, recorded, r);
    }
  }

  /** Recording an outcome changes none of the fields `Keeps` compares. */
  lemma KeepsTransfer(s: StrategyState, recorded: StrategyState, w: StrategyState, r: StrategyState)
    requires recorded == s.(metrics := recorded.metrics)
    requires Keeps(recorded, w) && r == w
    ensures Keeps(s, r)
  {
  }

  /** The three branches of `Step`, each with the state it hands on. */
  lemma StepCases(s: StrategyState, o: RequestOutcome, health: LatencyHealth)
    ensures var recorded := s.(metrics := Recorded(s.metrics, o));
            && (recorded.warmup == Active ==>
                  Step(s, o, health) == WarmupExit(recorded.(warmupRequestCount := recorded.warmupRequestCount + 1), health))
            && (recorded.warmup != Active && recorded.adaptiveEnabled && !(ConcurrencyPinned(recorded) && TimeoutPinned(recorded)) ==>
                  Step(s, o, health) == Evaluate(recorded, health))
            && (recorded.warmup != Active && !(recorded.adaptiveEnabled && !(ConcurrencyPinned(recorded) && TimeoutPinned(recorded))) ==>
                  Step(s, o, health).state == recorded)
  {
  }

  lemma RecordedInv(s: StrategyState, o: RequestOutcome)
    requires Inv(s)
    ensures Inv(s.(metrics := Recorded(s.metrics, o)))
  {
  }

  lemma WarmupExitPreservesInv(s: StrategyState, health: LatencyHealth)
    requires Inv(s) && s.warmup == Active
    ensures Keeps(s, WarmupExit(s.(warmupRequestCount := s.warmupRequestCount + 1), health).state)
  {
    var counted := s.(warmupRequestCount := s.warmupRequestCount + 1);
    assert WarmupExit(counted, health).state.warmup == Active ==> counted.warmupRequestCount < MaxWarmupRequests;
  }

  lemma EvaluatePreservesInv(s: StrategyState, health: LatencyHealth)
    requires Inv(s) && s.warmup == Completed
    ensures Keeps(s, Evaluate(s, health).state)
  {
    DowngradedInv(s);
    UpgradedInv(s);
  }

  lemma DowngradedInv(s: StrategyState)
    requires Inv(s) && s.warmup == Completed
    ensures Inv(Downgraded(s))
    ensures Inv(Downgraded(s).(metrics := AdjustmentReset(s.metrics)))
  {
  }

  lemma UpgradedInv(s: StrategyState)
    requires Inv(s) && s.warmup == Completed
    ensures Inv(Upgraded(s).state)
    ensures Inv(Upgraded(s).state.(metrics := AdjustmentReset(s.metrics)))
    ensures Upgraded(s).state.metrics == s.metrics
  {
  }

  /** The invariant holds after any sequence of observations. */
  lemma {:induction false} RunPreservesInv(s: StrategyState, obs: seq<Observation>)
    requires Inv(s)
    ensures var r := Run(s, obs);
            && Inv(r)
            && r.overrides == s.overrides
            && r.targetConcurrency == s.targetConcurrency && r.targetTimeoutMs == s.targetTimeoutMs
    decreases |obs|
  {
    if obs != [] {
      StepPreservesInv(s, obs[0].outcome, obs[0].health);
      RunPreservesInv(Step(s, obs[0].outcome, obs[0].health).state, obs[1..]);
    }
  }

  /** From any starting configuration and after any outcomes: concurrency
      is at least 1; unpinned, it is at most the tier concurrency (so at most
      4, below the maximum of 8) and the timeout stays in [15 s, 180 s];
      pinned, each stays at its starting value. */
  lemma BoundsAfterAnyRun(blobCount: nat, overrides: CliOverrides, adaptiveEnabled: bool, obs: seq<Observation>)
    ensures var s0 := InitialStrategy(blobCount, overrides, adaptiveEnabled);
            var r := Run(s0, obs);
            && r.concurrency >= MinConcurrency
            && (overrides.uploadConcurrency.None? ==>
                  r.concurrency <= GetUploadStrategy(blobCount).concurrency <= 4 < MaxConcurrency)
            && (overrides.uploadConcurrency.Some? ==> r.concurrency == s0.concurrency)
            && (overrides.uploadTimeoutSecs.None? ==> MinTimeoutMs <= r.timeoutMs <= MaxTimeoutMs)
            && (overrides.uploadTimeoutSecs.Some? ==> r.timeoutMs == s0.timeoutMs)
  {
    var s0 := InitialStrategy(blobCount, overrides, adaptiveEnabled);
    InitialStrategyInv(blobCount, overrides, adaptiveEnabled);
    RunPreservesInv(s0, obs);
  }

  /** A pinned parameter is never changed by a step. */
  lemma PinnedNeverChanges(s: StrategyState, o: RequestOutcome, health: LatencyHealth)
    requires Inv(s)
    ensures ConcurrencyPinned(s) ==> Step(s, o, health).state.concurrency == s.concurrency
    ensures TimeoutPinned(s) ==> Step(s, o, health).state.timeoutMs == s.timeoutMs
  {
    StepPreservesInv(s, o, health);
  }

  /** With adaptive mode off, or both parameters pinned, a step reports
      NoChange and leaves concurrency and timeout as they were. */
  lemma InactiveNeverAdjusts(s: StrategyState, o: RequestOutcome, health: LatencyHealth)
    requires Inv(s)
    requires !s.adaptiveEnabled || (ConcurrencyPinned(s) && TimeoutPinned(s))
    ensures Step(s, o, health).adjustment == NoChange
    ensures Step(s, o, health).state.concurrency == s.concurrency
    ensures Step(s, o, health).state.timeoutMs == s.timeoutMs
  {
  }

  /** Outside warmup, nothing is adjusted while the window holds fewer than
      20 samples or fewer than 5 requests passed since the last adjustment. */
  lemma GatedStepNoChange(s: StrategyState, o: RequestOutcome, health: LatencyHealth)
    requires Inv(s) && s.warmup == Completed
    requires var m := Recorded(s.metrics, o);
             |m.window| < MinSamples || m.requestsSinceAdjustment < CooldownRequests
    ensures Step(s, o, health).adjustment == NoChange
    ensures Step(s, o, health).state == s.(metrics := Recorded(s.metrics, o))
  {
  }

  /** Every Upgrade or Downgrade restarts the cooldown. */
  lemma AdjustmentRestartsCooldown(s: StrategyState, o: RequestOutcome, health: LatencyHealth)
    requires Step(s, o, health).adjustment != NoChange
    ensures Step(s, o, health).state.metrics.requestsSinceAdjustment == 0
  {
  }

  /** Downgrade: once the gates are passed, a success rate below 70 %, a
      rate-limited outcome anywhere in the window or high latency downgrades,
      before any upgrade is considered; concurrency is halved (at least 1)
      and the timeout grows by half (at most 180 s), unless pinned. */
  lemma DowngradeRule(s: StrategyState, o: RequestOutcome, health: LatencyHealth)
    requires Inv(s) && s.warmup == Completed && s.adaptiveEnabled
    requires !(ConcurrencyPinned(s) && TimeoutPinned(s))
    requires var m := Recorded(s.metrics, o);
             && |m.window| >= MinSamples && m.requestsSinceAdjustment >= CooldownRequests
             && (Below(SuccessRate(m.window), 7, 10)
                 || (exists i :: 0 <= i < |m.window| && IsRateLimited(m.window[i]))
                 || health == High)
    ensures var r := Step(s, o, health);
            && r.adjustment == Downgrade
            && r.state.concurrency == (if ConcurrencyPinned(s) then s.concurrency else Max(s.concurrency / 2, 1))
            && r.state.timeoutMs == (if TimeoutPinned(s) then s.timeoutMs else Min(s.timeoutMs * 3 / 2, MaxTimeoutMs))
            && r.state.metrics.requestsSinceAdjustment == 0
  {
    var m := Recorded(s.metrics, o);
    RateLimitCountPositive(m.window);
  }

  /** Upgrade outside warmup happens only with more than 95 % successes, no
      rate-limited outcome in the window and healthy latency; concurrency
      grows by exactly one and only below both the maximum and the target,
      the timeout shrinks to four fifths (at least 15 s) only above both the
      minimum and the target, and at least one of them moves. */
  lemma UpgradeRule(s: StrategyState, o: RequestOutcome, health: LatencyHealth)
    requires Inv(s) && s.warmup == Completed
    requires Step(s, o, health).adjustment == Upgrade
    ensures var m := Recorded(s.metrics, o);
            && Above(SuccessRate(m.window), 95, 100)
            && !(exists i :: 0 <= i < |m.window| && IsRateLimited(m.window[i]))
            && health == Healthy
    ensures var r := Step(s, o, health).state;
            && (r.concurrency == s.concurrency
                || (r.concurrency == s.concurrency + 1 && s.concurrency < MaxConcurrency && s.concurrency < s.targetConcurrency))
            && (r.timeoutMs == s.timeoutMs
                || (r.timeoutMs == Max(s.timeoutMs * 4 / 5, MinTimeoutMs)
                    && s.timeoutMs > MinTimeoutMs && s.timeoutMs > s.targetTimeoutMs))
            && (r.concurrency != s.concurrency || r.timeoutMs != s.timeoutMs)
  {
    var m := Recorded(s.metrics, o);
    RateLimitCountPositive(m.window);
  }

  /** An unpinned strategy below its target gains exactly one connection on
      an upgrade. */
  lemma UpgradeAddsOne(s: StrategyState, o: RequestOutcome, health: LatencyHealth)
    requires Inv(s) && s.warmup == Completed && s.adaptiveEnabled && !ConcurrencyPinned(s)
    requires s.concurrency < s.targetConcurrency
    requires var m := Recorded(s.metrics, o);
             && |m.window| >= MinSamples && m.requestsSinceAdjustment >= CooldownRequests
             && Above(SuccessRate(m.window), 95, 100) && m.rateLimitCount == 0 && health == Healthy
    ensures Step(s, o, health).adjustment == Upgrade
    ensures Step(s, o, health).state.concurrency == s.concurrency + 1
  {
    var m := Recorded(s.metrics, o);
    assert !Below(SuccessRate(m.window), 7, 10);
  }

  /** Warmup: requests 1 to 4 change nothing; the 10th ends warmup before
      any success check; in between, at least 90 % successes with latency not
      high jump to the target concurrency and report Upgrade, and fewer than
      70 % end warmup at concurrency 1. A 5xx still counts as a warmup
      request although it adds no sample. */
  lemma WarmupRules(s: StrategyState, o: RequestOutcome, health: LatencyHealth)
    requires Inv(s) && s.warmup == Active
    ensures var r := Step(s, o, health);
            var n := s.warmupRequestCount + 1;
            var m := Recorded(s.metrics, o);
            && r.state.warmupRequestCount == n
            && r.state.metrics.window == m.window
            && (n < WarmupRequests ==> r.adjustment == NoChange && r.state.warmup == Active && r.state.concurrency == 1)
            && (n >= MaxWarmupRequests ==> r.adjustment == NoChange && r.state.warmup == Completed && r.state.concurrency == 1)
            && (WarmupRequests <= n < MaxWarmupRequests && |m.window| > 0 ==>
                  (AtLeast(SuccessRate(m.window), 9, 10) && health != High ==>
                     r.adjustment == Upgrade && r.state.warmup == Completed
                     && r.state.concurrency == s.targetConcurrency)
                  && (!(AtLeast(SuccessRate(m.window), 9, 10) && health != High) && Below(SuccessRate(m.window), 7, 10) ==>
                     r.adjustment == NoChange && r.state.warmup == Completed && r.state.concurrency == 1))
            && (r.adjustment == Upgrade ==> r.state.concurrency == s.targetConcurrency)
            && (r.adjustment != Upgrade ==> r.state.concurrency == 1)
            && r.adjustment != Downgrade
  {
  }

  /** Right after an adjustment, the next four recorded outcomes report
      NoChange and leave concurrency and timeout alone: two adjustments are
      always at least five requests apart. */
  lemma {:induction false} CooldownSpacing(s: StrategyState, obs: seq<Observation>)
    requires Inv(s) && s.warmup == Completed
    requires s.metrics.requestsSinceAdjustment + |obs| < CooldownRequests
    ensures forall i :: 0 <= i < |obs| ==> Adjustments(s, obs)[i] == NoChange
    ensures Run(s, obs).concurrency == s.concurrency && Run(s, obs).timeoutMs == s.timeoutMs
    decreases |obs|
  {
    if obs != [] {
      var o := obs[0].outcome;
      var h := obs[0].health;
      var next := Step(s, o, h).state;
      assert Step(s, o, h).adjustment == NoChange && next == s.(metrics := Recorded(s.metrics, o));
      StepPreservesInv(s, o, h);
      CooldownSpacing(next, obs[1..]);
      assert Adjustments(s, obs) == [NoChange] + Adjustments(next, obs[1..]);
    }
  }

  /** The strategy object; its metrics are a separate object it owns. */
  class AdaptiveStrategy {
    var concurrency: nat
    var timeoutMs: nat
    var targetConcurrency: nat
    var targetTimeoutMs: nat
    var batchSize: nat
    const metrics: RuntimeMetrics
    var adaptiveEnabled: bool
    var overrides: CliOverrides
    var warmup: WarmupState
    var warmupRequestCount: nat

    function State(): StrategyState
      reads this, metrics
    {
      StrategyState(concurrency, timeoutMs, targetConcurrency, targetTimeoutMs, batchSize,
                    metrics.State(), adaptiveEnabled, overrides, warmup, warmupRequestCount)
    }

    ghost predicate Valid()
      reads this, metrics
    {
      Inv(State())
    }

    constructor (blobCount: nat, overrides: CliOverrides, adaptiveEnabled: bool)
      ensures Valid() && fresh(metrics)
      ensures State() == InitialStrategy(blobCount, overrides, adaptiveEnabled)
    {
      var tier := GetUploadStrategy(blobCount);
      var target := Max(overrides.uploadConcurrency.GetOr(tier.concurrency), MinConcurrency);
      var targetTimeout := if overrides.uploadTimeoutSecs.Some? then overrides.uploadTimeoutSecs.value * 1000 else tier.timeoutMs;
      var warm := adaptiveEnabled && overrides.uploadConcurrency.None?;
      concurrency := if warm then MinConcurrency else target;
      timeoutMs := targetTimeout;
      targetConcurrency := target;
      targetTimeoutMs := targetTimeout;
      batchSize := tier.batchSize;
      metrics := new RuntimeMetrics(MetricsWindowSize);
      this.adaptiveEnabled := adaptiveEnabled;
      this.overrides := overrides;
      warmup := if warm then Active else Completed;
      warmupRequestCount := 0;
      new;
      InitialStrategyInv(blobCount, overrides, adaptiveEnabled);
    }

    /** `current_strategy` */
    function CurrentStrategy(): (r: UploadStrategy)
      reads this
      ensures r.batchSize == batchSize && r.concurrency == concurrency && r.timeoutMs == timeoutMs
    {
      UploadStrategy(batchSize, concurrency, timeoutMs, "")
    }

    /** `record_outcome`, with `health` the latency classification after
        the outcome is recorded. */
    method RecordOutcome(success: bool, latencyMs: nat, errorType: Option<ErrorType>, health: LatencyHealth)
      returns (adjustment: StrategyAdjustment)
      requires Valid()
      modifies this, metrics
      ensures Valid()
      ensures StepResult(State(), adjustment) == Step(old(State()), RequestOutcome(success, latencyMs, errorType), health)
    {
      var outcome := RequestOutcome(success, latencyMs, errorType);
      StepPreservesInv(State(), outcome, health);
      metrics.Record(outcome);
      if warmup == Active {
        warmupRequestCount := warmupRequestCount + 1;
        adjustment := CheckWarmupExit(health);
        return;
      }
      if !adaptiveEnabled {
        return NoChange;
      }
      if overrides.uploadConcurrency.Some? && overrides.uploadTimeoutSecs.Some? {
        return NoChange;
      }
      adjustment := EvaluateAdjustment(health);
    }

    /** `check_warmup_exit` */
    method CheckWarmupExit(health: LatencyHealth) returns (adjustment: StrategyAdjustment)
      requires metrics.Valid()
      modifies this, metrics
      ensures StepResult(State(), adjustment) == WarmupExit(old(State()), health)
    {
      if warmupRequestCount < WarmupRequests {
        return NoChange;
      }
      if warmupRequestCount >= MaxWarmupRequests {
        warmup := Completed;
        return NoChange;
      }
      if metrics.SampleCount() == 0 {
        return NoChange;
      }
      var rate := metrics.SuccessRatio();
      if AtLeast(rate, 9, 10) && health != High {
        warmup := Completed;
        if overrides.uploadConcurrency.None? {
          concurrency := targetConcurrency;
        }
        metrics.ResetAdjustmentCounter();
        return Upgrade;
      }
      if Below(rate, 7, 10) {
        warmup := Completed;
        return NoChange;
      }
      return NoChange;
    }

    /** `evaluate_adjustment` */
    method EvaluateAdjustment(health: LatencyHealth) returns (adjustment: StrategyAdjustment)
      requires metrics.Valid()
      modifies this, metrics
      ensures StepResult(State(), adjustment) == Evaluate(old(State()), health)
    {
      if !metrics.HasMinimumSamples(MinSamples) {
        return NoChange;
      }
      if metrics.RequestsSinceAdjustment() < CooldownRequests {
        return NoChange;
      }
      var rate := metrics.SuccessRatio();
      var hasRateLimit := metrics.HasRateLimitErrors();
      if Below(rate, 7, 10) || hasRateLimit || health == High {
        adjustment := ApplyDowngrade();
      } else if Above(rate, 95, 100) && health == Healthy {
        adjustment := ApplyUpgrade();
      } else {
        adjustment := NoChange;
      }
      if adjustment != NoChange {
        metrics.ResetAdjustmentCounter();
      }
    }

    /** `apply_downgrade`; `t * 1.5` truncated is `3t / 2` for every
        timeout an f64 holds exactly. */
    method ApplyDowngrade() returns (adjustment: StrategyAdjustment)
      modifies this
      ensures State() == Downgraded(old(State())) && adjustment == Downgrade
    {
      if overrides.uploadConcurrency.None? {
        concurrency := Max(concurrency / 2, MinConcurrency);
      }
      if overrides.uploadTimeoutSecs.None? {
        timeoutMs := Min(timeoutMs * 3 / 2, MaxTimeoutMs);
      }
      return Downgrade;
    }

    /** `apply_upgrade`; `t * 0.8` truncated is `4t / 5` for the timeouts the
        invariant allows. */
    method ApplyUpgrade() returns (adjustment: StrategyAdjustment)
      modifies this
      ensures StepResult(State(), adjustment) == Upgraded(old(State()))
    {
      var oldConcurrency := concurrency;
      var oldTimeout := timeoutMs;
      var atMaxConcurrency := concurrency >= MaxConcurrency || concurrency >= targetConcurrency;
      var atMinTimeout := timeoutMs <= MinTimeoutMs || timeoutMs <= targetTimeoutMs;
      if atMaxConcurrency && atMinTimeout {
        return NoChange;
      }
      if overrides.uploadConcurrency.None? && !atMaxConcurrency {
        concurrency := Min(concurrency + 1, MaxConcurrency);
      }
      if overrides.uploadTimeoutSecs.None? && !atMinTimeout {
        timeoutMs := Max(timeoutMs * 4 / 5, MinTimeoutMs);
      }
      if concurrency == oldConcurrency && timeoutMs == oldTimeout {
        return NoChange;
      }
      return Upgrade;
    }
  }
}

=== FILE: augment.dfy ===
/**
  The reply handling of the Augment prompt-enhancer endpoints: the
  streaming body of the old `/chat-stream` endpoint (one JSON object per
  line, optionally in the Server-Sent Events `data:` form of section 9.2 of
  the WHATWG HTML standard) and the status / text handling shared by the
  old and the new endpoint. JSON decoding is a parameter: it turns a text
  into the `text` field of a `PromptEnhancerResponse`, or into a reason why
  it does not decode.
*/
module Augment {
  import opened Wrappers
  import opened Strings
  import opened Prompt

  /** What decoding a text as a `PromptEnhancerResponse` gives. */
  datatype Decoded = Unparsable(reason: string) | Parsed(text: Option<string>)

  type Decoder = string -> Decoded

  const DataPrefix := "data:"
  const DoneMarker := "[DONE]"

  predicate StartsWithData(t: string) {
    |DataPrefix| <= |t| && t[..|DataPrefix|] == DataPrefix
  }

  /** The text of one body line that is handed to the decoder, if any: the
      trimmed line, without a leading "data:" and trimmed again; blank
      lines and the "[DONE]" marker are skipped. */
  function StreamPayload(line: string): Option<string> {
    var t := Trim(line);
    if t == [] then None
    else
      var u := if StartsWithData(t) then Trim(t[|DataPrefix|..]) else t;
      if u == [] || u == DoneMarker then None else Some(u)
  }

  /** The text one body line contributes: only a payload that decodes to
      an object with a text field contributes, and then even "" counts. */
  function LineText(line: string, decode: Decoder): Option<string> {
    match StreamPayload(line)
    case None => None
    case Some(u) =>
      match decode(u)
      case Parsed(Some(x)) => Some(x)
      case _ => None
  }

  /** The per-line contribution function for one decoder. */
  function Contribution(decode: Decoder): string -> Option<string> {
    line => LineText(line, decode)
  }

  /** The texts the lines contribute, in line order. */
  function Texts(lines: seq<string>, contrib: string -> Option<string>): (r: seq<string>)
    ensures |r| <= |lines|
    decreases |lines|
  {
    if lines == [] then []
    else
      var init := lines[..|lines| - 1];
      match contrib(lines[|lines| - 1])
      case None => Texts(init, contrib)
      case Some(x) => Texts(init, contrib) + [x]
  }

  function StreamTexts(lines: seq<string>, decode: Decoder): seq<string> {
    Texts(lines, Contribution(decode))
  }

  /** Decoding the whole body as one response. */
  function WholeBodyText(bodyText: string, decode: Decoder): (r: Result<string, string>)
    ensures r.Ok? <==> decode(bodyText).Parsed? && decode(bodyText).text.Some?
    ensures r.Ok? ==> r.value == decode(bodyText).text.value
  {
    match decode(bodyText)
    case Unparsable(e) => Err("Failed to parse response: " + e)
    case Parsed(None) => Err("Prompt enhancer API returned empty result")
    case Parsed(Some(x)) => Ok(x)
  }

  /** What `parse_streaming_response` returns: the concatenated line texts
      when some line contributed one, else the whole body decoded once. */
  function StreamingResult(bodyText: string, decode: Decoder): (r: Result<string, string>)
    ensures StreamTexts(Lines(bodyText), decode) != [] ==> r.Ok?
    ensures r.Err? <==>
              StreamTexts(Lines(bodyText), decode) == [] && (decode(bodyText).Unparsable? || decode(bodyText).text.None?)
  {
    var texts := StreamTexts(Lines(bodyText), decode);
    if texts != [] then Ok(Concat(texts)) else WholeBodyText(bodyText, decode)
  }

  /** The first half of the loop body: trim, strip "data:", skip. */
  method ReadPayload(line: string) returns (payload: Option<string>)
    ensures payload == StreamPayload(line)
  {
    var t := Trim(line);
    if t == [] {
      return None;
    }
    ghost var trimmed := t;
    if StartsWithData(t) {
      t := Trim(t[|DataPrefix|..]);
    }
    assert t == if StartsWithData(trimmed) then Trim(trimmed[|DataPrefix|..]) else trimmed;
    if t == [] || t == DoneMarker {
      return None;
    }
    return Some(t);
  }

  /** One step of the line loop: the new combined text and flag. */
  method StreamLine(combinedText: string, parsedAny: bool, line: string, decode: Decoder)
    returns (combinedText': string, parsedAny': bool)
    ensures LineText(line, decode).None? ==> combinedText' == combinedText && parsedAny' == parsedAny
    ensures LineText(line, decode).Some? ==> combinedText' == combinedText + LineText(line, decode).value && parsedAny'
  {
    combinedText', parsedAny' := combinedText, parsedAny;
    var payload := ReadPayload(line);
    if payload.Some? {
      match decode(payload.value)
      case Parsed(Some(text)) =>
        combinedText' := combinedText + text;
        parsedAny' := true;
      case _ =>
    }
  }

  /** `parse_streaming_response` */
  method ParseStreamingResponse(bodyText: string, decode: Decoder) returns (r: Result<string, string>)
    ensures r == StreamingResult(bodyText, decode)
  {
    var lines := Lines(bodyText);
    var combinedText := "";
    var parsedAny := false;
    for i := 0 to |lines|
      invariant combinedText == Concat(StreamTexts(lines[..i], decode))
      invariant parsedAny <==> StreamTexts(lines[..i], decode) != []
    {
      assert lines[..i + 1][..i] == lines[..i];
      ghost var before := StreamTexts(lines[..i], decode);
      combinedText, parsedAny := StreamLine(combinedText, parsedAny, lines[i], decode);
      if LineText(lines[i], decode).Some? {
        ConcatAppend(before, LineText(lines[i], decode).value);
      }
    }
    assert lines[..|lines|] == lines;
    if parsedAny {
      r := Ok(combinedText);
    } else {
      r := WholeBodyText(bodyText, decode);
    }
  }

  /** The texts of two runs of lines are those of the first run followed
      by those of the second: the body is read in order. */
  lemma {:induction false} TextsAppend(a: seq<string>, b: seq<string>, contrib: string -> Option<string>)
    ensures Texts(a + b, contrib) == Texts(a, contrib) + Texts(b, contrib)
    decreases |b|
  {
    if b == [] {
      assert a + b == a;
    } else {
      var ab := a + b;
      assert ab[..|ab| - 1] == a + b[..|b| - 1];
      assert ab[|ab| - 1] == b[|b| - 1];
      TextsAppend(a, b[..|b| - 1], contrib);
    }
  }

  /** No text at all exactly when no line contributes one. */
  lemma {:induction false} TextsEmpty(lines: seq<string>, contrib: string -> Option<string>)
    ensures Texts(lines, contrib) == [] <==> forall i :: 0 <= i < |lines| ==> contrib(lines[i]).None?
    decreases |lines|
  {
    if lines != [] {
      var init := lines[..|lines| - 1];
      TextsEmpty(init, contrib);
      assert forall i :: 0 <= i < |init| ==> init[i] == lines[i];
    }
  }

  /** A single line contributes exactly its own text. */
  lemma TextsSingle(line: string, contrib: string -> Option<string>)
    ensures Texts([line], contrib) == if contrib(line).Some? then [contrib(line).value] else []
  {
    assert [line][..0] == [];
  }

  /** Blank lines reach no decoder. */
  lemma BlankLineSkipped(line: string)
    requires AllWhitespace(line)
    ensures StreamPayload(line).None?
  {
    TrimEmptyIff(line);
    EmptyTrimSkipped(line);
  }

  lemma EmptyTrimSkipped(line: string)
    requires Trim(line) == []
    ensures StreamPayload(line).None?
  {
  }

  /** The end-of-stream marker reaches no decoder. */
  lemma DoneLineSkipped()
    ensures StreamPayload(DoneMarker).None?
  {
    assert Trimmed(DoneMarker) by {
      assert DoneMarker[0] == '[' && DoneMarker[|DoneMarker| - 1] == ']';
    }
    TrimTrimmed(DoneMarker);
    assert !StartsWithData(DoneMarker) by {
      assert DoneMarker[..|DataPrefix|][0] != DataPrefix[0];
    }
  }

  /** Nor does an event with no data. */
  lemma EmptyEventSkipped()
    ensures StreamPayload(DataPrefix).None?
  {
    TrimTrimmed(DataPrefix);
    assert DataPrefix[|DataPrefix|..] == [];
  }

  /** A raw JSON line (its trimmed form starts with '{') is decoded whole. */
  lemma JsonLinePayload(line: string)
    requires Trim(line) != [] && Trim(line)[0] == '{'
    ensures StreamPayload(line) == Some(Trim(line))
  {
    var t := Trim(line);
    assert !StartsWithData(t) by {
      assert |DataPrefix| <= |t| ==> t[..|DataPrefix|][0] == '{';
    }
    assert t != DoneMarker by {
      assert DoneMarker[0] == '[';
    }
  }

  /** An event line "data:" + y hands y, trimmed, to the decoder, unless
      that is empty or the end-of-stream marker. */
  lemma DataLinePayload(line: string, y: string)
    requires Trim(line) == DataPrefix + y
    ensures StreamPayload(line) == if Trim(y) == [] || Trim(y) == DoneMarker then None else Some(Trim(y))
  {
    var t := Trim(line);
    assert t[..|DataPrefix|] == DataPrefix;
    assert t[|DataPrefix|..] == y;
  }

  /** In particular an event whose data is a JSON object is decoded, and
      the marker sent as an event ("data: [DONE]") is skipped. */
  lemma DataLineCases(line: string, y: string)
    requires Trim(line) == DataPrefix + y
    ensures Trim(y) != [] && Trim(y)[0] == '{' ==> StreamPayload(line) == Some(Trim(y))
    ensures Trim(y) == DoneMarker ==> StreamPayload(line).None?
  {
    DataLinePayload(line, y);
    assert Trim(y) != [] && Trim(y)[0] == '{' ==> Trim(y) != DoneMarker;
  }

  /** Once some line contributed a text, even "", the whole body is never
      decoded: the result is the in-order concatenation of the texts. */
  lemma NoFallbackOnceParsed(bodyText: string, decode: Decoder, i: nat)
    requires i < |Lines(bodyText)| && LineText(Lines(bodyText)[i], decode).Some?
    ensures StreamingResult(bodyText, decode) == Ok(Concat(StreamTexts(Lines(bodyText), decode)))
  {
    TextsEmpty(Lines(bodyText), Contribution(decode));
  }

  /** When no line contributes, the result is decided by decoding the whole
      body, and it fails exactly when that decoding has no text. */
  lemma FallbackWhenNothingParsed(bodyText: string, decode: Decoder)
    requires forall i :: 0 <= i < |Lines(bodyText)| ==> LineText(Lines(bodyText)[i], decode).None?
    ensures StreamingResult(bodyText, decode) == WholeBodyText(bodyText, decode)
    ensures StreamingResult(bodyText, decode).Err? <==> decode(bodyText).Unparsable? || decode(bodyText).text.None?
  {
    TextsEmpty(Lines(bodyText), Contribution(decode));
  }

  predicate IsSuccess(status: nat) { 200 <= status < 300 }

  /** `handle_response_text`: 401, then 403, then any other non-2xx status
      fail before the body is looked at; on success the old endpoint takes
      the streamed text and extracts a tagged block when there is one, the
      new endpoint takes the decoded text field; both rewrite tool names. */
  function HandleResponseText(status: nat, bodyText: string, isOldEndpoint: bool, decode: Decoder): (r: Result<string, string>)
    ensures status == 401 ==> r == Err("Token invalid or expired")
    ensures status == 403 ==> r == Err("Access denied, token may be disabled")
    ensures status != 401 && status != 403 && !IsSuccess(status) ==>
              r == Err("Prompt enhancer API failed: " + NatToString(status) + " - " + bodyText)
    ensures r.Ok? ==> IsSuccess(status) && !Contains(r.value, DashedToolName) && !Contains(r.value, SnakeToolName)
    ensures r.Ok? && !isOldEndpoint ==>
              decode(bodyText).Parsed? && decode(bodyText).text.Some? && r.value == ReplaceToolNames(decode(bodyText).text.value)
    ensures IsSuccess(status) && !isOldEndpoint ==>
              r == match WholeBodyText(bodyText, decode)
                   case Ok(t) => Ok(ReplaceToolNames(t))
                   case Err(e) => Err(e)
    ensures IsSuccess(status) && isOldEndpoint ==>
              var streamed := StreamingResult(bodyText, decode);
              r == if streamed.Ok? then Ok(ReplaceToolNames(ExtractEnhancedPrompt(streamed.value).GetOr(streamed.value)))
                   else streamed
  {
    if status == 401 then Err("Token invalid or expired")
    else if status == 403 then Err("Access denied, token may be disabled")
    else if !IsSuccess(status) then Err("Prompt enhancer API failed: " + NatToString(status) + " - " + bodyText)
    else
      var text := if isOldEndpoint then StreamingResult(bodyText, decode) else WholeBodyText(bodyText, decode);
      match text
      case Err(e) => Err(e)
      case Ok(t) =>
        var enhanced := if isOldEndpoint then ExtractEnhancedPrompt(t).GetOr(t) else t;
        Ok(ReplaceToolNames(enhanced))
  }

  /** A failing status gives the same error whatever the body decodes to. */
  lemma StatusBeforeParsing(status: nat, bodyText: string, isOldEndpoint: bool, decode1: Decoder, decode2: Decoder)
    requires !IsSuccess(status)
    ensures HandleResponseText(status, bodyText, isOldEndpoint, decode1) == HandleResponseText(status, bodyText, isOldEndpoint, decode2)
    ensures HandleResponseText(status, bodyText, isOldEndpoint, decode1).Err?
  {
  }

  /** On the old endpoint a streamed text holding a tagged block yields the
      block's trimmed content, with tool names rewritten. */
  lemma OldEndpointExtracts(status: nat, bodyText: string, decode: Decoder)
    requires IsSuccess(status)
    requires StreamingResult(bodyText, decode).Ok?
    requires ExtractEnhancedPrompt(StreamingResult(bodyText, decode).value).Some?
    ensures HandleResponseText(status, bodyText, true, decode)
         == Ok(ReplaceToolNames(Trim(Enclosed(StreamingResult(bodyText, decode).value))))
  {
  }

  /** On the old endpoint a streamed text without a tagged block is kept as
      it is, with tool names rewritten. */
  lemma OldEndpointUntagged(status: nat, bodyText: string, decode: Decoder)
    requires IsSuccess(status)
    requires StreamingResult(bodyText, decode).Ok?
    requires ExtractEnhancedPrompt(StreamingResult(bodyText, decode).value).None?
    ensures HandleResponseText(status, bodyText, true, decode)
         == Ok(ReplaceToolNames(StreamingResult(bodyText, decode).value))
  {
  }
}

=== FILE: config.dfy ===
/**
  Configuration: the upload-strategy tiers keyed by blob count, the
  command-line overrides of the upload parameters, and the construction of
  a `Config` from a base URL, a token and the optional settings.
*/
module Config {
  import opened Wrappers
  import opened Strings

  /** Batch size, concurrency and per-request timeout for one project scale. */
  datatype UploadStrategy = UploadStrategy(batchSize: nat, concurrency: nat, timeoutMs: nat, scaleName: string)

  /** Upload parameters pinned on the command line. */
  datatype CliOverrides = CliOverrides(uploadTimeoutSecs: Option<nat>, uploadConcurrency: Option<nat>)

  /** The optional settings accepted by `Config::new`. */
  datatype ConfigOptions = ConfigOptions(
    maxLinesPerBlob: Option<nat>,
    uploadTimeout: Option<nat>,
    uploadConcurrency: Option<nat>,
    retrievalTimeout: Option<nat>,
    noAdaptive: bool,
    noWebbrowserEnhancePrompt: bool)

  /** The runtime configuration (the extension, file-name and exclude tables are not modelled). */
  datatype Config = Config(
    baseUrl: string,
    token: string,
    maxLinesPerBlob: nat,
    retrievalTimeoutSecs: nat,
    noAdaptive: bool,
    noWebbrowserEnhancePrompt: bool,
    cliOverrides: CliOverrides)

  const DefaultMaxLinesPerBlob: nat := 800
  const DefaultRetrievalTimeoutSecs: nat := 60

  /** `get_upload_strategy`: the four project scales. */
  function GetUploadStrategy(blobCount: nat): (s: UploadStrategy)
    ensures 10 <= s.batchSize <= 70
    ensures 1 <= s.concurrency <= 4
    ensures 30000 <= s.timeoutMs <= 90000
    ensures blobCount < 100 <==> s.concurrency == 1
    ensures blobCount >= 2000 <==> s.concurrency == 4
  {
    if blobCount < 100 then UploadStrategy(10, 1, 30000, "小型")
    else if blobCount < 500 then UploadStrategy(30, 2, 45000, "中型")
    else if blobCount < 2000 then UploadStrategy(50, 3, 60000, "大型")
    else UploadStrategy(70, 4, 90000, "超大型")
  }

  /** More blobs never give a smaller batch, a lower concurrency or a shorter timeout. */
  lemma UploadStrategyMonotone(a: nat, b: nat)
    requires a <= b
    ensures GetUploadStrategy(a).batchSize <= GetUploadStrategy(b).batchSize
    ensures GetUploadStrategy(a).concurrency <= GetUploadStrategy(b).concurrency
    ensures GetUploadStrategy(a).timeoutMs <= GetUploadStrategy(b).timeoutMs
  {
  }

  /** The tier table, row by row. */
  lemma UploadStrategyTable(n: nat)
    ensures n < 100 ==> (GetUploadStrategy(n).batchSize, GetUploadStrategy(n).concurrency, GetUploadStrategy(n).timeoutMs) == (10, 1, 30000)
    ensures 100 <= n < 500 ==> (GetUploadStrategy(n).batchSize, GetUploadStrategy(n).concurrency, GetUploadStrategy(n).timeoutMs) == (30, 2, 45000)
    ensures 500 <= n < 2000 ==> (GetUploadStrategy(n).batchSize, GetUploadStrategy(n).concurrency, GetUploadStrategy(n).timeoutMs) == (50, 3, 60000)
    ensures 2000 <= n ==> (GetUploadStrategy(n).batchSize, GetUploadStrategy(n).concurrency, GetUploadStrategy(n).timeoutMs) == (70, 4, 90000)
  {
  }

  /** The scheme rewrite of `Config::new`: "http://" becomes "https://",
      "https://" stays, anything else gets "https://" in front; then every
      trailing '/' is removed. */
  function NormalizeBaseUrl(url: string): (r: string)
    ensures "https:" <= r
    ensures r[|r| - 1] != '/'
  {
    var withScheme :=
      if "http://" <= url then "https://" + url[7..]
      else if "https://" <= url then url
      else "https://" + url;
    assert "https:" <= withScheme && withScheme[5] == ':';
    var r := TrimEndChar(withScheme, '/');
    assert withScheme[5] != '/';
    assert r[..6] == withScheme[..6];
    r
  }

  /** `Config::new` as written: the emptiness test on the base URL comes after
      the scheme has been added, so it never fires. */
  function New(baseUrl: string, token: string, options: ConfigOptions): (r: Result<Config, string>)
    ensures r.Err? <==> token == []
    ensures r.Ok? ==> r.value.baseUrl == NormalizeBaseUrl(baseUrl) && r.value.token == token
    ensures r.Ok? ==> r.value.maxLinesPerBlob == options.maxLinesPerBlob.GetOr(DefaultMaxLinesPerBlob)
    ensures r.Ok? ==> r.value.retrievalTimeoutSecs == options.retrievalTimeout.GetOr(DefaultRetrievalTimeoutSecs)
    ensures r.Ok? ==> r.value.cliOverrides == CliOverrides(options.uploadTimeout, options.uploadConcurrency)
    ensures r.Ok? ==> r.value.noAdaptive == options.noAdaptive && r.value.noWebbrowserEnhancePrompt == options.noWebbrowserEnhancePrompt
  {
    var url := NormalizeBaseUrl(baseUrl);
    if url == [] then Err("base_url cannot be empty")
    else if token == [] then Err("token cannot be empty")
    else Ok(Config(url, token,
                   options.maxLinesPerBlob.GetOr(DefaultMaxLinesPerBlob),
                   options.retrievalTimeout.GetOr(DefaultRetrievalTimeoutSecs),
                   options.noAdaptive, options.noWebbrowserEnhancePrompt,
                   CliOverrides(options.uploadTimeout, options.uploadConcurrency)))
  }

  /** The base-URL emptiness check of `New` is dead: an empty base URL with a
      token is accepted, and the stored URL is the bare "https:". */
  lemma EmptyBaseUrlAccepted(options: ConfigOptions)
    ensures New("", "t", options) == Ok(Config("https:", "t",
              options.maxLinesPerBlob.GetOr(DefaultMaxLinesPerBlob),
              options.retrievalTimeout.GetOr(DefaultRetrievalTimeoutSecs),
              options.noAdaptive, options.noWebbrowserEnhancePrompt,
              CliOverrides(options.uploadTimeout, options.uploadConcurrency)))
  {
    assert "https://" + "" == "https://";
    assert TrimEndChar("https:/", '/') == "https:";
    assert TrimEndChar("https://", '/') == "https:";
  }

  /** `Config::new` with the base-URL check moved before the scheme rewrite,
      as its error message intends. */
  function NewChecked(baseUrl: string, token: string, options: ConfigOptions): (r: Result<Config, string>)
    ensures r.Err? <==> baseUrl == [] || token == []
    ensures r.Ok? ==> New(baseUrl, token, options) == r
  {
    if baseUrl == [] then Err("base_url cannot be empty")
    else New(baseUrl, token, options)
  }

  /** An "http://" URL is upgraded, an "https://" URL is kept, anything else is
      prefixed; in each case only trailing slashes are then removed. */
  lemma NormalizeBaseUrlCases(url: string)
    ensures "http://" <= url ==> NormalizeBaseUrl(url) == TrimEndChar("https://" + url[7..], '/')
    ensures "https://" <= url ==> NormalizeBaseUrl(url) == TrimEndChar(url, '/')
    ensures !("http://" <= url) && !("https://" <= url) ==> NormalizeBaseUrl(url) == TrimEndChar("https://" + url, '/')
  {
    if "https://" <= url {
      assert url[4] == 's';
      assert !("http://" <= url);
    }
  }

  /** A URL that already has a host part is a fixed point of the rewrite. */
  lemma {:induction false} NormalizeBaseUrlIdempotent(url: string)
    requires "https://" <= NormalizeBaseUrl(url)
    ensures NormalizeBaseUrl(NormalizeBaseUrl(url)) == NormalizeBaseUrl(url)
  {
    var u := NormalizeBaseUrl(url);
    assert u[4] == 's';
    assert !("http://" <= u);
    TrimEndCharNoop(u, '/');
  }

  lemma TrimEndCharNoop(s: string, c: char)
    requires s != [] && s[|s| - 1] != c
    ensures TrimEndChar(s, c) == s
  {
  }
}

=== FILE: enhancer_server.dfy ===
/**
  The session table of the local enhancer web server: the enhancer creates
  a session holding its proposed prompt and waits for the user's answer;
  the browser page reads the session, submits an answer or asks for the
  prompt to be enhanced again. The table is modelled sequentially: each
  handler runs to completion, a registered responder is an id in
  `responders`, and a result sent through it is an entry of `delivered`
  that the waiting side takes out.
*/
module EnhancerServer {
  import opened Wrappers
  import opened Strings

  datatype SessionStatus = Pending | Completed | Timeout

  datatype SessionData = SessionData(
    id: string,
    enhancedPrompt: string,
    originalPrompt: string,
    conversationHistory: string,
    blobNames: seq<string>,
    status: SessionStatus,
    createdAtMs: nat)

  /** What the page is told about a session. */
  datatype SessionView = SessionView(enhancedPrompt: string, status: string, createdAt: nat, timeoutMs: nat)

  /** An HTTP handler's answer: a 200 with a value, or an error status with
      its message. */
  datatype Outcome<T> = Success(value: T) | Failure(code: nat, message: string)

  /** The body of a submit request. */
  datatype SubmitRequest = SubmitRequest(sessionId: string, content: string, action: Option<string>)

  /** The body of a re-enhance request. */
  datatype ReEnhanceRequest = ReEnhanceRequest(sessionId: string, currentPrompt: string)

  /** The enhancer the server calls back: (current prompt, conversation
      history, blob names) to the new prompt or an error. */
  type EnhanceCallback = (string, string, seq<string>) -> Result<string, string>

  /** Eight minutes. */
  const TimeoutMs: nat := 8 * 60 * 1000

  const EndConversation := "__END_CONVERSATION__"
  const UseOriginal := "__USE_ORIGINAL__"

  function StatusName(s: SessionStatus): string {
    match s
    case Pending => "pending"
    case Completed => "completed"
    case Timeout => "timeout"
  }

  // ---------------------------------------------------------------------
  // Query parsing
  // ---------------------------------------------------------------------

  /** `str::split(c)`: the pieces between the occurrences of `c`; "" gives
      one empty piece. */
  function SplitOn(s: string, c: char): (r: seq<string>)
    ensures |r| > 0
    ensures forall i :: 0 <= i < |r| ==> NoChar(r[i], c)
    decreases |s|
  {
    var i := IndexOf(s, c);
    if i == |s| then [s] else [s[..i]] + SplitOn(s[i + 1..], c)
  }

  /** Joining the pieces with `c` gives the text back. */
  lemma {:induction false} SplitOnJoin(s: string, c: char)
    ensures Join(SplitOn(s, c), [c]) == s
    decreases |s|
  {
    var i := IndexOf(s, c);
    if i < |s| {
      SplitOnJoin(s[i + 1..], c);
      var rest := SplitOn(s[i + 1..], c);
      assert SplitOn(s, c) == [s[..i]] + rest;
      assert ([s[..i]] + rest)[1..] == rest;
      assert s == s[..i] + [c] + s[i + 1..];
    }
  }

  /** The value of a "session=<v>" parameter; the value is everything after
      the first '='. A parameter without '=' has none. */
  function SessionParam(param: string): Option<string> {
    var i := IndexOf(param, '=');
    if i < |param| && param[..i] == "session" then Some(param[i + 1..]) else None
  }

  /** The first parameter that carries a session value. */
  function FirstSessionParam(params: seq<string>): (r: Option<string>)
    ensures r.None? <==> forall i :: 0 <= i < |params| ==> SessionParam(params[i]).None?
    ensures r.Some? ==> exists i :: 0 <= i < |params| && SessionParam(params[i]) == r
                          && forall j :: 0 <= j < i ==> SessionParam(params[j]).None?
  {
    if params == [] then None
    else if SessionParam(params[0]).Some? then
      assert SessionParam(params[0]) == SessionParam(params[0]);
      SessionParam(params[0])
    else
      var r := FirstSessionParam(params[1..]);
      assert forall i :: 1 <= i < |params| ==> params[i] == params[1..][i - 1];
      if r.Some? then
        var k :| 0 <= k < |params[1..]| && SessionParam(params[1..][k]) == r
                 && forall j :: 0 <= j < k ==> SessionParam(params[1..][j]).None?;
        assert SessionParam(params[k + 1]) == r;
        r
      else r
  }

  /** The session id `get_session_data` reads from the query string. */
  function SessionIdFromQuery(query: Option<string>): (r: Option<string>)
    ensures query.None? ==> r.None?
    ensures r.Some? ==> NoChar(r.value, '&')
  {
    match query
    case None => None
    case Some(q) => FirstSessionParam(SplitOn(q, '&'))
  }

  /** A query that starts with the session parameter names that session. */
  lemma LeadingSessionParam(v: string, rest: string)
    requires NoChar(v, '&')
    ensures SessionIdFromQuery(Some("session=" + v + "&" + rest)) == Some(v)
  {
    var head := "session=" + v;
    var q := head + ("&" + rest);
    assert "session=" + v + "&" + rest == q;
    assert NoChar(head, '&') by {
      forall i | 0 <= i < |head| ensures head[i] != '&' {
        if i >= 8 { assert head[i] == v[i - 8]; }
      }
    }
    IndexOfPrefix(head, "&" + rest, '&');
    assert q[..|head|] == head;
    var params := SplitOn(q, '&');
    assert params[0] == head;
    assert IndexOf(head, '=') == 7 by {
      assert head[7] == '=';
      assert head[..7] == "session";
    }
    assert head[..7] == "session";
    assert head[8..] == v;
  }

  // ---------------------------------------------------------------------
  // Submitted answers
  // ---------------------------------------------------------------------

  /** What a submit sends to the waiting enhancer: the action decides; with
      any other action, or none, the magic contents "__USE_ORIGINAL__" and
      "__END_CONVERSATION__" act like the two actions, and any other
      content is sent as it is. */
  function ResolveSubmission(action: Option<string>, content: string, originalPrompt: string): (r: string)
    ensures r == originalPrompt || r == EndConversation || r == content
    ensures r == content || content == UseOriginal || content == EndConversation
              || action == Some("use_original") || action == Some("end_conversation")
  {
    match action
    case Some("use_original") => originalPrompt
    case Some("end_conversation") => EndConversation
    case _ =>
      if content == UseOriginal then originalPrompt
      else if content == EndConversation then EndConversation
      else content
  }

  /** An unknown action is treated as no action at all. */
  lemma UnknownActionIgnored(action: string, content: string, originalPrompt: string)
    requires action != "use_original" && action != "end_conversation"
    ensures ResolveSubmission(Some(action), content, originalPrompt) == ResolveSubmission(None, content, originalPrompt)
  {
  }

  /** The action wins over the content. */
  lemma ActionWins(content: string, originalPrompt: string)
    ensures ResolveSubmission(Some("use_original"), content, originalPrompt) == originalPrompt
    ensures ResolveSubmission(Some("end_conversation"), content, originalPrompt) == EndConversation
  {
  }

  // ---------------------------------------------------------------------
  // The server's tables
  // ---------------------------------------------------------------------

  class SessionTable {
    var sessions: map<string, SessionData>
    /** Ids whose responder is still registered. */
    var responders: set<string>
    /** Results sent through a responder and not yet received. */
    var delivered: map<string, string>
    var enhanceCallback: Option<EnhanceCallback>
    /** Every id handed out so far. */
    ghost var issued: set<string>

    /** A session is Pending exactly while its responder is registered; no
        session is ever marked Timeout; a sent result has no responder left;
        every id was issued. */
    ghost predicate Valid()
      reads this
    {
      && (forall id :: id in responders <==> id in sessions && sessions[id].status == Pending)
      && (forall id :: id in sessions ==> sessions[id].status != Timeout)
      && (forall id :: id in delivered ==> id !in responders)
      && sessions.Keys <= issued && responders <= issued && delivered.Keys <= issued
    }

    /** `EnhancerServer::new` */
    constructor ()
      ensures Valid()
      ensures sessions == map[] && responders == {} && delivered == map[]
      ensures enhanceCallback.None? && issued == {}
    {
      sessions := map[];
      responders := {};
      delivered := map[];
      enhanceCallback := None;
      issued := {};
    }

    /** `set_enhance_callback` */
    method SetEnhanceCallback(callback: EnhanceCallback)
      requires Valid()
      modifies this
      ensures Valid()
      ensures enhanceCallback == Some(callback)
      ensures sessions == old(sessions) && responders == old(responders) && delivered == old(delivered)
      ensures issued == old(issued)
    {
      enhanceCallback := Some(callback);
    }

    /** `create_session`: a responder and a Pending session under a fresh
        id (`freshId` stands for the new UUID). */
    method CreateSession(freshId: string, enhancedPrompt: string, originalPrompt: string,
                         conversationHistory: string, blobNames: seq<string>, nowMs: nat)
      returns (sessionId: string)
      requires Valid() && freshId !in issued
      modifies this
      ensures Valid()
      ensures sessionId == freshId && sessionId !in old(issued) && issued == old(issued) + {sessionId}
      ensures sessions == old(sessions)[sessionId := SessionData(sessionId, enhancedPrompt, originalPrompt,
                                                                 conversationHistory, blobNames, Pending, nowMs)]
      ensures responders == old(responders) + {sessionId}
      ensures delivered == old(delivered) && enhanceCallback == old(enhanceCallback)
    {
      sessionId := freshId;
      issued := issued + {sessionId};
      var session := SessionData(sessionId, enhancedPrompt, originalPrompt, conversationHistory, blobNames, Pending, nowMs);
      responders := responders + {sessionId};
      sessions := sessions[sessionId := session];
    }

    /** `get_session_data` */
    function GetSessionData(query: Option<string>): (r: Outcome<SessionView>)
      reads this
      ensures SessionIdFromQuery(query).None? ==> r == Failure(400, "Session ID is required")
      ensures SessionIdFromQuery(query).Some? && SessionIdFromQuery(query).value !in sessions ==>
                r == Failure(404, "Session not found")
      ensures r.Success? ==>
                && SessionIdFromQuery(query).Some? && SessionIdFromQuery(query).value in sessions
                && r.value.enhancedPrompt == sessions[SessionIdFromQuery(query).value].enhancedPrompt
                && r.value.status == StatusName(sessions[SessionIdFromQuery(query).value].status)
                && r.value.createdAt == sessions[SessionIdFromQuery(query).value].createdAtMs
                && r.value.timeoutMs == TimeoutMs
      ensures r.Success? <==> SessionIdFromQuery(query).Some? && SessionIdFromQuery(query).value in sessions
    {
      match SessionIdFromQuery(query)
      case None => Failure(400, "Session ID is required")
      case Some(id) =>
        if id !in sessions then Failure(404, "Session not found")
        else
          var s := sessions[id];
          Success(SessionView(s.enhancedPrompt, StatusName(s.status), s.createdAtMs, TimeoutMs))
    }

    /** `handle_submit`: an unreadable body gives 400, an unknown session
        404 and a session that is no longer Pending 400, all without any
        change; otherwise the session is Completed and the resolved answer
        is sent through its responder, which is removed. */
    method Submit(request: Result<SubmitRequest, string>) returns (r: Outcome<()>)
      requires Valid()
      modifies this
      ensures Valid()
      ensures r.Failure? ==> sessions == old(sessions) && responders == old(responders) && delivered == old(delivered)
      ensures request.Err? ==> r == Failure(400, request.error)
      ensures request.Ok? && request.value.sessionId !in old(sessions) ==> r == Failure(404, "Session not found")
      ensures (request.Ok? && request.value.sessionId in old(sessions) && old(sessions)[request.value.sessionId].status != Pending)
                ==> r == Failure(400, "Session already completed or timed out")
      ensures r.Success? ==>
                var req := request.value;
                var s := old(sessions)[req.sessionId];
                && request.Ok? && req.sessionId in old(sessions) && s.status == Pending
                && sessions == old(sessions)[req.sessionId := s.(status := Completed)]
                && responders == old(responders) - {req.sessionId}
                && delivered == old(delivered)[req.sessionId := ResolveSubmission(req.action, req.content, s.originalPrompt)]
      ensures r.Success? <==> request.Ok? && request.value.sessionId in old(sessions)
                              && old(sessions)[request.value.sessionId].status == Pending
      ensures enhanceCallback == old(enhanceCallback) && issued == old(issued)
    {
      if request.Err? {
        return Failure(400, request.error);
      }
      var submit := request.value;
      if submit.sessionId !in sessions {
        return Failure(404, "Session not found");
      }
      var session := sessions[submit.sessionId];
      if session.status != Pending {
        return Failure(400, "Session already completed or timed out");
      }
      sessions := sessions[submit.sessionId := session.(status := Completed)];
      var result := ResolveSubmission(submit.action, submit.content, session.originalPrompt);
      if submit.sessionId in responders {
        responders := responders - {submit.sessionId};
        delivered := delivered[submit.sessionId := result];
      }
      r := Success(());
    }

    /** `handle_re_enhance`: an unreadable body gives 400, an unknown
        session 404, a session that is no longer Pending 400 and a missing
        callback 500; a failing callback gives 500; otherwise only the
        session's enhanced prompt changes. */
    method ReEnhance(request: Result<ReEnhanceRequest, string>) returns (r: Outcome<string>)
      requires Valid()
      modifies this
      ensures Valid()
      ensures r.Failure? ==> sessions == old(sessions)
      ensures responders == old(responders) && delivered == old(delivered)
      ensures enhanceCallback == old(enhanceCallback) && issued == old(issued)
      ensures request.Err? ==> r == Failure(400, request.error)
      ensures request.Ok? && request.value.sessionId !in old(sessions) ==> r == Failure(404, "Session not found")
      ensures (request.Ok? && request.value.sessionId in old(sessions) && old(sessions)[request.value.sessionId].status != Pending)
                ==> r == Failure(400, "Session already completed or timed out")
      ensures (request.Ok? && request.value.sessionId in old(sessions) && old(sessions)[request.value.sessionId].status == Pending
                 && enhanceCallback.None?) ==> r == Failure(500, "Enhance callback not configured")
      ensures r.Success? ==>
                var req := request.value;
                var s := old(sessions)[req.sessionId];
                && request.Ok? && req.sessionId in old(sessions) && s.status == Pending && enhanceCallback.Some?
                && enhanceCallback.value(req.currentPrompt, s.conversationHistory, s.blobNames) == Ok(r.value)
                && sessions == old(sessions)[req.sessionId := s.(enhancedPrompt := r.value)]
      ensures (request.Ok? && request.value.sessionId in old(sessions) && old(sessions)[request.value.sessionId].status == Pending
                 && enhanceCallback.Some?) ==>
                var req := request.value;
                var s := old(sessions)[req.sessionId];
                match enhanceCallback.value(req.currentPrompt, s.conversationHistory, s.blobNames)
                case Ok(v) => r == Success(v) && sessions == old(sessions)[req.sessionId := s.(enhancedPrompt := v)]
                case Err(e) => r == Failure(500, "Enhancement failed: " + e) && sessions == old(sessions)
    {
      if request.Err? {
        return Failure(400, request.error);
      }
      var req := request.value;
      if req.sessionId !in sessions {
        return Failure(404, "Session not found");
      }
      var session := sessions[req.sessionId];
      if session.status != Pending {
        return Failure(400, "Session already completed or timed out");
      }
      if enhanceCallback.None? {
        return Failure(500, "Enhance callback not configured");
      }
      var callback := enhanceCallback.value;
      match callback(req.currentPrompt, session.conversationHistory, session.blobNames)
      case Ok(enhanced) =>
        sessions := sessions[req.sessionId := session.(enhancedPrompt := enhanced)];
        r := Success(enhanced);
      case Err(e) =>
        r := Failure(500, "Enhancement failed: " + e);
    }

    /** `wait_for_session_with_receiver`, at the moment the wait ends: a
        sent result is received; a responder still registered means the
        wait timed out, and it is removed; otherwise the sender is gone.
        The session is removed in every case. */
    method WaitForSession(sessionId: string) returns (r: Result<string, string>)
      requires Valid()
      modifies this
      ensures Valid()
      ensures sessions == old(sessions) - {sessionId}
      ensures sessionId in old(delivered) ==> r == Ok(old(delivered)[sessionId]) && responders == old(responders)
      ensures sessionId !in old(delivered) && sessionId in old(responders) ==>
                r == Err("User interaction timeout (8 minutes)") && responders == old(responders) - {sessionId}
      ensures sessionId !in old(delivered) && sessionId !in old(responders) ==>
                r == Err("Session channel closed unexpectedly") && responders == old(responders)
      ensures delivered == old(delivered) - {sessionId}
      ensures enhanceCallback == old(enhanceCallback) && issued == old(issued)
    {
      if sessionId in delivered {
        r := Ok(delivered[sessionId]);
        delivered := delivered - {sessionId};
        sessions := sessions - {sessionId};
      } else if sessionId in responders {
        sessions := sessions - {sessionId};
        responders := responders - {sessionId};
        r := Err("User interaction timeout (8 minutes)");
      } else {
        sessions := sessions - {sessionId};
        r := Err("Session channel closed unexpectedly");
      }
    }
  }

  /** One interaction from creation to answer: the enhancer receives
      exactly the resolved answer, a second submit is refused, and the
      session is gone afterwards. */
  method SubmitOnce(table: SessionTable, freshId: string, enhanced: string, original: string, content: string)
    returns (first: Outcome<()>, second: Outcome<()>, received: Result<string, string>)
    requires table.Valid() && freshId !in table.issued
    modifies table
    ensures table.Valid()
    ensures first.Success?
    ensures second == Failure(400, "Session already completed or timed out")
    ensures received == Ok(ResolveSubmission(None, content, original))
    ensures freshId !in table.sessions
  {
    var id := table.CreateSession(freshId, enhanced, original, "", [], 0);
    first := table.Submit(Ok(SubmitRequest(id, content, None)));
    second := table.Submit(Ok(SubmitRequest(id, content, None)));
    received := table.WaitForSession(id);
  }
}

=== FILE: http_logger.dfy ===
/**
  The pure helpers of the HTTP request logger: which headers are secret,
  how a secret header value is masked before it is written, and how a long
  body is cut at a UTF-8 character boundary. Writing the log file and the
  environment switch are left out.
*/
module HttpLogger {
  import opened Wrappers
  import opened Strings

  /** Header names whose values are masked, in lower case. */
  const SensitiveHeaders: seq<string> :=
    ["authorization", "set-cookie", "cookie", "x-api-key", "x-auth-token", "proxy-authorization"]

  /** `is_sensitive_header`: the lower-cased name is one of the listed names. */
  predicate IsSensitiveHeader(name: string)
    ensures IsSensitiveHeader(name) ==> 6 <= |name| <= 19
  {
    LowerStr(name) in SensitiveHeaders
  }

  /** No listed name holds an ASCII upper-case letter or the Kelvin sign, so
      lower-casing leaves each of them as it is. */
  predicate PlainLowerName(h: string) {
    forall i :: 0 <= i < |h| ==> !IsAsciiUpper(h[i]) && h[i] != '\U{212A}'
  }

  /** `str::to_ascii_uppercase` */
  function AsciiUpperStr(s: string): (r: string)
    ensures |r| == |s|
  {
    seq(|s|, i requires 0 <= i < |s| => AsciiUpper(s[i]))
  }

  lemma LowerOfUpper(h: string)
    requires PlainLowerName(h)
    ensures LowerStr(AsciiUpperStr(h)) == h
  {
    forall i | 0 <= i < |h|
      ensures LowerStr(AsciiUpperStr(h))[i] == h[i]
    {
      var c := h[i];
      if IsAsciiLower(c) {
        assert IsAsciiUpper(AsciiUpper(c));
        assert AsciiUpper(c) as int == c as int - 32;
      }
    }
  }

  /** Each listed name is recognised however its ASCII letters are cased:
      as written and entirely in upper case. */
  lemma SensitiveInAnyCase(h: string)
    requires h in SensitiveHeaders
    ensures IsSensitiveHeader(h) && IsSensitiveHeader(AsciiUpperStr(h))
  {
    assert PlainLowerName(h) by {
      forall i | 0 <= i < |h| ensures !IsAsciiUpper(h[i]) && h[i] != '\U{212A}' {
        assert IsAsciiLower(h[i]) || h[i] == '-';
      }
    }
    LowerOfUpper(h);
    forall i | 0 <= i < |h| ensures LowerChar(h[i]) == h[i] { }
    assert LowerStr(h) == h;
  }

  const BearerPrefix := "Bearer "

  predicate IsBearer(value: string) {
    |BearerPrefix| <= |value| && value[..|BearerPrefix|] == BearerPrefix
  }

  /** The secret part of a header value: the token after "Bearer ", or the
      whole value. */
  function Secret(value: string): string {
    if IsBearer(value) then value[|BearerPrefix|..] else value
  }

  /** The first four and the last four characters of a secret of more than
      eight characters, and "****" for a shorter one. */
  function ShowEnds(secret: string): (r: string)
    ensures |secret| > 8 ==> |r| == 11 && r[..4] == secret[..4] && r[|r| - 4..] == secret[|secret| - 4..]
    ensures |r| <= 11
  {
    if |secret| > 8 then secret[..4] + "..." + secret[|secret| - 4..] else "****"
  }

  /** `mask_token` */
  function MaskToken(value: string): (r: string)
    ensures IsBearer(r) <==> IsBearer(value)
    ensures |r| <= |BearerPrefix| + 11
  {
    if IsBearer(value) then
      var token := value[|BearerPrefix|..];
      if ByteLen(token) > 8 then
        if |token| > 8 then BearerPrefix + token[..4] + "..." + token[|token| - 4..]
        else "Bearer ****"
      else "Bearer ****"
    else if ByteLen(value) > 8 then
      if |value| > 8 then value[..4] + "..." + value[|value| - 4..]
      else "****"
    else "****"
  }

  /** The byte-length test never decides anything on its own: more than
      eight characters always means more than eight bytes, so a value is
      masked by its character count alone. */
  lemma MaskTokenByChars(value: string)
    ensures MaskToken(value) == if IsBearer(value) then BearerPrefix + ShowEnds(Secret(value)) else ShowEnds(value)
  {
    ByteLenAtLeastLength(Secret(value));
  }

  /** The mask depends on the secret only through its first four and last
      four characters, and not at all for a secret of at most eight: what
      lies between is never revealed. */
  lemma MaskHidesMiddle(a: string, b: string)
    requires IsBearer(a) == IsBearer(b)
    requires |Secret(a)| > 8 <==> |Secret(b)| > 8
    requires |Secret(a)| > 8 ==>
               Secret(a)[..4] == Secret(b)[..4] && Secret(a)[|Secret(a)| - 4..] == Secret(b)[|Secret(b)| - 4..]
    ensures MaskToken(a) == MaskToken(b)
  {
    MaskTokenByChars(a);
    MaskTokenByChars(b);
  }

  /** `mask_sensitive_header` */
  function MaskSensitiveHeader(name: string, value: string): (r: string)
    ensures !IsSensitiveHeader(name) ==> r == value
    ensures IsSensitiveHeader(name) ==> r == MaskToken(value) && |r| <= |BearerPrefix| + 11
  {
    if IsSensitiveHeader(name) then
      MaskTokenByChars(value);
      MaskToken(value)
    else value
  }

  // ---------------------------------------------------------------------
  // Truncation at a character boundary
  // ---------------------------------------------------------------------

  /** The number of characters whose encoding ends exactly at byte offset
      `b`, when `b` is a character boundary of `s`. */
  function BoundaryChars(s: string, b: nat): (r: Option<nat>)
    ensures r.Some? ==> r.value <= |s| && ByteLen(s[..r.value]) == b
  {
    if b == 0 then Some(0)
    else if s == [] || b < Utf8Len(s[0]) then None
    else
      match BoundaryChars(s[1..], b - Utf8Len(s[0]))
      case None => None
      case Some(k) =>
        assert s[..k + 1][1..] == s[1..][..k];
        Some(k + 1)
  }

  /** `str::is_char_boundary` */
  predicate IsCharBoundary(s: string, b: nat) {
    BoundaryChars(s, b).Some?
  }

  /** The end of every whole-character prefix is a boundary. */
  lemma {:induction false} PrefixEndIsBoundary(s: string, k: nat)
    requires k <= |s|
    ensures BoundaryChars(s, ByteLen(s[..k])) == Some(k)
    decreases k
  {
    if k > 0 {
      assert s[..k][1..] == s[1..][..k - 1];
      PrefixEndIsBoundary(s[1..], k - 1);
    }
  }

  /** Longer prefixes take strictly more bytes. */
  lemma PrefixBytesIncrease(s: string, k: nat, j: nat)
    requires k < j <= |s|
    ensures ByteLen(s[..k]) < ByteLen(s[..j])
  {
    assert s[..j] == s[..k] + s[k..j];
    ByteLenAppend(s[..k], s[k..j]);
    ByteLenAtLeastLength(s[k..j]);
  }

  /** The most whole characters of `s` that fit in `max` bytes. */
  function FittingChars(s: string, max: nat): (k: nat)
    ensures k <= |s| && ByteLen(s[..k]) <= max
    ensures k < |s| ==> ByteLen(s[..k + 1]) > max
  {
    if s == [] || Utf8Len(s[0]) > max then 0
    else
      var k := FittingChars(s[1..], max - Utf8Len(s[0]));
      assert s[..k + 1][1..] == s[1..][..k];
      assert k + 1 < |s| ==> s[..k + 2][1..] == s[1..][..k + 1];
      k + 1
  }

  /** The note appended to a cut body. */
  function TruncationNote(total: nat): string {
    "...\n[truncated, total " + NatToString(total) + " bytes]"
  }

  /** What `truncate_utf8_safe` returns. */
  function Truncated(s: string, max: nat): (r: string)
    ensures ByteLen(s) <= max ==> r == s
    ensures ByteLen(s) > max ==>
              var note := TruncationNote(ByteLen(s));
              |note| <= |r| && r[|r| - |note|..] == note && ByteLen(r[..|r| - |note|]) <= max
  {
    if ByteLen(s) <= max then s else s[..FittingChars(s, max)] + TruncationNote(ByteLen(s))
  }

  /** A short body is kept whole; a long one keeps the longest run of
      whole leading characters that fits in `max` bytes, which falls short
      of `max` by at most three bytes, followed by the note. */
  lemma TruncatedShape(s: string, max: nat)
    ensures ByteLen(s) <= max ==> Truncated(s, max) == s
    ensures ByteLen(s) > max ==>
              exists k :: 0 <= k < |s| && Truncated(s, max) == s[..k] + TruncationNote(ByteLen(s))
                && ByteLen(s[..k]) <= max && max < ByteLen(s[..k]) + 4
  {
    if ByteLen(s) > max {
      var k := FittingChars(s, max);
      assert k < |s| by {
        assert s[..|s|] == s;
      }
      NextCharBytes(s, k);
      assert Truncated(s, max) == s[..k] + TruncationNote(ByteLen(s));
    }
  }

  /** One more character adds between one and four bytes. */
  lemma NextCharBytes(s: string, k: nat)
    requires k < |s|
    ensures ByteLen(s[..k]) < ByteLen(s[..k + 1]) <= ByteLen(s[..k]) + 4
  {
    assert s[..k + 1] == s[..k] + [s[k]];
    ByteLenAppend(s[..k], [s[k]]);
    assert ByteLen([s[k]]) == Utf8Len(s[k]) by {
      assert [s[k]][1..] == [];
    }
  }

  /** `truncate_utf8_safe`: walk the byte offset down from `max` to the
      nearest character boundary. */
  method TruncateUtf8Safe(s: string, maxLen: nat) returns (r: string)
    ensures r == Truncated(s, maxLen)
  {
    var len := ByteLen(s);
    if len <= maxLen {
      return s;
    }
    var end: nat := maxLen;
    while end > 0 && !IsCharBoundary(s, end)
      invariant end <= maxLen
      invariant forall e: nat :: end < e <= maxLen ==> !IsCharBoundary(s, e)
      decreases end
    {
      end := end - 1;
    }
    var k := BoundaryChars(s, end).value;
    LargestBoundary(s, maxLen, end, k);
    r := s[..k] + TruncationNote(len);
  }

  /** The boundary the walk stops at is the end of the longest fitting
      prefix. */
  lemma LargestBoundary(s: string, max: nat, end: nat, k: nat)
    requires ByteLen(s) > max && end <= max
    requires BoundaryChars(s, end) == Some(k)
    requires forall e: nat :: end < e <= max ==> !IsCharBoundary(s, e)
    ensures k == FittingChars(s, max)
  {
    var f := FittingChars(s, max);
    assert s[..|s|] == s;
    PrefixEndIsBoundary(s, f);
    if k < f {
      PrefixBytesIncrease(s, k, f);
      assert IsCharBoundary(s, ByteLen(s[..f]));
    } else if k > f {
      PrefixBytesIncrease(s, f, k);
      if f + 1 < k {
        PrefixBytesIncrease(s, f + 1, k);
      }
    }
  }
}

=== FILE: manager.dfy ===
/**
  The index manager: content sanitising and binary detection, the exclude
  glob, line chunking of a file into blobs, greedy batch packing, the
  retry policy of a batch upload, and the set accounting of an indexing run.
  The directory walk, file reading, SHA-256 blob naming, the index file and
  the HTTP client are parameters: a collection result, a naming function,
  the loaded index, a save outcome and a server that answers each attempt.
*/
module IndexManager {
  import opened Wrappers
  import opened Strings
  import opened Config

  /** A file or a chunk of one, as uploaded. */
  datatype Blob = Blob(path: string, content: string)

  /** Maximum batch size in bytes (content plus path), 5 MiB. */
  const MaxBatchSize: nat := 5 * 1024 * 1024

  /** Attempts per batch upload. */
  const MaxRetries: nat := 3

  // ---------------------------------------------------------------------
  // Sanitising and binary detection

  /** The control characters `sanitize_content` deletes. */
  predicate IsStripped(c: char) {
    ('\0' <= c <= '\U{0008}') || c == '\U{000B}' || c == '\U{000C}'
    || ('\U{000E}' <= c <= '\U{001F}') || c == '\U{007F}'
  }

  /** The characters `is_binary_content` counts: the stripped ones except
      vertical tab and form feed. */
  predicate IsNonPrintable(c: char) {
    ('\0' <= c <= '\U{0008}') || ('\U{000E}' <= c <= '\U{001F}') || c == '\U{007F}'
  }

  /** `sanitize_content` */
  function SanitizeContent(s: string): (r: string)
    ensures |r| <= |s|
    ensures forall i :: 0 <= i < |r| ==> !IsStripped(r[i])
  {
    if s == [] then []
    else (if IsStripped(s[0]) then [] else [s[0]]) + SanitizeContent(s[1..])
  }

  /** Sanitising works character by character: it distributes over
      concatenation, so every kept character stays, in order. */
  lemma {:induction false} SanitizeAppend(a: string, b: string)
    ensures SanitizeContent(a + b) == SanitizeContent(a) + SanitizeContent(b)
  {
    if a == [] {
      assert a + b == b;
    } else {
      assert (a + b)[1..] == a[1..] + b;
      SanitizeAppend(a[1..], b);
    }
  }

  /** A single character is deleted exactly when it is one of the stripped
      controls; tab, line feed and carriage return stay. */
  lemma SanitizeChar(c: char)
    ensures SanitizeContent([c]) == if IsStripped(c) then [] else [c]
    ensures c == '\t' || c == '\n' || c == '\r' ==> SanitizeContent([c]) == [c]
  {
    assert [c][1..] == [];
  }

  /** Content is left unchanged exactly when it holds no stripped control. */
  lemma {:induction false} SanitizeUnchangedIff(s: string)
    ensures SanitizeContent(s) == s <==> forall i :: 0 <= i < |s| ==> !IsStripped(s[i])
  {
    if s != [] {
      SanitizeUnchangedIff(s[1..]);
      if !IsStripped(s[0]) && forall i :: 0 <= i < |s| - 1 ==> !IsStripped(s[1..][i]) {
        assert SanitizeContent(s[1..]) == s[1..];
        assert SanitizeContent(s) == [s[0]] + s[1..] == s;
      }
      if IsStripped(s[0]) {
        assert |SanitizeContent(s)| < |s|;
      }
    }
  }

  /** Sanitising twice is sanitising once. */
  lemma SanitizeIdempotent(s: string)
    ensures SanitizeContent(SanitizeContent(s)) == SanitizeContent(s)
  {
    SanitizeUnchangedIff(SanitizeContent(s));
  }

  /** `is_binary_content`: more than a tenth of the characters (integer
      division) are counted controls; empty content is not binary. */
  function IsBinaryContent(s: string): (b: bool)
    ensures b ==> exists i :: 0 <= i < |s| && IsStripped(s[i])
  {
    CountedNonPrintableIsStripped(s);
    |s| > 0 && CountWhere(s, IsNonPrintable) > |s| / 10
  }

  /** A counted character is one that sanitising deletes. */
  lemma {:induction false} CountedNonPrintableIsStripped(s: string)
    ensures CountWhere(s, IsNonPrintable) > 0 ==> exists i :: 0 <= i < |s| && IsStripped(s[i])
  {
    if s != [] && !IsNonPrintable(s[0]) {
      CountedNonPrintableIsStripped(s[1..]);
      if CountWhere(s, IsNonPrintable) > 0 {
        var i :| 0 <= i < |s| - 1 && IsStripped(s[1..][i]);
        assert IsStripped(s[i + 1]);
      }
    } else if s != [] {
      assert IsStripped(s[0]);
    }
  }

  lemma {:induction false} CountNonPrintableZero(s: string)
    requires forall i :: 0 <= i < |s| ==> !IsStripped(s[i])
    ensures CountWhere(s, IsNonPrintable) == 0
  {
    if s != [] {
      CountNonPrintableZero(s[1..]);
    }
  }

  /** Sanitised content is never judged binary, and neither is content made
      only of vertical tabs and form feeds. */
  lemma SanitizedNeverBinary(s: string)
    ensures !IsBinaryContent(SanitizeContent(s))
  {
    CountNonPrintableZero(SanitizeContent(s));
  }

  lemma {:induction false} FormFeedsNotBinary(s: string)
    requires forall i :: 0 <= i < |s| ==> s[i] == '\U{000B}' || s[i] == '\U{000C}'
    ensures !IsBinaryContent(s)
  {
    if s != [] {
      FormFeedsNotBinary(s[1..]);
    }
  }

  // ---------------------------------------------------------------------
  // Exclude patterns

  /** Regex metacharacters other than '.', '*' and '?', which
      `match_pattern` would pass through to the regex engine unescaped. */
  predicate NoRegexMeta(pattern: string) {
    forall i :: 0 <= i < |pattern| ==> pattern[i] !in "\\+()|[]{}^$"
  }

  /** `match_pattern`: the pattern, anchored at both ends, where '*' is any
      run and '?' any one character other than a line feed (the regex '.'),
      and every other character matches itself. */
  function MatchPattern(s: string, pattern: string): (b: bool)
    requires NoRegexMeta(pattern)
    ensures b && NoChar(pattern, '*') ==> |s| == |pattern|
    decreases |s| + |pattern|
  {
    if pattern == [] then s == []
    else if pattern[0] == '*' then
      MatchPattern(s, pattern[1..]) || (s != [] && s[0] != '\n' && MatchPattern(s[1..], pattern))
    else if pattern[0] == '?' then
      s != [] && s[0] != '\n' && MatchPattern(s[1..], pattern[1..])
    else
      s != [] && s[0] == pattern[0] && MatchPattern(s[1..], pattern[1..])
  }

  predicate NoWildcard(pattern: string) {
    forall i :: 0 <= i < |pattern| ==> pattern[i] != '*' && pattern[i] != '?'
  }

  /** A pattern without wildcards matches only itself. */
  lemma {:induction false} MatchLiteral(s: string, pattern: string)
    requires NoRegexMeta(pattern) && NoWildcard(pattern)
    ensures MatchPattern(s, pattern) <==> s == pattern
    decreases |s| + |pattern|
  {
    if pattern != [] && s != [] {
      MatchLiteral(s[1..], pattern[1..]);
      if s[0] == pattern[0] && s[1..] == pattern[1..] {
        assert s == [s[0]] + s[1..];
        assert pattern == [pattern[0]] + pattern[1..];
      }
    }
  }

  /** A lone '*' matches exactly the strings without a line feed. */
  lemma {:induction false} MatchStar(s: string)
    ensures MatchPattern(s, "*") <==> NoChar(s, '\n')
    decreases |s|
  {
    assert "*"[1..] == [];
    if s != [] {
      MatchStar(s[1..]);
    }
  }

  /** `s` is a run free of line feeds followed by `suffix`. */
  predicate LfFreeThen(s: string, suffix: string) {
    |suffix| <= |s| && s[|s| - |suffix|..] == suffix && NoChar(s[..|s| - |suffix|], '\n')
  }

  lemma LfFreeThenStep(s: string, suffix: string)
    requires |suffix| < |s|
    ensures LfFreeThen(s, suffix) <==> s[0] != '\n' && LfFreeThen(s[1..], suffix)
  {
    var k := |s| - |suffix|;
    assert s[1..][k - 1..] == s[k..];
    assert s[..k] == [s[0]] + s[1..][..k - 1];
  }

  /** "*" followed by a literal matches exactly the strings that end with the
      literal after a run free of line feeds (the shape of "*.pyc"). */
  lemma {:induction false} MatchStarSuffix(s: string, suffix: string)
    requires NoRegexMeta(suffix) && NoWildcard(suffix)
    ensures NoRegexMeta(['*'] + suffix)
    ensures MatchPattern(s, ['*'] + suffix) <==> LfFreeThen(s, suffix)
    decreases |s|
  {
    var p := ['*'] + suffix;
    assert p[1..] == suffix;
    MatchLiteral(s, suffix);
    if s == [] {
      assert MatchPattern(s, p) <==> s == suffix;
    } else {
      MatchStarSuffix(s[1..], suffix);
      assert MatchPattern(s, p) <==> s == suffix || (s[0] != '\n' && LfFreeThen(s[1..], suffix));
      if |suffix| < |s| {
        LfFreeThenStep(s, suffix);
      } else if |suffix| == |s| {
        assert s[..|s| - |suffix|] == [];
        assert s[|s| - |suffix|..] == s;
      }
    }
  }

  // ---------------------------------------------------------------------
  // Splitting a file into blobs

  const DefaultMaxLines: nat := 800

  /** A limit of 0 lines per blob falls back to 800. */
  function EffectiveMaxLines(maxLinesPerBlob: nat): (m: nat)
    ensures m > 0
  {
    if maxLinesPerBlob == 0 then DefaultMaxLines else maxLinesPerBlob
  }

  function Min(a: nat, b: nat): nat { if a <= b then a else b }

  /** `usize::div_ceil` */
  function CeilDiv(a: nat, b: nat): nat
    requires b > 0
  {
    (a + b - 1) / b
  }

  lemma CeilDivBounds(a: nat, b: nat, i: nat)
    requires b > 0
    ensures i < CeilDiv(a, b) ==> i * b < a
    ensures CeilDiv(a, b) * b >= a
    ensures a > 0 ==> CeilDiv(a, b) >= 1
  {
    var q := CeilDiv(a, b);
    var r := (a + b - 1) % b;
    assert q * b + r == a + b - 1;
    if i < q {
      assert (i + 1) * b <= q * b;
    }
  }

  /** Lines `i·max .. min((i+1)·max, total)` (0-based chunk `i`). */
  function ChunkLines(lines: seq<string>, max: nat, i: nat): seq<string> {
    lines[Min(i * max, |lines|)..Min((i + 1) * max, |lines|)]
  }

  /** Chunk `i` of a file that has one starts at line `i·max` and ends at
      the next multiple of `max` or at the last line. */
  lemma ChunkSlice(lines: seq<string>, max: nat, i: nat)
    requires max > 0 && i < CeilDiv(|lines|, max)
    ensures i * max <= Min(i * max + max, |lines|) <= |lines|
    ensures lines[i * max..Min(i * max + max, |lines|)] == ChunkLines(lines, max, i)
  {
    CeilDivBounds(|lines|, max, i);
    assert (i + 1) * max == i * max + max;
  }

  /** "<path>#chunk<i>of<n>" */
  function ChunkPath(path: string, i: nat, n: nat): string {
    path + "#chunk" + NatToString(i) + "of" + NatToString(n)
  }

  /** Blob `i` (0-based) of a file split into `n` chunks of `max` lines. */
  function ChunkBlob(filePath: string, lines: seq<string>, max: nat, i: nat, n: nat): Blob {
    Blob(ChunkPath(filePath, i + 1, n), Join(ChunkLines(lines, max, i), "\n"))
  }

  /** The first `k` chunk blobs. */
  function ChunkBlobs(filePath: string, lines: seq<string>, max: nat, k: nat, n: nat): (r: seq<Blob>)
    ensures |r| == k
  {
    if k == 0 then [] else ChunkBlobs(filePath, lines, max, k - 1, n) + [ChunkBlob(filePath, lines, max, k - 1, n)]
  }

  lemma {:induction false} ChunkBlobsAt(filePath: string, lines: seq<string>, max: nat, k: nat, n: nat)
    ensures forall i :: 0 <= i < k ==> ChunkBlobs(filePath, lines, max, k, n)[i] == ChunkBlob(filePath, lines, max, i, n)
  {
    if k > 0 {
      ChunkBlobsAt(filePath, lines, max, k - 1, n);
    }
  }

  /** `split_file_content`: one verbatim blob when the file is short enough,
      otherwise one blob per run of `max` lines, joined with "\n", under a
      numbered path. */
  method SplitFileContent(maxLinesPerBlob: nat, filePath: string, content: string) returns (blobs: seq<Blob>)
    ensures var lines := Lines(content);
            var max := EffectiveMaxLines(maxLinesPerBlob);
            && (|lines| <= max ==> blobs == [Blob(filePath, content)])
            && (|lines| > max ==>
                  && |blobs| == CeilDiv(|lines|, max)
                  && forall i :: 0 <= i < |blobs| ==> blobs[i] == ChunkBlob(filePath, lines, max, i, |blobs|))
  {
    var lines := Lines(content);
    var total := |lines|;
    var max := EffectiveMaxLines(maxLinesPerBlob);
    if total <= max {
      return [Blob(filePath, content)];
    }
    var numChunks := CeilDiv(total, max);
    blobs := [];
    for chunkIdx := 0 to numChunks
      invariant blobs == ChunkBlobs(filePath, lines, max, chunkIdx, numChunks)
    {
      var blob := ChunkAt(filePath, lines, max, chunkIdx, numChunks);
      blobs := blobs + [blob];
    }
    ChunkBlobsAt(filePath, lines, max, numChunks, numChunks);
  }

  /** One iteration of `split_file_content`: the lines of chunk `chunkIdx`
      joined with "\n" under the chunk's numbered path. */
  method ChunkAt(filePath: string, lines: seq<string>, max: nat, chunkIdx: nat, numChunks: nat) returns (blob: Blob)
    requires max > 0 && chunkIdx < CeilDiv(|lines|, max)
    ensures blob == ChunkBlob(filePath, lines, max, chunkIdx, numChunks)
  {
    ChunkSlice(lines, max, chunkIdx);
    var startLine := chunkIdx * max;
    var endLine := Min(startLine + max, |lines|);
    var chunkLines := lines[startLine..endLine];
    blob := Blob(ChunkPath(filePath, chunkIdx + 1, numChunks), Join(chunkLines, "\n"));
  }

  /** Concatenation of a sequence of sequences. */
  function Flatten<T>(ss: seq<seq<T>>): seq<T> {
    if ss == [] then [] else ss[0] + Flatten(ss[1..])
  }

  lemma {:induction false} FlattenAppend<T>(ss: seq<seq<T>>, s: seq<T>)
    ensures Flatten(ss + [s]) == Flatten(ss) + s
  {
    if ss == [] {
      assert ss + [s] == [s];
    } else {
      assert (ss + [s])[1..] == ss[1..] + [s];
      FlattenAppend(ss[1..], s);
    }
  }

  /** The first `k` chunks in order. */
  function ChunkSeq(lines: seq<string>, max: nat, k: nat): (r: seq<seq<string>>)
    ensures |r| == k
    ensures forall i :: 0 <= i < k ==> r[i] == ChunkLines(lines, max, i)
  {
    if k == 0 then [] else ChunkSeq(lines, max, k - 1) + [ChunkLines(lines, max, k - 1)]
  }

  /** The chunks of a long file are non-empty, hold at most `max` lines each,
      and concatenate back to the file's lines in order. */
  lemma {:induction false} ChunksCoverLines(lines: seq<string>, max: nat)
    requires max > 0
    ensures var n := CeilDiv(|lines|, max);
            && Flatten(ChunkSeq(lines, max, n)) == lines
            && forall i :: 0 <= i < n ==> 0 < |ChunkLines(lines, max, i)| <= max
  {
    var n := CeilDiv(|lines|, max);
    ChunkPrefix(lines, max, n);
    CeilDivBounds(|lines|, max, 0);
    assert lines[..Min(n * max, |lines|)] == lines;
    forall i | 0 <= i < n
      ensures 0 < |ChunkLines(lines, max, i)| <= max
    {
      CeilDivBounds(|lines|, max, i);
    }
  }

  lemma {:induction false} ChunkPrefix(lines: seq<string>, max: nat, k: nat)
    requires max > 0
    ensures Flatten(ChunkSeq(lines, max, k)) == lines[..Min(k * max, |lines|)]
  {
    if k > 0 {
      ChunkPrefix(lines, max, k - 1);
      FlattenAppend(ChunkSeq(lines, max, k - 1), ChunkLines(lines, max, k - 1));
      var a := Min((k - 1) * max, |lines|);
      var b := Min(k * max, |lines|);
      assert (k - 1) * max + max == k * max;
      assert lines[..a] + lines[a..b] == lines[..b];
    }
  }

  // ---------------------------------------------------------------------
  // Batching

  /** Bytes a blob contributes to a batch: content plus path. */
  function BlobSize(b: Blob): nat {
    ByteLen(b.content) + ByteLen(b.path)
  }

  /** Total bytes of a batch. */
  function BatchBytes(bs: seq<Blob>): nat {
    if bs == [] then 0 else BatchBytes(bs[..|bs| - 1]) + BlobSize(bs[|bs| - 1])
  }

  /** A batch respects the count ceiling, and the byte ceiling unless it is a
      single blob. */
  predicate WellFormedBatch(b: seq<Blob>, max: nat) {
    b != [] && |b| <= max && (|b| >= 2 ==> BatchBytes(b) <= MaxBatchSize)
  }

  /** A batch is closed early only when it is full or the next blob would
      push it over the byte ceiling. */
  predicate ClosedWhenFull(batch: seq<Blob>, next: Blob, max: nat) {
    |batch| == max || BatchBytes(batch) + BlobSize(next) > MaxBatchSize
  }

  /** Every batch is well formed, and each was closed only when it had to be. */
  predicate Packed(batches: seq<seq<Blob>>, max: nat) {
    && (forall k :: 0 <= k < |batches| ==> WellFormedBatch(batches[k], max))
    && (forall k :: 0 < k < |batches| ==>
          batches[k] != [] && ClosedWhenFull(batches[k - 1], batches[k][0], max))
  }

  lemma PackedAppend(batches: seq<seq<Blob>>, current: seq<Blob>, max: nat)
    requires Packed(batches, max) && WellFormedBatch(current, max)
    requires |batches| > 0 ==> ClosedWhenFull(batches[|batches| - 1], current[0], max)
    ensures Packed(batches + [current], max)
  {
    var r := batches + [current];
    forall k | 0 < k < |r|
      ensures r[k] != [] && ClosedWhenFull(r[k - 1], r[k][0], max)
    {
      if k < |batches| {
        assert r[k - 1] == batches[k - 1] && r[k] == batches[k];
      }
    }
  }

  lemma BatchBytesAppend(bs: seq<Blob>, b: Blob)
    ensures BatchBytes(bs + [b]) == BatchBytes(bs) + BlobSize(b)
  {
    assert (bs + [b])[..|bs|] == bs;
  }

  /** The loop state of `build_batches` after the first `i` blobs: the closed
      batches followed by the open one are exactly those blobs, in order, and
      the open batch is empty only before the first blob. */
  ghost predicate BatchInv(blobs: seq<Blob>, i: nat, batches: seq<seq<Blob>>, current: seq<Blob>, max: nat) {
    i <= |blobs| && Flatten(batches) + current == blobs[..i] && PackingState(i, batches, current, max)
  }

  /** The packing part of the loop state: batches so far are packed, the open
      one is well formed, and the last closed one had to be closed. */
  ghost predicate PackingState(i: nat, batches: seq<seq<Blob>>, current: seq<Blob>, max: nat) {
    && max >= 1
    && (i == 0 <==> current == [])
    && (i == 0 ==> batches == [])
    && (current != [] ==> WellFormedBatch(current, max))
    && Packed(batches, max)
    && (|batches| > 0 ==> current != [] && ClosedWhenFull(batches[|batches| - 1], current[0], max))
  }

  /** Closing the open batch before a blob that does not fit. */
  lemma CloseStep(blobs: seq<Blob>, i: nat, batches: seq<seq<Blob>>, current: seq<Blob>, max: nat)
    requires BatchInv(blobs, i, batches, current, max) && i < |blobs| && current != []
    requires |current| >= max || BatchBytes(current) + BlobSize(blobs[i]) > MaxBatchSize
    ensures BatchInv(blobs, i + 1, batches + [current], [blobs[i]], max)
    ensures BatchBytes([blobs[i]]) == BlobSize(blobs[i])
  {
    var r := batches + [current];
    var c := [blobs[i]];
    BatchBytesAppend([], blobs[i]);
    assert [] + c == c;
    FlattenAppend(batches, current);
    PrefixStep(blobs, i);
    assert Flatten(r) + c == blobs[..i + 1];
    PackedAppend(batches, current, max);
    assert r[|r| - 1] == current;
    assert ClosedWhenFull(r[|r| - 1], c[0], max);
    assert WellFormedBatch(c, max);
  }

  lemma PrefixStep<T>(s: seq<T>, i: nat)
    requires i < |s|
    ensures s[..i + 1] == s[..i] + [s[i]]
  {
  }

  /** Adding a blob that fits to the open batch. */
  lemma ExtendStep(blobs: seq<Blob>, i: nat, batches: seq<seq<Blob>>, current: seq<Blob>, max: nat)
    requires BatchInv(blobs, i, batches, current, max) && i < |blobs|
    requires current != [] ==> |current| < max && BatchBytes(current) + BlobSize(blobs[i]) <= MaxBatchSize
    ensures BatchInv(blobs, i + 1, batches, current + [blobs[i]], max)
    ensures BatchBytes(current + [blobs[i]]) == BatchBytes(current) + BlobSize(blobs[i])
  {
    var c := current + [blobs[i]];
    var f := Flatten(batches);
    BatchBytesAppend(current, blobs[i]);
    ExtendPacking(i, batches, current, blobs[i], max);
    PrefixStep(blobs, i);
    assert f + c == blobs[..i + 1] by {
      assert f + c == (f + current) + [blobs[i]];
    }
  }

  /** The packing half of `ExtendStep`. */
  lemma ExtendPacking(i: nat, batches: seq<seq<Blob>>, current: seq<Blob>, b: Blob, max: nat)
    requires PackingState(i, batches, current, max)
    requires current != [] ==> |current| < max && BatchBytes(current + [b]) <= MaxBatchSize
    ensures PackingState(i + 1, batches, current + [b], max)
  {
    var c := current + [b];
    assert WellFormedBatch(c, max);
    if current != [] {
      assert c[0] == current[0];
    }
  }

  /** Closing the last open batch ends the packing. */
  lemma FinishBatches(blobs: seq<Blob>, batches: seq<seq<Blob>>, current: seq<Blob>, max: nat)
    requires BatchInv(blobs, |blobs|, batches, current, max)
    ensures var r := if current != [] then batches + [current] else batches;
      && Flatten(r) == blobs
      && (blobs == [] <==> r == [])
      && Packed(r, max)
  {
    assert blobs[..|blobs|] == blobs;
    if current != [] {
      FlattenAppend(batches, current);
      PackedAppend(batches, current, max);
    }
  }

  /** One iteration of `build_batches`: the open batch is closed when it is
      full or the blob would push it over the byte ceiling; then the blob
      joins the open batch. */
  method PlaceBlob(ghost blobs: seq<Blob>, ghost i: nat, batches: seq<seq<Blob>>, current: seq<Blob>, currentSize: nat, blob: Blob, max: nat)
    returns (batches': seq<seq<Blob>>, current': seq<Blob>, currentSize': nat)
    requires BatchInv(blobs, i, batches, current, max) && currentSize == BatchBytes(current)
    requires i < |blobs| && blob == blobs[i]
    ensures BatchInv(blobs, i + 1, batches', current', max) && currentSize' == BatchBytes(current')
  {
    var blobSize := BlobSize(blob);
    var wouldExceedSize := currentSize + blobSize > MaxBatchSize;
    var wouldExceedCount := |current| >= max;
    if current != [] && (wouldExceedSize || wouldExceedCount) {
      CloseStep(blobs, i, batches, current, max);
      batches', current', currentSize' := batches + [current], [blob], blobSize;
    } else {
      ExtendStep(blobs, i, batches, current, max);
      batches', current', currentSize' := batches, current + [blob], currentSize + blobSize;
    }
  }

  /** `build_batches`: greedy packing, in order, under a count ceiling of
      max(1, `maxBlobsPerBatch`) and the byte ceiling. */
  method BuildBatches(blobs: seq<Blob>, maxBlobsPerBatch: nat) returns (batches: seq<seq<Blob>>)
    ensures Flatten(batches) == blobs
    ensures blobs == [] <==> batches == []
    ensures Packed(batches, if maxBlobsPerBatch == 0 then 1 else maxBlobsPerBatch)
  {
    var max := if maxBlobsPerBatch == 0 then 1 else maxBlobsPerBatch;
    batches := [];
    var current: seq<Blob> := [];
    var currentSize := 0;
    for i := 0 to |blobs|
      invariant BatchInv(blobs, i, batches, current, max)
      invariant currentSize == BatchBytes(current)
    {
      batches, current, currentSize := PlaceBlob(blobs, i, batches, current, currentSize, blobs[i], max);
    }
    FinishBatches(blobs, batches, current, max);
    if current != [] {
      batches := batches + [current];
    }
  }

  lemma {:induction false} BatchBytesAtLeastMember(bs: seq<Blob>, i: nat)
    requires i < |bs|
    ensures BlobSize(bs[i]) <= BatchBytes(bs)
  {
    if i < |bs| - 1 {
      BatchBytesAtLeastMember(bs[..|bs| - 1], i);
    }
  }

  /** A blob larger than the byte ceiling travels in a batch of its own. */
  lemma OversizedBlobAlone(batch: seq<Blob>, max: nat, i: nat)
    requires WellFormedBatch(batch, max)
    requires i < |batch| && BlobSize(batch[i]) > MaxBatchSize
    ensures |batch| == 1
  {
    BatchBytesAtLeastMember(batch, i);
  }

  // ---------------------------------------------------------------------
  // Uploading one batch

  /** What one attempt of the batch-upload request produced: a transport
      failure, or a response with its status, its Retry-After header value
      (when present and visible ASCII), its body text, and the `blob_names`
      the body decodes to (None when it does not decode). */
  /** Answers attempt `k` of the upload of a batch. */
  type Server = (seq<Blob>, nat) -> HttpAttempt

  datatype HttpAttempt =
    | TransportError(message: string)
    | Response(status: nat, retryAfter: Option<string>, body: string, blobNames: Option<seq<string>>)

  /** The result, the delays slept between attempts (milliseconds), and the
      number of requests sent. */
  datatype UploadTrace = UploadTrace(result: Result<seq<string>, string>, waits: seq<nat>, requests: nat)

  function Pow2(k: nat): (r: nat)
    ensures r >= 1
  {
    if k == 0 then 1 else 2 * Pow2(k - 1)
  }

  /** Seconds to wait after a 429: the Retry-After delta-seconds, else 1. */
  function RetryAfterSecs(header: Option<string>): nat {
    if header.Some? && ParseU64(header.value).Some? then ParseU64(header.value).value else 1
  }

  predicate IsSuccess(status: nat) { 200 <= status < 300 }

  predicate IsServerErrorStatus(status: nat) { 500 <= status < 600 }

  const DecodeFailure: string := "error decoding response body"
  const TokenInvalid: string := "Token invalid or expired"
  const AccessDenied: string := "Access denied, token may be disabled"
  const BadRequestPrefix: string := "Bad request: "
  const HttpErrorPrefix: string := "HTTP error: "
  const AllRetriesFailedPrefix: string := "All retries failed: "

  /** What one attempt decides: end the upload with a result, or sleep
      `wait` (no sleep after the last attempt) and go on, `lastError` being
      the last transport error seen. */
  datatype AttemptStep =
    | Stop(result: Result<seq<string>, string>)
    | Retry(wait: seq<nat>, lastError: Option<string>)

  /** The body of the attempt loop for attempt `attempt`. */
  function Classify(a: HttpAttempt, attempt: nat, lastError: Option<string>): (s: AttemptStep)
    ensures s.Retry? && attempt < MaxRetries - 1 ==> |s.wait| == 1
    ensures s.Retry? && attempt >= MaxRetries - 1 ==> s.wait == [] && a.TransportError?
    ensures s.Retry? ==> s.lastError == if a.TransportError? then Some(a.message) else lastError
    ensures a.Response? && IsSuccess(a.status) ==> s == Stop(if a.blobNames.Some? then Ok(a.blobNames.value) else Err(DecodeFailure))
  {
    var retry := attempt < MaxRetries - 1;
    match a
    case TransportError(msg) =>
      Retry(if retry then [1000 * Pow2(attempt)] else [], Some(msg))
    case Response(status, retryAfter, body, names) =>
      if status == 401 then Stop(Err(TokenInvalid))
      else if status == 403 then Stop(Err(AccessDenied))
      else if status == 400 then Stop(Err(BadRequestPrefix + body))
      else if IsSuccess(status) then Stop(if names.Some? then Ok(names.value) else Err(DecodeFailure))
      else if status == 429 && retry then Retry([RetryAfterSecs(retryAfter) * 1000], lastError)
      else if IsServerErrorStatus(status) && retry then Retry([1000 * Pow2(attempt)], lastError)
      else Stop(Err(HttpErrorPrefix + NatToString(status)))
  }

  /** The attempt loop from attempt `attempt` on, `lastError` being the
      last transport error seen. */
  function UploadAttempts(server: Server, blobs: seq<Blob>, attempt: nat, lastError: Option<string>): (t: UploadTrace)
    decreases MaxRetries - attempt
  {
    if attempt >= MaxRetries then UploadTrace(Err(AllRetriesFailedPrefix + lastError.GetOr("")), [], 0)
    else
      match Classify(server(blobs, attempt), attempt, lastError)
      case Stop(r) => UploadTrace(r, [], 1)
      case Retry(w, e) =>
        var rest := UploadAttempts(server, blobs, attempt + 1, e);
        UploadTrace(rest.result, w + rest.waits, rest.requests + 1)
  }

  /** `upload_batch`: an oversized batch fails before any request; otherwise
      the attempt loop from attempt 0. */
  function UploadBatchSpec(blobs: seq<Blob>, server: Server): UploadTrace {
    if BatchBytes(blobs) > MaxBatchSize then
      UploadTrace(Err("Batch too large: " + NatToString(BatchBytes(blobs) / 1024 / 1024) + "MB"), [], 0)
    else UploadAttempts(server, blobs, 0, None)
  }

  /** A trace continued after `requests` requests and the sleeps `waits`. */
  function Resumed(waits: seq<nat>, requests: nat, t: UploadTrace): UploadTrace {
    UploadTrace(t.result, waits + t.waits, requests + t.requests)
  }

  /** An attempt that sleeps and goes on leaves the rest of the trace to the
      next attempt. */
  lemma RetryResumes(server: Server, blobs: seq<Blob>, attempt: nat, lastError: Option<string>, waits: seq<nat>, requests: nat)
    requires attempt < MaxRetries && Classify(server(blobs, attempt), attempt, lastError).Retry?
    ensures var step := Classify(server(blobs, attempt), attempt, lastError);
            Resumed(waits, requests, UploadAttempts(server, blobs, attempt, lastError))
            == Resumed(waits + step.wait, requests + 1, UploadAttempts(server, blobs, attempt + 1, step.lastError))
  {
    var step := Classify(server(blobs, attempt), attempt, lastError);
    var t := UploadAttempts(server, blobs, attempt + 1, step.lastError);
    assert waits + (step.wait + t.waits) == (waits + step.wait) + t.waits;
  }

  /** An attempt that stops ends the trace. */
  lemma StopEnds(server: Server, blobs: seq<Blob>, attempt: nat, lastError: Option<string>, waits: seq<nat>, requests: nat)
    requires attempt < MaxRetries && Classify(server(blobs, attempt), attempt, lastError).Stop?
    ensures Resumed(waits, requests, UploadAttempts(server, blobs, attempt, lastError))
            == UploadTrace(Classify(server(blobs, attempt), attempt, lastError).result, waits, requests + 1)
  {
    assert waits + [] == waits;
  }

  /** The byte size of a batch, summed blob by blob. */
  method SumBatchBytes(blobs: seq<Blob>) returns (size: nat)
    ensures size == BatchBytes(blobs)
  {
    size := 0;
    for i := 0 to |blobs|
      invariant size == BatchBytes(blobs[..i])
    {
      assert blobs[..i + 1][..i] == blobs[..i];
      size := size + BlobSize(blobs[i]);
    }
    assert blobs[..|blobs|] == blobs;
  }

  /** `upload_batch`, with `server(blobs, i)` the outcome of attempt `i`; the
      sleeps are returned instead of taken. */
  method UploadBatch(blobs: seq<Blob>, server: Server)
    returns (result: Result<seq<string>, string>, waits: seq<nat>, requests: nat)
    ensures UploadTrace(result, waits, requests) == UploadBatchSpec(blobs, server)
  {
    var batchSize := SumBatchBytes(blobs);
    if batchSize > MaxBatchSize {
      return Err("Batch too large: " + NatToString(batchSize / 1024 / 1024) + "MB"), [], 0;
    }
    result, waits, requests := UploadAttemptLoop(blobs, server);
  }

  /** The attempt loop of `upload_batch`. */
  method UploadAttemptLoop(blobs: seq<Blob>, server: Server)
    returns (result: Result<seq<string>, string>, waits: seq<nat>, requests: nat)
    ensures UploadTrace(result, waits, requests) == UploadAttempts(server, blobs, 0, None)
  {
    waits := [];
    requests := 0;
    var lastError: Option<string> := None;
    ghost var spec := UploadAttempts(server, blobs, 0, None);
    assert spec == Resumed([], 0, spec);
    for attempt := 0 to MaxRetries
      invariant spec == Resumed(waits, requests, UploadAttempts(server, blobs, attempt, lastError))
    {
      var retry := attempt < MaxRetries - 1;
      match server(blobs, attempt)
      case TransportError(msg) =>
        RetryResumes(server, blobs, attempt, lastError, waits, requests);
        if retry {
          waits := waits + [1000 * Pow2(attempt)];
        }
        requests := requests + 1;
        lastError := Some(msg);
      case Response(status, retryAfter, body, names) =>
        if status == 401 {
          StopEnds(server, blobs, attempt, lastError, waits, requests);
          return Err(TokenInvalid), waits, requests + 1;
        }
        if status == 403 {
          StopEnds(server, blobs, attempt, lastError, waits, requests);
          return Err(AccessDenied), waits, requests + 1;
        }
        if status == 400 {
          StopEnds(server, blobs, attempt, lastError, waits, requests);
          return Err(BadRequestPrefix + body), waits, requests + 1;
        }
        if IsSuccess(status) {
          StopEnds(server, blobs, attempt, lastError, waits, requests);
          if names.None? {
            return Err(DecodeFailure), waits, requests + 1;
          }
          return Ok(names.value), waits, requests + 1;
        }
        if status == 429 && retry {
          RetryResumes(server, blobs, attempt, lastError, waits, requests);
          var retryAfterSecs := RetryAfterSecs(retryAfter);
          waits := waits + [retryAfterSecs * 1000];
          requests := requests + 1;
          continue;
        }
        if IsServerErrorStatus(status) && retry {
          RetryResumes(server, blobs, attempt, lastError, waits, requests);
          waits := waits + [1000 * Pow2(attempt)];
          requests := requests + 1;
          continue;
        }
        StopEnds(server, blobs, attempt, lastError, waits, requests);
        return Err(HttpErrorPrefix + NatToString(status)), waits, requests + 1;
    }
    result := Err(AllRetriesFailedPrefix + lastError.GetOr(""));
    assert UploadAttempts(server, blobs, MaxRetries, lastError) == UploadTrace(result, [], 0);
    assert waits + [] == waits;
  }

  /** At most three requests; every request but the last is followed by a
      wait, the last never is. */
  lemma {:induction false} UploadAttemptsShape(server: Server, blobs: seq<Blob>, attempt: nat, lastError: Option<string>)
    requires attempt <= MaxRetries
    ensures var t := UploadAttempts(server, blobs, attempt, lastError);
            && t.requests <= MaxRetries - attempt
            && (attempt < MaxRetries ==> t.requests >= 1 && |t.waits| == t.requests - 1)
            && (attempt == MaxRetries ==> t.requests == 0 && t.waits == [])
    decreases MaxRetries - attempt
  {
    if attempt < MaxRetries {
      UploadAttemptsShape(server, blobs, attempt + 1, lastError);
      match server(blobs, attempt)
      case TransportError(msg) =>
        UploadAttemptsShape(server, blobs, attempt + 1, Some(msg));
      case Response(_, _, _, _) =>
    }
  }

  /** The retry policy: at most 3 requests with a wait between consecutive
      ones and none after the last; an oversized batch sends nothing. */
  lemma UploadBatchBounded(blobs: seq<Blob>, server: Server)
    ensures var t := UploadBatchSpec(blobs, server);
            && t.requests <= MaxRetries
            && (BatchBytes(blobs) > MaxBatchSize <==> t.requests == 0)
            && (t.requests > 0 ==> |t.waits| == t.requests - 1)
  {
    UploadAttemptsShape(server, blobs, 0, None);
  }

  /** 401, 403 and 400 end the upload at once, without waiting. */
  lemma UploadAuthFailsImmediately(blobs: seq<Blob>, server: Server)
    requires BatchBytes(blobs) <= MaxBatchSize
    requires server(blobs, 0).Response? && server(blobs, 0).status in {400, 401, 403}
    ensures var t := UploadBatchSpec(blobs, server);
            t.result.Err? && t.requests == 1 && t.waits == []
  {
  }

  /** A successful upload returns the names decoded from a 2xx response. */
  lemma {:induction false} UploadOkComesFromSuccess(server: Server, blobs: seq<Blob>, attempt: nat, lastError: Option<string>)
    requires UploadAttempts(server, blobs, attempt, lastError).result.Ok?
    ensures exists k :: attempt <= k < MaxRetries && server(blobs, k).Response? && IsSuccess(server(blobs, k).status)
              && server(blobs, k).blobNames == Some(UploadAttempts(server, blobs, attempt, lastError).result.value)
    decreases MaxRetries - attempt
  {
    var r := UploadAttempts(server, blobs, attempt, lastError).result;
    match server(blobs, attempt)
    case TransportError(msg) =>
      UploadOkComesFromSuccess(server, blobs, attempt + 1, Some(msg));
    case Response(status, _, _, names) =>
      if IsSuccess(status) {
        assert server(blobs, attempt).blobNames == Some(r.value);
      } else {
        UploadOkComesFromSuccess(server, blobs, attempt + 1, lastError);
      }
  }

  /** Between attempts the upload sleeps 1 s then 2 s after a transport error
      or a 5xx, and Retry-After seconds (default 1) after a 429. */
  lemma UploadWaits(server: Server, blobs: seq<Blob>)
    requires forall k :: 0 <= k < MaxRetries ==> server(blobs, k).TransportError? || IsServerErrorStatus(server(blobs, k).status)
    ensures UploadAttempts(server, blobs, 0, None).waits == [1000, 2000]
    ensures UploadAttempts(server, blobs, 0, None).requests == 3
    ensures UploadAttempts(server, blobs, 0, None).result.Err?
  {
    assert server(blobs, 2).TransportError? || IsServerErrorStatus(server(blobs, 2).status);
    assert server(blobs, 1).TransportError? || IsServerErrorStatus(server(blobs, 1).status);
    assert server(blobs, 0).TransportError? || IsServerErrorStatus(server(blobs, 0).status);
  }

  // ---------------------------------------------------------------------
  // Indexing a project

  datatype IndexStats = IndexStats(totalBlobs: nat, existingBlobs: nat, newBlobs: nat, failedBatches: Option<nat>)

  datatype IndexResult = IndexResult(status: string, message: string, stats: Option<IndexStats>)

  /** The result of uploading each batch, in batch order. */
  function BatchResults(batches: seq<seq<Blob>>, server: Server): (rs: seq<Result<seq<string>, string>>)
    ensures |rs| == |batches|
  {
    seq(|batches|, i requires 0 <= i < |batches| => UploadBatchSpec(batches[i], server).result)
  }

  /** The names a batch upload returns; none when it fails. */
  function NamesOf(r: Result<seq<string>, string>): seq<string> {
    if r.Ok? then r.value else []
  }

  /** The names returned by successful batches, in batch order. */
  function UploadedNames(rs: seq<Result<seq<string>, string>>): seq<string> {
    if rs == [] then [] else NamesOf(rs[0]) + UploadedNames(rs[1..])
  }

  /** The number of batches whose upload failed. */
  function FailedBatches(rs: seq<Result<seq<string>, string>>): (n: nat)
    ensures n <= |rs|
  {
    if rs == [] then 0 else (if rs[0].Err? then 1 else 0) + FailedBatches(rs[1..])
  }

  lemma {:induction false} UploadedNamesAppend(rs: seq<Result<seq<string>, string>>, r: Result<seq<string>, string>)
    ensures UploadedNames(rs + [r]) == UploadedNames(rs) + NamesOf(r)
  {
    if rs == [] {
      assert rs + [r] == [r];
      assert UploadedNames([r]) == NamesOf(r) + [];
    } else {
      assert (rs + [r])[1..] == rs[1..] + [r];
      UploadedNamesAppend(rs[1..], r);
    }
  }

  lemma {:induction false} FailedBatchesAppend(rs: seq<Result<seq<string>, string>>, r: Result<seq<string>, string>)
    ensures FailedBatches(rs + [r]) == FailedBatches(rs) + (if r.Err? then 1 else 0)
  {
    if rs == [] {
      assert rs + [r] == [r];
    } else {
      assert (rs + [r])[1..] == rs[1..] + [r];
      FailedBatchesAppend(rs[1..], r);
    }
  }

  /** The elements of a set in an unspecified order (HashSet iteration). */
  method Enumerate(s: set<string>) returns (r: seq<string>)
    ensures |r| == |s|
    ensures forall x :: x in r <==> x in s
    ensures forall i, j :: 0 <= i < j < |r| ==> r[i] != r[j]
  {
    r := [];
    var remaining := s;
    while remaining != {}
      invariant remaining <= s
      invariant forall x :: x in r <==> x in s && x !in remaining
      invariant forall i, j :: 0 <= i < j < |r| ==> r[i] != r[j]
      invariant |r| + |remaining| == |s|
      decreases |remaining|
    {
      var x :| x in remaining;
      r := r + [x];
      remaining := remaining - {x};
    }
  }

  /** The name-to-blob map of `index_project`: a later blob with the same
      name replaces an earlier one. */
  method NameBlobs(blobs: seq<Blob>, blobName: Blob -> string) returns (blobMap: map<string, Blob>)
    ensures blobMap.Keys == set b | b in blobs :: blobName(b)
    ensures forall n :: n in blobMap ==> blobMap[n] in blobs && blobName(blobMap[n]) == n
  {
    blobMap := map[];
    for i := 0 to |blobs|
      invariant blobMap.Keys == set b | b in blobs[..i] :: blobName(b)
      invariant forall n :: n in blobMap ==> blobMap[n] in blobs && blobName(blobMap[n]) == n
    {
      assert blobs[..i + 1] == blobs[..i] + [blobs[i]];
      blobMap := blobMap[blobName(blobs[i]) := blobs[i]];
    }
    assert blobs[..|blobs|] == blobs;
  }

  /** The blobs of the new names, in the order of the names. */
  method SelectBlobs(names: seq<string>, blobMap: map<string, Blob>) returns (selected: seq<Blob>)
    requires forall n :: n in names ==> n in blobMap
    ensures |selected| == |names|
    ensures forall k :: 0 <= k < |names| ==> selected[k] == blobMap[names[k]]
  {
    selected := [];
    for i := 0 to |names|
      invariant |selected| == i
      invariant forall k :: 0 <= k < i ==> selected[k] == blobMap[names[k]]
    {
      selected := selected + [blobMap[names[i]]];
    }
  }

  /** Uploads every batch and accounts for the results in batch order. */
  method UploadAll(batches: seq<seq<Blob>>, server: Server)
    returns (uploaded: seq<string>, failed: nat)
    ensures uploaded == UploadedNames(BatchResults(batches, server))
    ensures failed == FailedBatches(BatchResults(batches, server))
  {
    ghost var rs := BatchResults(batches, server);
    uploaded, failed := [], 0;
    for i := 0 to |batches|
      invariant uploaded == UploadedNames(rs[..i])
      invariant failed == FailedBatches(rs[..i])
    {
      var batch := batches[i];
      PrefixStep(rs, i);
      UploadedNamesAppend(rs[..i], rs[i]);
      FailedBatchesAppend(rs[..i], rs[i]);
      var r, _, _ := UploadBatch(batch, server);
      match r
      case Ok(blobNames) =>
        uploaded := uploaded + blobNames;
      case Err(_) =>
        failed := failed + 1;
    }
    assert rs[..|batches|] == rs;
  }

  /** The upload half of `index_project`: the blobs of the new names, in
      the order of the names, packed into batches of the tier's size and
      uploaded; nothing is sent when there is no new name. */
  method UploadNewBlobs(newHashes: seq<string>, blobMap: map<string, Blob>, server: Server)
    returns (batches: seq<seq<Blob>>, uploaded: seq<string>, failed: nat)
    requires forall n :: n in newHashes ==> n in blobMap
    ensures |Flatten(batches)| == |newHashes|
    ensures forall k :: 0 <= k < |newHashes| ==> Flatten(batches)[k] == blobMap[newHashes[k]]
    ensures Packed(batches, GetUploadStrategy(|newHashes|).batchSize)
    ensures uploaded == UploadedNames(BatchResults(batches, server)) && failed == FailedBatches(BatchResults(batches, server))
  {
    batches, uploaded, failed := [], [], 0;
    if newHashes != [] {
      var blobsToUpload := SelectBlobs(newHashes, blobMap);
      var strategy := GetUploadStrategy(|blobsToUpload|);
      batches := BuildBatches(blobsToUpload, strategy.batchSize);
      uploaded, failed := UploadAll(batches, server);
    }
  }

  /** The status and message of a finished run. */
  function Outcome(saveFailed: bool, total: nat, uploaded: nat, failed: nat): (r: (string, string))
    requires uploaded <= total
    ensures r.0 == (if saveFailed then "error" else if failed > 0 then "partial" else "success")
    ensures saveFailed <==> "Failed to save index (indexed " <= r.1
    ensures !saveFailed ==> "Indexed " + NatToString(total) + " blobs " <= r.1
  {
    if saveFailed then
      ("error", "Failed to save index (indexed " + NatToString(total) + " blobs, " + NatToString(failed) + " failed batches)")
    else
      var message :=
        if failed > 0 then
          "Indexed " + NatToString(total) + " blobs with " + NatToString(failed) + " failed batches (existing: "
          + NatToString(total - uploaded) + ", new: " + NatToString(uploaded) + ")"
        else
          "Indexed " + NatToString(total) + " blobs (existing: " + NatToString(total - uploaded)
          + ", new: " + NatToString(uploaded) + ")";
      assert message[0] == 'I';
      (if failed > 0 then "partial" else "success", message)
  }

  /** What indexing the blobs `blobs` promises: the batches hold exactly one
      blob of each name not yet in the index, packed for the tier of that
      many blobs; the saved index is the names already indexed followed by
      the uploaded names; the status and counts follow the batch results. */
  ghost predicate Indexed(
    blobs: seq<Blob>, blobName: Blob -> string, saved: set<string>, server: Server, saveOk: bool,
    result: IndexResult, savedIndex: seq<string>, batches: seq<seq<Blob>>)
  {
    var names := set b | b in blobs :: blobName(b);
    var existing := names * saved;
    var newNames := names - saved;
    var uploaded := UploadedNames(BatchResults(batches, server));
    var failed := FailedBatches(BatchResults(batches, server));
    && |Flatten(batches)| == |newNames|
    && (forall b :: b in Flatten(batches) ==> b in blobs && blobName(b) in newNames)
    && (forall n :: n in newNames ==> exists b :: b in Flatten(batches) && blobName(b) == n)
    && Packed(batches, GetUploadStrategy(|newNames|).batchSize)
    && |savedIndex| == |existing| + |uploaded|
    && (forall n :: n in savedIndex[..|existing|] <==> n in existing)
    && savedIndex[|existing|..] == uploaded
    && result.status == (if !saveOk then "error" else if failed > 0 then "partial" else "success")
    && result.message == Outcome(!saveOk, |savedIndex|, |uploaded|, failed).1
    && result.stats == Some(IndexStats(|savedIndex|, |existing|, |uploaded|, if failed > 0 then Some(failed) else None))
  }

  /** The batches cover the new names: one blob per name, each from the walk. */
  lemma NewBlobsCovered(
    blobs: seq<Blob>, blobName: Blob -> string, saved: set<string>,
    blobMap: map<string, Blob>, newHashes: seq<string>, flat: seq<Blob>)
    requires blobMap.Keys == set b | b in blobs :: blobName(b)
    requires forall n :: n in blobMap ==> blobMap[n] in blobs && blobName(blobMap[n]) == n
    requires forall x :: x in newHashes <==> x in blobMap.Keys - saved
    requires |flat| == |newHashes|
    requires forall k :: 0 <= k < |newHashes| ==> newHashes[k] in blobMap && flat[k] == blobMap[newHashes[k]]
    ensures forall b :: b in flat ==> b in blobs && blobName(b) in blobMap.Keys - saved
    ensures forall n :: n in blobMap.Keys - saved ==> exists b :: b in flat && blobName(b) == n
  {
    forall n | n in blobMap.Keys - saved
      ensures exists b :: b in flat && blobName(b) == n
    {
      var k :| 0 <= k < |newHashes| && newHashes[k] == n;
      assert flat[k] in flat;
    }
    forall b | b in flat
      ensures b in blobs && blobName(b) in blobMap.Keys - saved
    {
      var k :| 0 <= k < |flat| && flat[k] == b;
      assert newHashes[k] in newHashes;
    }
  }

  /** `index_project` from the loaded index on, for the blobs of the walk. */
  method IndexBlobs(blobs: seq<Blob>, blobName: Blob -> string, saved: set<string>, server: Server, saveOk: bool)
    returns (result: IndexResult, savedIndex: seq<string>, batches: seq<seq<Blob>>)
    ensures Indexed(blobs, blobName, saved, server, saveOk, result, savedIndex, batches)
  {
    var blobMap := NameBlobs(blobs, blobName);
    var allHashes := blobMap.Keys;
    var existingHashes := allHashes * saved;
    var newHashes := Enumerate(allHashes - saved);
    var uploadedBlobNames, failedBatchCount;
    batches, uploadedBlobNames, failedBatchCount := UploadNewBlobs(newHashes, blobMap, server);
    NewBlobsCovered(blobs, blobName, saved, blobMap, newHashes, Flatten(batches));
    var existingList := Enumerate(existingHashes);
    savedIndex := existingList + uploadedBlobNames;
    assert savedIndex[..|existingList|] == existingList;
    var total := |savedIndex|;
    var outcome := Outcome(!saveOk, total, |uploadedBlobNames|, failedBatchCount);
    result := IndexResult(outcome.0, outcome.1,
                Some(IndexStats(total, total - |uploadedBlobNames|, |uploadedBlobNames|,
                                if failedBatchCount > 0 then Some(failedBatchCount) else None)));
  }

  /** `index_project`. `collected` is the directory walk, `blobName` the
      SHA-256 naming, `saved` the loaded index, `server` answers each upload
      attempt of each batch, `saveOk` is whether writing the index succeeds.
      Batches are accounted in order. */
  method IndexProject(
    collected: Result<seq<Blob>, string>,
    blobName: Blob -> string,
    saved: set<string>,
    server: Server,
    saveOk: bool)
    returns (result: IndexResult, savedIndex: seq<string>, batches: seq<seq<Blob>>)
    ensures collected.Err? ==>
              result == IndexResult("error", "Failed to collect files: " + collected.error, None) && savedIndex == []
    ensures collected == Ok([]) ==>
              result == IndexResult("error", "No text files found in project", None) && savedIndex == []
    ensures collected.Ok? && collected.value != [] ==>
              Indexed(collected.value, blobName, saved, server, saveOk, result, savedIndex, batches)
  {
    batches := [];
    savedIndex := [];
    if collected.Err? {
      return IndexResult("error", "Failed to collect files: " + collected.error, None), [], [];
    }
    if collected.value == [] {
      return IndexResult("error", "No text files found in project", None), [], [];
    }
    result, savedIndex, batches := IndexBlobs(collected.value, blobName, saved, server, saveOk);
  }
}

=== FILE: mcp_server.dfy ===
/**
  The MCP server's JSON-RPC 2.0 dispatch over newline-delimited stdio:
  which method gets which answer, the error codes of section 5.1 of the
  JSON-RPC 2.0 specification, and the tools/call argument handling. JSON
  text is abstract: a request line is decoded by a parameter, and the
  params and arguments of a tools/call arrive already decoded, each with
  its own decoding error.
*/
module McpServer {
  import opened Wrappers
  import opened Tools

  /** A JSON-RPC request id, echoed back untouched. */
  datatype Id = NumberId(n: int) | StringId(s: string)

  /** `CallToolParams`: the tool name and the raw arguments, whose decoding
      into the tool's argument record can itself fail. */
  datatype CallParams = CallParams(name: string, arguments: Option<Result<SearchContextArgs, string>>)

  /** A decoded request line. `params` is absent, or present and decoded
      into call parameters or not. */
  datatype Request = Request(id: Option<Id>, methodName: string, params: Option<Result<CallParams, string>>)

  /** The `result` member of a successful response. */
  datatype Reply =
    | ServerInfo(protocolVersion: string, serverName: string, serverVersion: string)
    | ToolList(tools: seq<string>)
    | ToolText(content: seq<string>)
    | EmptyObject

  datatype Body = Success(reply: Reply) | Error(code: int, message: string)

  datatype Response = Response(id: Option<Id>, body: Body)

  const ParseErrorCode := -32700
  const MethodNotFoundCode := -32601
  const InvalidParamsCode := -32602

  const ProtocolVersion := "2024-11-05"
  const ServerName := "ace-tool"
  const ServerVersion := "0.1.0"
  const SearchContextTool := "search_context"

  /** The methods that are answered without a "method not found" error. */
  const KnownMethods: set<string> := {"initialize", "initialized", "tools/list", "tools/call", "ping"}

  /** `SearchContextArgs::default()`: every argument absent. */
  const DefaultArgs := SearchContextArgs(None, None)

  /** `handle_call_tool` */
  function HandleCallTool(id: Option<Id>, params: Option<Result<CallParams, string>>,
                          fs: string -> PathKind, search: Search): (r: Response)
    ensures r.id == id
    ensures r.body.Error? ==> r.body.code == InvalidParamsCode
    ensures r.body.Error? <==>
              (|| params.None?
               || params.value.Err?
               || params.value.value.name != SearchContextTool
               || (params.value.value.arguments.Some? && params.value.value.arguments.value.Err?))
    ensures r.body.Success? ==>
              var args := params.value.value.arguments;
              r.body.reply == ToolText([SearchContext(if args.Some? then args.value.value else DefaultArgs, fs, search)])
  {
    match params
    case None => Response(id, Error(InvalidParamsCode, "Missing params"))
    case Some(Err(e)) => Response(id, Error(InvalidParamsCode, "Invalid params: " + e))
    case Some(Ok(call)) =>
      if call.name == SearchContextTool then
        match call.arguments
        case Some(Err(e)) => Response(id, Error(InvalidParamsCode, "Invalid arguments: " + e))
        case Some(Ok(args)) => Response(id, Success(ToolText([SearchContext(args, fs, search)])))
        case None => Response(id, Success(ToolText([SearchContext(DefaultArgs, fs, search)])))
      else Response(id, Error(InvalidParamsCode, "Unknown tool: " + call.name))
  }

  /** A call without arguments runs the tool on all-absent arguments, which
      the tool answers with its first guard. */
  lemma AbsentArgumentsDefault(id: Option<Id>, fs: string -> PathKind, search: Search)
    ensures HandleCallTool(id, Some(Ok(CallParams(SearchContextTool, None))), fs, search)
         == Response(id, Success(ToolText(["Error: query is required"])))
  {
  }

  /** Only search_context can be called: the enhance_prompt tool is not
      reachable through the server. */
  lemma OnlySearchContextCallable(id: Option<Id>, call: CallParams, fs: string -> PathKind, search: Search)
    requires call.name != SearchContextTool
    ensures HandleCallTool(id, Some(Ok(call)), fs, search) == Response(id, Error(InvalidParamsCode, "Unknown tool: " + call.name))
  {
  }

  /** `handle_request` */
  function HandleRequest(request: Request, fs: string -> PathKind, search: Search): (r: Option<Response>)
    ensures r.None? <==> request.methodName == "initialized"
    ensures r.Some? ==> r.value.id == request.id
    ensures request.methodName !in KnownMethods ==>
              r == Some(Response(request.id, Error(MethodNotFoundCode, "Method not found: " + request.methodName)))
    ensures request.methodName == "initialize" ==>
              r == Some(Response(request.id, Success(ServerInfo(ProtocolVersion, ServerName, ServerVersion))))
    ensures request.methodName == "tools/list" ==>
              r == Some(Response(request.id, Success(ToolList([SearchContextTool]))))
    ensures request.methodName == "ping" ==> r == Some(Response(request.id, Success(EmptyObject)))
    ensures request.methodName == "tools/call" ==> r == Some(HandleCallTool(request.id, request.params, fs, search))
  {
    match request.methodName
    case "initialize" => Some(Response(request.id, Success(ServerInfo(ProtocolVersion, ServerName, ServerVersion))))
    case "initialized" => None
    case "tools/list" => Some(Response(request.id, Success(ToolList([SearchContextTool]))))
    case "tools/call" => Some(HandleCallTool(request.id, request.params, fs, search))
    case "ping" => Some(Response(request.id, Success(EmptyObject)))
    case _ => Some(Response(request.id, Error(MethodNotFoundCode, "Method not found: " + request.methodName)))
  }

  /** Every error the dispatch produces is one of the two codes it uses:
      -32601 for an unknown method, -32602 for a bad tools/call. */
  lemma DispatchErrorCodes(request: Request, fs: string -> PathKind, search: Search)
    ensures var r := HandleRequest(request, fs, search);
            r.Some? && r.value.body.Error? ==>
              (r.value.body.code == MethodNotFoundCode <==> request.methodName !in KnownMethods)
              && (r.value.body.code == InvalidParamsCode <==> request.methodName == "tools/call")
  {
  }

  /** What one line read from standard input makes the server write: an
      empty line is skipped, an unreadable one is answered with a parse
      error that carries no id. */
  function LineResponse(line: string, parse: string -> Result<Request, string>,
                        fs: string -> PathKind, search: Search): (r: Option<Response>)
    ensures line == [] ==> r.None?
    ensures line != [] && parse(line).Err? ==>
              r == Some(Response(None, Error(ParseErrorCode, "Parse error: " + parse(line).error)))
    ensures line != [] && parse(line).Ok? ==> r == HandleRequest(parse(line).value, fs, search)
  {
    if line == [] then None
    else
      match parse(line)
      case Ok(request) => HandleRequest(request, fs, search)
      case Err(e) => Some(Response(None, Error(ParseErrorCode, "Parse error: " + e)))
  }

  /** The responses written for a sequence of lines, in order. */
  function Responses(lines: seq<string>, parse: string -> Result<Request, string>,
                     fs: string -> PathKind, search: Search): seq<Response>
  {
    if lines == [] then []
    else
      var out := LineResponse(lines[|lines| - 1], parse, fs, search);
      Responses(lines[..|lines| - 1], parse, fs, search) + (if out.Some? then [out.value] else [])
  }

  /** Lines are answered independently: the responses to a stream are the
      responses to its first part followed by those to the rest. In
      particular a parse error does not stop the server. */
  lemma {:induction false} ResponsesAppend(a: seq<string>, b: seq<string>, parse: string -> Result<Request, string>,
                                          fs: string -> PathKind, search: Search)
    ensures Responses(a + b, parse, fs, search) == Responses(a, parse, fs, search) + Responses(b, parse, fs, search)
    decreases |b|
  {
    if b == [] {
      assert a + b == a;
    } else {
      var b' := b[..|b| - 1];
      assert (a + b)[..|a + b| - 1] == a + b';
      assert (a + b)[|a + b| - 1] == b[|b| - 1];
      ResponsesAppend(a, b', parse, fs, search);
    }
  }

  /** At most one response per line, and none at all for a stream of empty
      lines. */
  lemma {:induction false} ResponsesBounded(lines: seq<string>, parse: string -> Result<Request, string>,
                                           fs: string -> PathKind, search: Search)
    ensures |Responses(lines, parse, fs, search)| <= |lines|
    ensures (forall i :: 0 <= i < |lines| ==> lines[i] == []) ==> Responses(lines, parse, fs, search) == []
    decreases |lines|
  {
    if lines != [] {
      var init := lines[..|lines| - 1];
      ResponsesBounded(init, parse, fs, search);
      assert forall i :: 0 <= i < |init| ==> init[i] == lines[i];
    }
  }

  /** `run`: read lines until the input ends, writing one response for each
      line that calls for one. */
  method Run(lines: seq<string>, parse: string -> Result<Request, string>,
             fs: string -> PathKind, search: Search) returns (written: seq<Response>)
    ensures written == Responses(lines, parse, fs, search)
  {
    written := [];
    var i := 0;
    while i < |lines|
      invariant 0 <= i <= |lines|
      invariant written == Responses(lines[..i], parse, fs, search)
    {
      var line := lines[i];
      assert lines[..i + 1][..i] == lines[..i];
      if line != [] {
        match parse(line)
        case Ok(request) =>
          var response := HandleRequest(request, fs, search);
          if response.Some? {
            written := written + [response.value];
          }
        case Err(e) =>
          written := written + [Response(None, Error(ParseErrorCode, "Parse error: " + e))];
      }
      i := i + 1;
    }
    assert lines[..|lines|] == lines;
  }
}

=== FILE: metrics.dfy ===
/**
  Runtime metrics of the uploader: a bounded FIFO window of request outcomes,
  the number of rate-limited outcomes in it, and the number of requests
  recorded since the strategy last adjusted. The EWMA latency is floating
  point and is not modelled; its classification (`LatencyHealth`) is an input
  of the adaptive strategy instead.
*/
module Metrics {
  import opened Wrappers

  /** Classification of a failed request. */
  datatype ErrorType = Timeout | RateLimit | ServerError | ClientError | NetworkError

  /** Outcome of one HTTP request. */
  datatype RequestOutcome = RequestOutcome(success: bool, latencyMs: nat, errorType: Option<ErrorType>)

  /** Latency relative to the baseline, as the EWMA classifies it. */
  datatype LatencyHealth = Healthy | Normal | High

  /** An exact success rate num/den. */
  datatype Ratio = Ratio(num: nat, den: nat)

  predicate IsRateLimited(o: RequestOutcome) { o.errorType == Some(RateLimit) }

  predicate IsServerError(o: RequestOutcome) { o.errorType == Some(ServerError) }

  /** Number of rate-limited outcomes in `w`. */
  function RateLimitCount(w: seq<RequestOutcome>): nat {
    if w == [] then 0 else (if IsRateLimited(w[0]) then 1 else 0) + RateLimitCount(w[1..])
  }

  /** Number of successful outcomes in `w`. */
  function SuccessCount(w: seq<RequestOutcome>): (n: nat)
    ensures n <= |w|
  {
    if w == [] then 0 else (if w[0].success then 1 else 0) + SuccessCount(w[1..])
  }

  lemma {:induction false} RateLimitCountAppend(w: seq<RequestOutcome>, o: RequestOutcome)
    ensures RateLimitCount(w + [o]) == RateLimitCount(w) + (if IsRateLimited(o) then 1 else 0)
  {
    if w == [] {
      assert w + [o] == [o];
    } else {
      assert (w + [o])[1..] == w[1..] + [o];
      RateLimitCountAppend(w[1..], o);
    }
  }

  /** The count is positive exactly when some outcome in the window is rate-limited. */
  lemma {:induction false} RateLimitCountPositive(w: seq<RequestOutcome>)
    ensures RateLimitCount(w) > 0 <==> exists i :: 0 <= i < |w| && IsRateLimited(w[i])
  {
    if w != [] {
      RateLimitCountPositive(w[1..]);
      if exists i :: 0 <= i < |w| && IsRateLimited(w[i]) {
        var i :| 0 <= i < |w| && IsRateLimited(w[i]);
        if i > 0 { assert IsRateLimited(w[1..][i - 1]); }
      }
      if exists i :: 0 <= i < |w| - 1 && IsRateLimited(w[1..][i]) {
        var i :| 0 <= i < |w| - 1 && IsRateLimited(w[1..][i]);
        assert IsRateLimited(w[i + 1]);
      }
    }
  }

  /** The window capacity: `record` always keeps at least the newest outcome,
      so a window size of 0 behaves as 1. */
  function Capacity(windowSize: nat): (c: nat)
    ensures c >= 1
  {
    if windowSize == 0 then 1 else windowSize
  }

  /** The last `n` elements of `s` (all of `s` when it is shorter). */
  function LastN<T>(s: seq<T>, n: nat): (r: seq<T>)
    ensures |r| == if |s| <= n then |s| else n
    ensures r == s[|s| - |r|..]
  {
    if |s| <= n then s else s[|s| - n..]
  }

  /** The outcomes `record` keeps: every one that is not a 5xx. */
  function Counted(os: seq<RequestOutcome>): (r: seq<RequestOutcome>)
    ensures |r| <= |os|
  {
    if os == [] then []
    else (if IsServerError(os[0]) then [] else [os[0]]) + Counted(os[1..])
  }

  /** The window and counters of `RuntimeMetrics`, as a value. */
  datatype MetricsState = MetricsState(
    window: seq<RequestOutcome>,
    windowSize: nat,
    requestsSinceAdjustment: nat,
    rateLimitCount: nat)

  /** The invariant of the counters: the rate-limit counter is the number of
      rate-limited outcomes in the window, and the window is bounded. */
  predicate ValidState(m: MetricsState) {
    && m.rateLimitCount == RateLimitCount(m.window)
    && |m.window| <= Capacity(m.windowSize)
  }

  /** A fresh `RuntimeMetrics::new(_, _, windowSize)`. */
  function Initial(windowSize: nat): (m: MetricsState)
    ensures ValidState(m)
  {
    MetricsState([], windowSize, 0, 0)
  }

  /** What `record` does to the state: a 5xx is ignored; any other outcome is
      appended, the oldest is evicted beyond the capacity, and the
      adjustment counter grows by one. */
  function Recorded(m: MetricsState, o: RequestOutcome): (r: MetricsState)
    ensures IsServerError(o) ==> r == m
    ensures !IsServerError(o) ==> r.requestsSinceAdjustment == m.requestsSinceAdjustment + 1
    ensures r.windowSize == m.windowSize
    ensures ValidState(m) ==> ValidState(r)
  {
    if IsServerError(o) then m
    else
      var w := LastN(m.window + [o], Capacity(m.windowSize));
      MetricsState(w, m.windowSize, m.requestsSinceAdjustment + 1, RateLimitCount(w))
  }

  /** A recorded outcome other than a 5xx is the newest in the window, and
      the window is never left empty by it. */
  lemma RecordedNewest(m: MetricsState, o: RequestOutcome)
    requires !IsServerError(o)
    ensures var r := Recorded(m, o);
            |r.window| >= 1 && r.window[|r.window| - 1] == o
  {
  }

  /** `reset_adjustment_counter`: only the counter changes. */
  function AdjustmentReset(m: MetricsState): (r: MetricsState)
    ensures r.requestsSinceAdjustment == 0
    ensures r.window == m.window && r.windowSize == m.windowSize && r.rateLimitCount == m.rateLimitCount
  {
    m.(requestsSinceAdjustment := 0)
  }

  /** The state after recording `os` in order. */
  function Replay(m: MetricsState, os: seq<RequestOutcome>): (r: MetricsState)
    ensures r.windowSize == m.windowSize
    decreases |os|
  {
    if os == [] then m else Replay(Recorded(m, os[0]), os[1..])
  }

  /** `success_rate`: successes over the window length, and 1 when empty. */
  function SuccessRate(w: seq<RequestOutcome>): (r: Ratio)
    ensures r.den > 0 && r.num <= r.den
    ensures w == [] ==> r.num == r.den
    ensures w != [] ==> r.den == |w| && r.num == SuccessCount(w)
  {
    if w == [] then Ratio(1, 1) else Ratio(SuccessCount(w), |w|)
  }

  /** num/den < p/q, by cross-multiplication. */
  predicate Below(r: Ratio, p: nat, q: nat) { q * r.num < p * r.den }

  /** num/den >= p/q */
  predicate AtLeast(r: Ratio, p: nat, q: nat) { q * r.num >= p * r.den }

  /** num/den > p/q */
  predicate Above(r: Ratio, p: nat, q: nat) { q * r.num > p * r.den }

  lemma LastNOfAppend<T>(a: seq<T>, o: T, k: nat)
    requires k >= 1
    ensures LastN(LastN(a, k) + [o], k) == LastN(a + [o], k)
  {
    var b := LastN(a, k);
    if |a| > k {
      assert |b| == k;
      assert (b + [o])[1..] == (a + [o])[|a| + 1 - k..];
    }
  }

  lemma {:induction false} CountedAppend(os: seq<RequestOutcome>, o: RequestOutcome)
    ensures Counted(os + [o]) == Counted(os) + (if IsServerError(o) then [] else [o])
  {
    if os == [] {
      assert os + [o] == [o];
    } else {
      assert (os + [o])[1..] == os[1..] + [o];
      CountedAppend(os[1..], o);
    }
  }

  lemma {:induction false} ReplayAppend(m: MetricsState, os: seq<RequestOutcome>, o: RequestOutcome)
    ensures Replay(m, os + [o]) == Recorded(Replay(m, os), o)
    decreases |os|
  {
    if os == [] {
      assert os + [o] == [o];
    } else {
      assert (os + [o])[1..] == os[1..] + [o];
      ReplayAppend(Recorded(m, os[0]), os[1..], o);
    }
  }

  /** Starting empty, the window after any sequence of outcomes is exactly
      the last `Capacity` non-5xx outcomes, in the order they were recorded;
      the counters stay consistent with it. */
  lemma {:induction false} WindowIsLastRecorded(windowSize: nat, os: seq<RequestOutcome>)
    ensures Replay(Initial(windowSize), os).window == LastN(Counted(os), Capacity(windowSize))
    ensures ValidState(Replay(Initial(windowSize), os))
    ensures Replay(Initial(windowSize), os).requestsSinceAdjustment == |Counted(os)|
    decreases |os|
  {
    if os != [] {
      var init := os[..|os| - 1];
      var o := os[|os| - 1];
      assert os == init + [o];
      var prev := Replay(Initial(windowSize), init);
      WindowIsLastRecorded(windowSize, init);
      ReplayAppend(Initial(windowSize), init, o);
      assert Replay(Initial(windowSize), os) == Recorded(prev, o);
      CountedAppend(init, o);
      if !IsServerError(o) {
        var cap := Capacity(windowSize);
        LastNOfAppend(Counted(init), o, cap);
        assert Counted(os) == Counted(init) + [o];
        calc {
          Replay(Initial(windowSize), os).window;
          Recorded(prev, o).window;
          LastN(prev.window + [o], cap);
          LastN(LastN(Counted(init), cap) + [o], cap);
          LastN(Counted(os), cap);
        }
      } else {
        assert Counted(os) == Counted(init);
      }
    }
  }

  /** `record` on a full window: evicting the oldest outcome before
      appending keeps exactly the newest `Capacity` outcomes, and the counter
      adjusted by the evicted and the new outcome is the count of the new
      window. */
  lemma EvictingStep(w: seq<RequestOutcome>, windowSize: nat, o: RequestOutcome)
    requires |w| <= Capacity(windowSize)
    requires |w| >= windowSize && |w| > 0
    ensures w[1..] + [o] == LastN(w + [o], Capacity(windowSize))
    ensures RateLimitCount(w[1..] + [o])
            == RateLimitCount(w) + (if IsRateLimited(o) then 1 else 0) - (if IsRateLimited(w[0]) then 1 else 0)
  {
    assert w[1..] + [o] == (w + [o])[1..];
    RateLimitCountAppend(w[1..], o);
  }

  /** `record` on a window with room: nothing is evicted. */
  lemma GrowingStep(w: seq<RequestOutcome>, windowSize: nat, o: RequestOutcome)
    requires |w| < windowSize || |w| == 0
    ensures w + [o] == LastN(w + [o], Capacity(windowSize))
    ensures RateLimitCount(w + [o]) == RateLimitCount(w) + (if IsRateLimited(o) then 1 else 0)
  {
    RateLimitCountAppend(w, o);
  }

  /** A rate-limited oldest outcome is counted, so the saturating decrement
      on its eviction never saturates. */
  lemma OldestCounted(w: seq<RequestOutcome>)
    requires w != [] && IsRateLimited(w[0])
    ensures RateLimitCount(w) > 0
  {
  }

  /** `Recorded` in the terms `record` computes with: on a full window the
      oldest outcome leaves and the counter goes down for a rate-limited
      departure; in both cases the outcome is appended and the counter goes
      up for a rate-limited arrival. */
  lemma RecordedSteps(w: seq<RequestOutcome>, windowSize: nat, since: nat, counted: nat, o: RequestOutcome,
                       kept: seq<RequestOutcome>, count: nat)
    requires ValidState(MetricsState(w, windowSize, since, counted)) && !IsServerError(o)
    requires var added := counted + if IsRateLimited(o) then 1 else 0;
             if |w| >= windowSize && |w| > 0
             then kept == w[1..] && count == if IsRateLimited(w[0]) then added - 1 else added
             else kept == w && count == added
    ensures Recorded(MetricsState(w, windowSize, since, counted), o) == MetricsState(kept + [o], windowSize, since + 1, count)
    ensures ValidState(MetricsState(kept + [o], windowSize, since + 1, count))
  {
    if |w| >= windowSize && |w| > 0 {
      EvictingStep(w, windowSize, o);
    } else {
      GrowingStep(w, windowSize, o);
    }
  }

  /** The metrics object: `outcomes` is the window, updated in place. */
  class RuntimeMetrics {
    var outcomes: seq<RequestOutcome>
    var windowSize: nat
    var requestsSinceAdjustment: nat
    var rateLimitCount: nat

    function State(): MetricsState
      reads this
    {
      MetricsState(outcomes, windowSize, requestsSinceAdjustment, rateLimitCount)
    }

    ghost predicate Valid()
      reads this
    {
      ValidState(State())
    }

    constructor (windowSize: nat)
      ensures Valid() && State() == Initial(windowSize)
    {
      outcomes := [];
      this.windowSize := windowSize;
      requestsSinceAdjustment := 0;
      rateLimitCount := 0;
    }

    /** `record`: pops the oldest outcome once the window is full and keeps
        the rate-limit counter in step. */
    method Record(outcome: RequestOutcome)
      requires Valid()
      modifies this
      ensures Valid() && State() == Recorded(old(State()), outcome)
    {
      if outcome.errorType != Some(ServerError) {
        var count := rateLimitCount + if outcome.errorType == Some(RateLimit) then 1 else 0;
        var window := outcomes;
        if |window| >= windowSize && |window| > 0 {
          // pop_front; an empty window pops nothing
          if window[0].errorType == Some(RateLimit) {
            OldestCounted(window);
            count := if count > 0 then count - 1 else 0;
          }
          window := window[1..];
        }
        RecordedSteps(outcomes, windowSize, requestsSinceAdjustment, rateLimitCount, outcome, window, count);
        outcomes, rateLimitCount, requestsSinceAdjustment := window + [outcome], count, requestsSinceAdjustment + 1;
      }
    }

    /** `success_rate` */
    function SuccessRatio(): (r: Ratio)
      reads this
      ensures r.den > 0 && r.num <= r.den
      ensures outcomes == [] ==> r == Ratio(1, 1)
      ensures outcomes != [] ==> r == Ratio(SuccessCount(outcomes), |outcomes|)
    {
      SuccessRate(outcomes)
    }

    /** `has_minimum_samples` */
    function HasMinimumSamples(minSamples: nat): (b: bool)
      reads this
      ensures b <==> |outcomes| >= minSamples
    {
      |outcomes| >= minSamples
    }

    /** `sample_count` */
    function SampleCount(): (n: nat)
      reads this
      ensures n == |outcomes|
    {
      |outcomes|
    }

    /** `requests_since_adjustment` */
    function RequestsSinceAdjustment(): (n: nat)
      reads this
      ensures n == State().requestsSinceAdjustment
    {
      requestsSinceAdjustment
    }

    /** `reset_adjustment_counter` */
    method ResetAdjustmentCounter()
      requires Valid()
      modifies this
      ensures Valid() && State() == AdjustmentReset(old(State()))
    {
      requestsSinceAdjustment := 0;
    }

    /** `has_rate_limit_errors`: true exactly when a rate-limited outcome is
        in the window. */
    function HasRateLimitErrors(): (b: bool)
      reads this
      requires Valid()
      ensures b <==> exists i :: 0 <= i < |outcomes| && IsRateLimited(outcomes[i])
    {
      RateLimitCountPositive(outcomes);
      rateLimitCount > 0
    }
  }
}

=== FILE: path_normalizer.dfy ===
/**
  Path normalisation between Windows, WSL and Unix: drive paths and their
  `/mnt/<drive>` mounts, WSL UNC paths (`\\wsl$\<distro>\...` and
  `\\wsl.localhost\<distro>\...`), and the canonical form used for hashing.
  Paths are strings; the runtime environment is an input.
*/
module PathNormalizer {
  import opened Wrappers
  import opened Strings

  datatype RuntimeEnv = Windows | WslNative | Unix

  /** The canonical (forward-slash) form and the locally accessible form. */
  datatype NormalizedPath = NormalizedPath(canonical: string, local: string)

  datatype WslUncPath = WslUncPath(distro: string, innerPath: string)

  const UncDollarPrefix: string := "\\\\wsl$\\"
  const UncLocalhostPrefix: string := "\\\\wsl.localhost\\"

  /** `win_to_wsl`: after turning '\' into '/', a drive letter, ':' and an
      empty or '/'-led rest become "/mnt/" + the lowercase letter + rest.
      The source tests byte 1 for ':'; when char 0 is not ASCII that byte is a
      continuation byte, so the test on chars below is the same. */
  function WinToWsl(path: string): (r: Option<string>)
    ensures var p := ReplaceChar(path, '\\', '/');
            r.Some? <==> |p| >= 2 && IsAsciiAlpha(p[0]) && p[1] == ':' && (|p| == 2 || p[2] == '/')
    ensures r.Some? ==> "/mnt/" <= r.value && |r.value| == |path| + 4
                        && IsAsciiLower(r.value[5]) && NoChar(r.value, '\\')
    ensures r.Some? ==> r.value[6..] == ReplaceChar(path, '\\', '/')[2..]
  {
    var p := ReplaceChar(path, '\\', '/');
    ReplaceCharRemoves(path, '\\', '/');
    if |p| < 2 || p[1] != ':' then None
    else if !IsAsciiAlpha(p[0]) then None
    else
      var rest := p[2..];
      if rest != [] && rest[0] != '/' then None
      else Some("/mnt/" + [AsciiLower(p[0])] + rest)
  }

  /** `wsl_to_win`: "/mnt/<letter>" alone or followed by '/' becomes the
      uppercase letter, ':' and the rest with '/' turned into '\'. The
      source's byte-length tests agree with char counts here because the
      first six chars are ASCII. */
  function WslToWin(path: string): (r: Option<string>)
    ensures r.Some? <==> |path| >= 6 && "/mnt/" <= path && IsAsciiAlpha(path[5]) && (|path| == 6 || path[6] == '/')
    ensures r.Some? ==> |r.value| == |path| - 4 && IsAsciiUpper(r.value[0]) && r.value[1] == ':'
                        && NoChar(r.value, '/')
    ensures r.Some? ==> r.value[2..] == ReplaceChar(path[6..], '/', '\\')
  {
    if "/mnt/" <= path && |path| >= 6 && IsAsciiAlpha(path[5]) && (|path| == 6 || path[6] == '/') then
      var rest := if |path| > 6 then path[6..] else "";
      ReplaceCharRemoves(rest, '/', '\\');
      Some([AsciiUpper(path[5]), ':'] + ReplaceChar(rest, '/', '\\'))
    else None
  }

  /** `is_wsl_mnt_path` */
  predicate IsWslMntPath(path: string)
    ensures IsWslMntPath(path) ==> WslToWin(path).Some? && |WslToWin(path).value| == |path| - 4
  {
    if "/mnt/" <= path && |path| >= 6 && IsAsciiAlpha(path[5]) then |path| == 6 || path[6] == '/'
    else false
  }

  /** The mount-path test accepts exactly the paths `WslToWin` converts. */
  lemma MntPathIffConvertible(path: string)
    ensures IsWslMntPath(path) <==> WslToWin(path).Some?
  {
  }

  /** A Windows path with an uppercase drive and only '\' separators comes
      back unchanged from WSL. */
  lemma WinWslRoundTrip(path: string)
    requires |path| >= 2 && IsAsciiUpper(path[0]) && path[1] == ':'
    requires |path| == 2 || path[2] == '\\'
    requires NoChar(path, '/')
    ensures WinToWsl(path).Some?
    ensures WslToWin(WinToWsl(path).value) == Some(path)
  {
    var p := ReplaceChar(path, '\\', '/');
    var q := WinToWsl(path).value;
    assert q == "/mnt/" + [AsciiLower(path[0])] + p[2..];
    assert q[6..] == p[2..];
    assert p[2..] == ReplaceChar(path[2..], '\\', '/');
    ReplaceCharInverse(path[2..], '\\', '/');
    assert |q| == 6 || q[6] == '/';
    assert WslToWin(q).Some?;
    var w := WslToWin(q).value;
    assert w[0] == path[0];
    assert w == path[..2] + path[2..];
    assert path[..2] + path[2..] == path;
  }

  /** A "/mnt/<lowercase letter>" path without '\' comes back unchanged from
      Windows. */
  lemma WslWinRoundTrip(path: string)
    requires |path| >= 6 && "/mnt/" <= path && IsAsciiLower(path[5]) && (|path| == 6 || path[6] == '/')
    requires NoChar(path, '\\')
    ensures WslToWin(path).Some?
    ensures WinToWsl(WslToWin(path).value) == Some(path)
  {
    var w := WslToWin(path).value;
    var rest := path[6..];
    assert w == [AsciiUpper(path[5]), ':'] + ReplaceChar(rest, '/', '\\');
    ReplaceCharInverse(rest, '/', '\\');
    var p := ReplaceChar(w, '\\', '/');
    assert p[2..] == ReplaceChar(ReplaceChar(rest, '/', '\\'), '\\', '/');
    assert p[2..] == rest;
    assert WinToWsl(w).Some?;
    var q := WinToWsl(w).value;
    assert q == "/mnt/" + [path[5]] + rest;
    assert path[..6] == "/mnt/" + [path[5]];
    assert path == path[..6] + rest;
  }

  /** `build_wsl_unc`: "\\wsl.localhost\" + distro + the path with '\'
      separators, led by a single '\' when not empty. */
  function BuildWslUnc(distro: string, path: string): (r: string)
    ensures UncLocalhostPrefix + distro <= r
    ensures NoChar(path, '\\') && "/" <= path ==> r == UncLocalhostPrefix + distro + ReplaceChar(path, '/', '\\')
  {
    var normalized := ReplaceChar(path, '/', '\\');
    var suffix :=
      if normalized == [] then ""
      else if normalized[0] == '\\' then normalized
      else "\\" + normalized;
    UncLocalhostPrefix + distro + suffix
  }

  /** The remainder after a recognised WSL UNC prefix, once '/' has become '\'
      (the prefix is matched case-insensitively for ASCII). */
  function UncRemainder(path: string): (r: Option<string>)
    ensures r.Some? ==> NoChar(r.value, '/') && |r.value| < |path|
    ensures r.Some? ==> r.value == ReplaceChar(path, '/', '\\')[|path| - |r.value|..]
  {
    var p := ReplaceChar(path, '/', '\\');
    ReplaceCharRemoves(path, '/', '\\');
    var lower := AsciiLowerStr(p);
    if UncDollarPrefix <= lower then Some(p[|UncDollarPrefix|..])
    else if UncLocalhostPrefix <= lower then Some(p[|UncLocalhostPrefix|..])
    else None
  }

  /** The distro and inner path of a UNC remainder: the distro runs up to the
      first '\'; without one, the inner path is "/". */
  function SplitDistro(rest: string): (r: Option<WslUncPath>)
    requires NoChar(rest, '/')
    ensures r.Some? <==> rest != [] && rest[0] != '\\'
    ensures r.Some? ==> r.value.distro != [] && NoChar(r.value.distro, '\\') && NoChar(r.value.distro, '/')
    ensures r.Some? ==> "/" <= r.value.innerPath && NoChar(r.value.innerPath, '\\')
    ensures r.Some? ==> || rest == r.value.distro + ReplaceChar(r.value.innerPath, '/', '\\')
                        || (rest == r.value.distro && r.value.innerPath == "/")
  {
    if rest == [] then None
    else
      var idx := IndexOf(rest, '\\');
      if idx == |rest| then Some(WslUncPath(rest, "/"))
      else if idx == 0 then None
      else
        var inner := ReplaceChar(rest[idx..], '\\', '/');
        ReplaceCharRemoves(rest[idx..], '\\', '/');
        ReplaceCharInverse(rest[idx..], '\\', '/');
        assert rest == rest[..idx] + rest[idx..];
        Some(WslUncPath(rest[..idx], inner))
  }

  /** `parse_wsl_unc` */
  function ParseWslUnc(path: string): (r: Option<WslUncPath>)
    ensures r.Some? <==> UncRemainder(path).Some? && UncRemainder(path).value != [] && UncRemainder(path).value[0] != '\\'
    ensures r.Some? ==> r.value.distro != [] && "/" <= r.value.innerPath && NoChar(r.value.innerPath, '\\')
  {
    match UncRemainder(path)
    case None => None
    case Some(rest) => SplitDistro(rest)
  }

  /** A UNC path built from a separator-free distro and an absolute inner
      path without '\' parses back to the same pair. */
  lemma ParseBuildRoundTrip(distro: string, path: string)
    requires distro != [] && NoChar(distro, '\\') && NoChar(distro, '/')
    requires "/" <= path && NoChar(path, '\\')
    ensures ParseWslUnc(BuildWslUnc(distro, path)) == Some(WslUncPath(distro, path))
  {
    var n := ReplaceChar(path, '/', '\\');
    var u := BuildWslUnc(distro, path);
    assert u == UncLocalhostPrefix + distro + n;
    ReplaceCharRemoves(path, '/', '\\');
    assert NoChar(u, '/');
    ReplaceCharAbsent(u, '/', '\\');
    var lower := AsciiLowerStr(u);
    assert lower[..|UncLocalhostPrefix|] == UncLocalhostPrefix;
    assert lower[5] == '.';
    assert !(UncDollarPrefix <= lower);
    var rest := u[|UncLocalhostPrefix|..];
    assert rest == distro + n;
    assert UncRemainder(u) == Some(rest);
    assert IndexOf(rest, '\\') == |distro| by {
      assert rest[|distro|] == '\\';
    }
    assert rest[|distro|..] == n;
    ReplaceCharInverse(path, '/', '\\');
  }

  /** `is_wsl_unc_path`: either prefix, with either separator throughout,
      compared case-insensitively. */
  predicate IsWslUncPath(path: string)
    ensures IsWslUncPath(path) ==> |path| >= |UncDollarPrefix|
  {
    var lower := AsciiLowerStr(path);
    || UncDollarPrefix <= lower
    || UncLocalhostPrefix <= lower
    || "//wsl$/" <= lower
    || "//wsl.localhost/" <= lower
  }

  /** Every path the UNC test accepts has a prefix the parser recognises. */
  lemma UncPathHasRemainder(path: string)
    requires IsWslUncPath(path)
    ensures UncRemainder(path).Some?
  {
    var p := ReplaceChar(path, '/', '\\');
    var lower := AsciiLowerStr(path);
    var plower := AsciiLowerStr(p);
    if UncDollarPrefix <= lower || "//wsl$/" <= lower {
      forall i | 0 <= i < |UncDollarPrefix| ensures plower[i] == UncDollarPrefix[i] {
        assert lower[i] == AsciiLower(path[i]);
      }
      assert UncDollarPrefix <= plower;
    } else {
      forall i | 0 <= i < |UncLocalhostPrefix| ensures plower[i] == UncLocalhostPrefix[i] {
        assert lower[i] == AsciiLower(path[i]);
      }
      assert UncLocalhostPrefix <= plower;
    }
  }

  /** `normalize_path` */
  function NormalizePath(input: string, env: RuntimeEnv): (r: NormalizedPath)
    ensures env != WslNative ==> NoChar(r.canonical, '\\')
    ensures env == Unix ==> r.local == input && r.canonical == ReplaceChar(input, '\\', '/')
    ensures env == Windows && ParseWslUnc(input).Some? ==> r.local == input
    ensures env == Windows && ParseWslUnc(input).None? && WslToWin(input).None? ==>
              r.canonical == ReplaceChar(input, '\\', '/')
    ensures env == Windows && ParseWslUnc(input).None? && WslToWin(input).Some? ==>
              r.local == WslToWin(input).value && r.canonical == ReplaceChar(r.local, '\\', '/')
    ensures env == Windows && ParseWslUnc(input).None? && WslToWin(input).None? ==> r.local == input
    ensures env == WslNative ==> r.canonical == r.local
    ensures env != Unix && ParseWslUnc(input).Some? ==> r.canonical == ParseWslUnc(input).value.innerPath
    ensures env == WslNative && ParseWslUnc(input).None? && WinToWsl(input).Some? ==> r.local == WinToWsl(input).value
    ensures env == WslNative && ParseWslUnc(input).None? && WinToWsl(input).None? ==> r.local == input
  {
    match env
    case Windows =>
      if ParseWslUnc(input).Some? then NormalizedPath(ParseWslUnc(input).value.innerPath, input)
      else if WslToWin(input).Some? then
        var winPath := WslToWin(input).value;
        ReplaceCharRemoves(winPath, '\\', '/');
        NormalizedPath(ReplaceChar(winPath, '\\', '/'), winPath)
      else
        ReplaceCharRemoves(input, '\\', '/');
        NormalizedPath(ReplaceChar(input, '\\', '/'), input)
    case WslNative =>
      if ParseWslUnc(input).Some? then NormalizedPath(ParseWslUnc(input).value.innerPath, ParseWslUnc(input).value.innerPath)
      else if WinToWsl(input).Some? then NormalizedPath(WinToWsl(input).value, WinToWsl(input).value)
      else NormalizedPath(input, input)
    case Unix =>
      ReplaceCharRemoves(input, '\\', '/');
      NormalizedPath(ReplaceChar(input, '\\', '/'), input)
  }

  /** `normalize_relative_path`: every '\' becomes '/', everything else
      (including repeated separators) stays where it was. */
  function NormalizeRelativePath(path: string): (r: string)
    ensures |r| == |path| && NoChar(r, '\\')
    ensures forall i :: 0 <= i < |path| ==> r[i] == (if path[i] == '\\' then '/' else path[i])
  {
    ReplaceChar(path, '\\', '/')
  }

  lemma NormalizeRelativePathIdempotent(path: string)
    ensures NormalizeRelativePath(NormalizeRelativePath(path)) == NormalizeRelativePath(path)
  {
    ReplaceCharAbsent(NormalizeRelativePath(path), '\\', '/');
  }
}

=== FILE: project_detector.dfy ===
/**
  The `.gitignore` handling done when a project's `.ace-tool` directory is
  first created: whether the file already ignores that directory, and the
  new content written when it does not. Reading and writing the file are
  left out; the content is a parameter and the new content a result.
*/
module ProjectDetector {
  import opened Wrappers
  import opened Strings

  const AceDir := ".ace-tool"
  const AceDirEntry := ".ace-tool/"

  /** The entry a `.gitignore` line names: the trimmed line up to any '#',
      trimmed again; blank lines and comment lines name none. */
  function IgnoreEntry(line: string): Option<string> {
    var t := Trim(line);
    if t == [] || t[0] == '#' then None
    else Some(Trim(t[..IndexOf(t, '#')]))
  }

  /** A line that ignores the `.ace-tool` directory. */
  predicate IsAceEntry(line: string) {
    IgnoreEntry(line) == Some(AceDir) || IgnoreEntry(line) == Some(AceDirEntry)
  }

  /** `gitignore_has_ace_tool` */
  predicate GitignoreHasAceTool(content: string)
    ensures GitignoreHasAceTool(content) ==> |content| >= |AceDir|
  {
    EntryLineWithin(content);
    exists i :: 0 <= i < |Lines(content)| && IsAceEntry(Lines(content)[i])
  }

  /** An entry line is no longer than the file, and at least as long as the
      name it ignores. */
  lemma EntryLineWithin(content: string)
    ensures (exists i :: 0 <= i < |Lines(content)| && IsAceEntry(Lines(content)[i])) ==> |content| >= |AceDir|
  {
    if exists i :: 0 <= i < |Lines(content)| && IsAceEntry(Lines(content)[i]) {
      var i :| 0 <= i < |Lines(content)| && IsAceEntry(Lines(content)[i]);
      LineWithin(content, i);
    }
  }

  /** Every line of a text is at most as long as the text. */
  lemma {:induction false} LineWithin(s: string, i: nat)
    requires i < |Lines(s)|
    ensures |Lines(s)[i]| <= |s|
    decreases |s|
  {
    var k := IndexOf(s, '\n');
    if k < |s| && i > 0 {
      LineWithin(s[k + 1..], i - 1);
    }
  }

  /** The new content `add_to_gitignore` writes, or None when the file is
      left as it is. */
  function GitignoreUpdate(content: string): (r: Option<string>)
    ensures r.None? <==> GitignoreHasAceTool(content)
    ensures r.Some? ==> content <= r.value
  {
    if GitignoreHasAceTool(content) then None
    else if content == [] || content[|content| - 1] == '\n' then Some(content + AceDirEntry + "\n")
    else Some(content + "\n" + AceDirEntry + "\n")
  }

  /** The content of the file after the update. */
  function AfterUpdate(content: string): string {
    GitignoreUpdate(content).GetOr(content)
  }

  /** A text without line endings, ended by one, is one line. */
  lemma SingleLine(e: string)
    requires NoChar(e, '\n') && (e == [] || e[|e| - 1] != '\r')
    ensures Lines(e + "\n") == [e]
  {
    var l := e + "\n";
    assert IndexOf(l, '\n') == |e| by {
      IndexOfPrefix(e, "\n", '\n');
    }
    assert l[..|e|] == e && l[|e| + 1..] == [];
    assert StripCr(e) == e;
    assert Lines(l) == [StripCr(e)] + Lines([]);
  }

  /** A trimmed line without '#' names itself. */
  lemma PlainEntry(e: string)
    requires Trimmed(e) && NoChar(e, '#')
    ensures IgnoreEntry(e) == Some(e)
  {
    TrimTrimmed(e);
    IndexOfPrefix(e, [], '#');
    assert e + [] == e;
    assert e[..|e|] == e;
  }

  lemma AceDirEntryLine()
    ensures Lines(AceDirEntry + "\n") == [AceDirEntry]
    ensures IsAceEntry(AceDirEntry)
  {
    SingleLine(AceDirEntry);
    PlainEntry(AceDirEntry);
  }

  /** A trailing comment after an entry is ignored: "e #..." names e. */
  lemma EntryWithComment(e: string, comment: string)
    requires Trimmed(e) && NoChar(e, '#')
    requires comment != [] && comment[0] == '#' && !IsWhitespace(comment[|comment| - 1])
    ensures IgnoreEntry(e + " " + comment) == Some(e)
  {
    var tail := " " + comment;
    var x := e + tail;
    assert e + " " + comment == x;
    CommentedTrimmed(e, tail);
    assert IndexOf(tail, '#') == 1 by {
      assert tail[1] == '#';
    }
    IndexOfPrefix(e, tail, '#');
    TrimmedEntry(x, |e| + 1);
    assert x[..|e| + 1] == e + " ";
    TrimTrailingSpace(e);
  }

  lemma CommentedTrimmed(e: string, tail: string)
    requires Trimmed(e) && tail != [] && !IsWhitespace(tail[|tail| - 1])
    ensures Trimmed(e + tail)
  {
    var x := e + tail;
    assert x[|x| - 1] == tail[|tail| - 1];
    assert x[0] == e[0];
  }

  lemma TrimmedEntry(line: string, k: nat)
    requires Trimmed(line) && line[0] != '#' && k == IndexOf(line, '#')
    ensures IgnoreEntry(line) == Some(Trim(line[..k]))
  {
    TrimTrimmed(line);
  }

  lemma TrimTrailingSpace(e: string)
    requires Trimmed(e)
    ensures Trim(e + " ") == e
  {
    var t := e + " ";
    assert TrimStart(t) == t;
    assert t[..|t| - 1] == e;
    assert TrimEnd(t) == TrimEnd(e);
    TrimTrimmed(e);
  }

  /** Only the exact names count: a longer name that starts with the
      directory's name, such as ".ace-tooling/", does not. */
  lemma OnlyExactEntries(line: string, rest: string)
    requires rest != [] && rest != "/"
    requires IgnoreEntry(line) == Some(AceDir + rest)
    ensures !IsAceEntry(line)
  {
    assert |AceDir + rest| > |AceDirEntry| || (AceDir + rest)[|AceDir|] == rest[0];
  }

  /** The new content always lists the directory, so the update leaves a
      file that needs no further update. */
  lemma UpdatedHasAceTool(content: string)
    ensures GitignoreHasAceTool(AfterUpdate(content))
  {
    if !GitignoreHasAceTool(content) {
      var base := if content == [] || content[|content| - 1] == '\n' then content else content + "\n";
      assert AfterUpdate(content) == base + (AceDirEntry + "\n");
      LinesAppend(base, AceDirEntry + "\n");
      AceDirEntryLine();
      var lines := Lines(AfterUpdate(content));
      assert lines[|lines| - 1] == AceDirEntry;
    }
  }

  /** Applying the update twice is applying it once. */
  lemma UpdateIdempotent(content: string)
    ensures AfterUpdate(AfterUpdate(content)) == AfterUpdate(content)
    ensures GitignoreUpdate(AfterUpdate(content)).None?
  {
    UpdatedHasAceTool(content);
  }

  /** A file is extended only: a line ending is inserted first exactly when
      the old content is non-empty and lacks one. */
  lemma UpdateAppends(content: string)
    requires !GitignoreHasAceTool(content)
    ensures content == [] || content[|content| - 1] == '\n' ==> AfterUpdate(content) == content + ".ace-tool/\n"
    ensures content != [] && content[|content| - 1] != '\n' ==> AfterUpdate(content) == content + "\n.ace-tool/\n"
  {
  }
}

=== FILE: prompt.dfy ===
/**
  The text helpers of prompt enhancement shared by every enhancer endpoint:
  endpoint selection, authentication error messages, template rendering,
  extraction of the `<augment-enhanced-prompt>` block, the Chinese-text
  heuristic, the tool-name rewrite and the chat-history parser.

  The prompt template is a parameter (its text is not part of this model).
  `parse_chat_history`, `parse_history_line`, `is_chinese_text` and
  `replace_tool_names` exist twice in the source, in
  src/service/common.rs and as identical private copies in
  src/enhancer/prompt_enhancer.rs; they are modelled once here.
*/
module Prompt {
  import opened Wrappers
  import opened Strings

  /** `EnhancerEndpoint` */
  datatype EnhancerEndpoint = New | Old | Claude | OpenAI | Gemini

  /** One message of a conversation. */
  datatype ChatMessage = ChatMessage(role: string, content: string)

  /** `Display` for `EnhancerEndpoint`. */
  function EndpointName(e: EnhancerEndpoint): (r: string)
    ensures r != [] && AllAsciiLower(r)
  {
    match e
    case New => "new"
    case Old => "old"
    case Claude => "claude"
    case OpenAI => "openai"
    case Gemini => "gemini"
  }

  /** `EnhancerEndpoint::from_env_str`: trimmed and lowercased, one of the
      four names selects its endpoint and anything else means `New`. */
  function FromEnvStr(s: string): (r: EnhancerEndpoint)
    ensures r != New ==> LowerStr(Trim(s)) == EndpointName(r)
    ensures r == New ==> LowerStr(Trim(s)) !in ["old", "claude", "openai", "gemini"]
  {
    var key := LowerStr(Trim(s));
    if key == "old" then Old
    else if key == "claude" then Claude
    else if key == "openai" then OpenAI
    else if key == "gemini" then Gemini
    else New
  }

  /** Printing an endpoint and reading it back gives the same endpoint. */
  lemma FromEnvStrDisplay(e: EnhancerEndpoint)
    ensures FromEnvStr(EndpointName(e)) == e
  {
    var name := EndpointName(e);
    TrimAsciiLetters(name);
    LowerStrLowercase(name);
  }

  /** `EnhancerEndpoint::is_third_party` */
  predicate IsThirdParty(e: EnhancerEndpoint)
    ensures IsThirdParty(e) <==> e != New && e != Old
  {
    e == Claude || e == OpenAI || e == Gemini
  }

  /** A setting selects a third-party API exactly when it names one. */
  lemma ThirdPartyFromEnv(s: string)
    ensures IsThirdParty(FromEnvStr(s)) <==> LowerStr(Trim(s)) in ["claude", "openai", "gemini"]
  {
  }

  /** `map_auth_error`: 401 and 403 become provider-specific messages; every
      other status is left to the caller. */
  function MapAuthError(status: nat, provider: string): (r: Option<string>)
    ensures r.Some? <==> status == 401 || status == 403
    ensures r.Some? ==> provider <= r.value
    ensures status == 401 ==> r == Some(provider + " API key invalid or expired")
    ensures status == 403 ==> r == Some(provider + " access denied, API key may be disabled")
  {
    if status == 401 then Some(provider + " API key invalid or expired")
    else if status == 403 then Some(provider + " access denied, API key may be disabled")
    else None
  }

  const Placeholder: string := "{original_prompt}"

  /** `render_enhance_prompt`: the template up to its first placeholder, the
      prompt, then the rest of the template. The prompt is inserted once and
      verbatim, whatever it contains. */
  function RenderEnhancePrompt(template: string, prompt: string): (r: Result<string, string>)
    ensures r.Err? <==> !Contains(template, Placeholder)
    ensures r.Ok? ==> var k := FindFrom(template, Placeholder, 0).value;
                      && (forall j :: 0 <= j < k ==> !OccursAt(template, Placeholder, j))
                      && k + |Placeholder| <= |template|
                      && |r.value| == |template| - |Placeholder| + |prompt|
                      && r.value[..k] == template[..k]
                      && r.value[k..k + |prompt|] == prompt
                      && r.value[k + |prompt|..] == template[k + |Placeholder|..]
  {
    FindFromStart(template, Placeholder);
    match FindFrom(template, Placeholder, 0)
    case None => Err("ENHANCE_PROMPT_TEMPLATE missing {original_prompt}")
    case Some(k) => Ok(template[..k] + prompt + template[k + |Placeholder|..])
  }

  const ChineseHint: string := "\n\n请用中文回复。"

  /** `build_third_party_prompt`: the rendered prompt, followed by a request to
      answer in Chinese exactly when the prompt is Chinese text. */
  function BuildThirdPartyPrompt(template: string, prompt: string): (r: Result<string, string>)
    ensures r.Ok? <==> RenderEnhancePrompt(template, prompt).Ok?
    ensures r.Ok? ==> var rendered := RenderEnhancePrompt(template, prompt).value;
                      && rendered <= r.value
                      && r.value[|rendered|..] == (if IsChineseText(prompt) then ChineseHint else "")
  {
    match RenderEnhancePrompt(template, prompt)
    case Err(e) => Err(e)
    case Ok(rendered) => Ok(rendered + (if IsChineseText(prompt) then ChineseHint else ""))
  }

  /** A character of the CJK Unified Ideographs range U+4E00..U+9FA5. */
  predicate IsCjk(c: char) { '\U{4E00}' <= c <= '\U{9FA5}' }

  function CjkCount(s: string): (n: nat)
    ensures n <= |s|
  {
    if s == [] then 0 else (if IsCjk(s[0]) then 1 else 0) + CjkCount(s[1..])
  }

  function NonWhitespaceCount(s: string): (n: nat)
    ensures n <= |s|
  {
    if s == [] then 0 else (if IsWhitespace(s[0]) then 0 else 1) + NonWhitespaceCount(s[1..])
  }

  lemma {:induction false} CjkNotWhitespace(s: string)
    ensures CjkCount(s) <= NonWhitespaceCount(s)
  {
    if s != [] {
      CjkNotWhitespace(s[1..]);
    }
  }

  /** `is_chinese_text`: no ideograph means no, three or more mean yes, and
      one or two count when they are at least a tenth of the non-whitespace
      characters. The source's f64 ratio test `c / n >= 0.1` is written as
      `10 * c >= n`; both agree for the counts 1 and 2 it is applied to. */
  function IsChineseText(text: string): (r: bool)
    ensures r <==> CjkCount(text) >= 3 || (CjkCount(text) > 0 && 10 * CjkCount(text) >= NonWhitespaceCount(text))
  {
    var chinese := CjkCount(text);
    CjkNotWhitespace(text);
    if chinese == 0 then false
    else if chinese >= 3 then true
    else
      var nonWhitespace := NonWhitespaceCount(text);
      if nonWhitespace == 0 then false
      else 10 * chinese >= nonWhitespace
  }

  lemma {:induction false} CountsAppend(a: string, b: string)
    ensures CjkCount(a + b) == CjkCount(a) + CjkCount(b)
    ensures NonWhitespaceCount(a + b) == NonWhitespaceCount(a) + NonWhitespaceCount(b)
  {
    if a == [] {
      assert a + b == b;
    } else {
      assert (a + b)[1..] == a[1..] + b;
      CountsAppend(a[1..], b);
    }
  }

  lemma {:induction false} WhitespaceCounts(w: string)
    requires AllWhitespace(w)
    ensures CjkCount(w) == 0 && NonWhitespaceCount(w) == 0
  {
    if w != [] {
      assert AllWhitespace(w[1..]);
      WhitespaceCounts(w[1..]);
    }
  }

  /** Whitespace around a prompt does not change whether it is Chinese. */
  lemma ChineseIgnoresWhitespace(w1: string, text: string, w2: string)
    requires AllWhitespace(w1) && AllWhitespace(w2)
    ensures IsChineseText(w1 + text + w2) == IsChineseText(text)
  {
    WhitespaceCounts(w1);
    WhitespaceCounts(w2);
    CountsAppend(w1, text);
    CountsAppend(w1 + text, w2);
  }

  const DashedToolName: string := "codebase-retrieval"
  const SnakeToolName: string := "codebase_retrieval"
  const AceToolName: string := "search_context"

  /** Neither tool name can start inside "search_context". */
  lemma NoToolNameInsideAce(q: string)
    requires q == DashedToolName || q == SnakeToolName
    ensures forall k :: 0 <= k < |AceToolName| ==> !(AceToolName[k..] <= q) && !(q <= AceToolName[k..])
  {
    forall k | 0 <= k < |AceToolName|
      ensures !(AceToolName[k..] <= q) && !(q <= AceToolName[k..])
    {
      var t := AceToolName[k..];
      assert t[0] == AceToolName[k];
      if AceToolName[k] == 'c' {
        assert k == 4 || k == 7;
        assert |t| >= 3 && (t[1] != q[1] || t[2] != q[2]);
      }
    }
  }

  /** No part of a tool name after its first character can line up with
      "search_context". */
  lemma AceNowhereInToolName(q: string)
    requires q == DashedToolName || q == SnakeToolName
    ensures ClashesNowhere(q[1..], AceToolName)
  {
    forall j | 0 <= j < |q[1..]|
      ensures !(q[1..][j..] <= AceToolName) && !(AceToolName <= q[1..][j..])
    {
      var t := q[1..][j..];
      assert t[0] == q[j + 1];
      if q[j + 1] == 's' {
        assert j + 1 == 6;
        assert t[2] != AceToolName[2];
      }
    }
  }

  /** `replace_tool_names`: both spellings of the Augment retrieval tool become
      "search_context". */
  function ReplaceToolNames(text: string): (r: string)
    ensures !Contains(r, DashedToolName) && !Contains(r, SnakeToolName)
    ensures !Contains(text, DashedToolName) && !Contains(text, SnakeToolName) ==> r == text
  {
    ToolRewriteFacts(text);
    ReplaceAll(ReplaceAll(text, DashedToolName, AceToolName), SnakeToolName, AceToolName)
  }

  lemma ToolRewriteFacts(text: string)
    ensures var r := ReplaceAll(ReplaceAll(text, DashedToolName, AceToolName), SnakeToolName, AceToolName);
            && !Contains(r, DashedToolName) && !Contains(r, SnakeToolName)
            && (!Contains(text, DashedToolName) && !Contains(text, SnakeToolName) ==> r == text)
  {
    var once := ReplaceAll(text, DashedToolName, AceToolName);
    NoToolNameInsideAce(DashedToolName);
    NoToolNameInsideAce(SnakeToolName);
    AceNowhereInToolName(DashedToolName);
    AceNowhereInToolName(SnakeToolName);
    ReplaceAllLeavesNo(text, DashedToolName, AceToolName, DashedToolName);
    ReplaceAllLeavesNo(once, SnakeToolName, AceToolName, SnakeToolName);
    ReplaceAllLeavesNo(once, SnakeToolName, AceToolName, DashedToolName);
    if !Contains(text, DashedToolName) && !Contains(text, SnakeToolName) {
      ReplaceAllAbsent(text, DashedToolName, AceToolName);
      ReplaceAllAbsent(text, SnakeToolName, AceToolName);
    }
  }

  /** Rewriting twice is rewriting once. */
  lemma ReplaceToolNamesIdempotent(text: string)
    ensures ReplaceToolNames(ReplaceToolNames(text)) == ReplaceToolNames(text)
  {
  }

  const OpenTag: string := "<augment-enhanced-prompt"
  const CloseTag: string := "</augment-enhanced-prompt"

  /** The end (just past '>') of an opening tag that starts at `p`: the tag
      name followed directly by '>', or by whitespace and then anything up to
      the first '>'. */
  function OpenTagEnd(text: string, p: nat): (r: Option<nat>)
    ensures r.Some? ==> OccursAt(text, OpenTag, p) && p + |OpenTag| < r.value <= |text|
    ensures r.Some? ==> text[r.value - 1] == '>' && NoChar(text[p + |OpenTag|..r.value - 1], '>')
  {
    if !OccursAt(text, OpenTag, p) then None
    else
      var q := p + |OpenTag|;
      if q == |text| then None
      else if text[q] == '>' then Some(q + 1)
      else if !IsWhitespace(text[q]) then None
      else
        var g := IndexOf(text[q..], '>');
        if q + g == |text| then None
        else
          assert text[q..q + g] == text[q..][..g];
          Some(q + g + 1)
  }

  /** The leftmost opening tag at or after `from`, with its end. */
  function FirstOpenTag(text: string, from: nat): (r: Option<(nat, nat)>)
    ensures r.Some? ==> from <= r.value.0 && OpenTagEnd(text, r.value.0) == Some(r.value.1)
    ensures r.Some? ==> forall p :: from <= p < r.value.0 ==> OpenTagEnd(text, p).None?
    ensures r.None? ==> forall p :: from <= p ==> OpenTagEnd(text, p).None?
    decreases |text| - from
  {
    if from > |text| then None
    else if OpenTagEnd(text, from).Some? then Some((from, OpenTagEnd(text, from).value))
    else FirstOpenTag(text, from + 1)
  }

  /** A closing tag at `c`: the tag name, optional whitespace, then '>'. */
  predicate CloseTagAt(text: string, c: nat) {
    && OccursAt(text, CloseTag, c)
    && var w := SkipWhitespace(text, c + |CloseTag|);
       w < |text| && text[w] == '>'
  }

  /** The first position at or after `k` that does not hold whitespace. */
  function SkipWhitespace(text: string, k: nat): (r: nat)
    requires k <= |text|
    ensures k <= r <= |text| && (r == |text| || !IsWhitespace(text[r]))
    ensures forall i :: k <= i < r ==> IsWhitespace(text[i])
    decreases |text| - k
  {
    if k == |text| || !IsWhitespace(text[k]) then k else SkipWhitespace(text, k + 1)
  }

  /** The leftmost closing tag at or after `from`. */
  function FirstCloseTag(text: string, from: nat): (r: Option<nat>)
    ensures r.Some? ==> from <= r.value && CloseTagAt(text, r.value)
    ensures r.Some? ==> forall c :: from <= c < r.value ==> !CloseTagAt(text, c)
    ensures r.None? ==> forall c :: from <= c ==> !CloseTagAt(text, c)
    decreases |text| - from
  {
    if from > |text| then None
    else if CloseTagAt(text, from) then Some(from)
    else FirstCloseTag(text, from + 1)
  }

  /** Start and end of the text enclosed by the leftmost opening tag and the
      first closing tag after it. */
  function TaggedSpan(text: string): (r: Option<(nat, nat)>)
    ensures r.Some? ==> r.value.0 <= r.value.1 <= |text|
    ensures r.Some? ==> FirstOpenTag(text, 0).Some? && OpenTagEnd(text, FirstOpenTag(text, 0).value.0) == Some(r.value.0)
    ensures r.Some? ==> CloseTagAt(text, r.value.1)
  {
    match FirstOpenTag(text, 0)
    case None => None
    case Some((p, e)) =>
      match FirstCloseTag(text, e)
      case None => None
      case Some(c) => Some((e, c))
  }

  /** `extract_enhanced_prompt`: the trimmed text between the leftmost opening
      tag and the first closing tag after it; None when either tag is missing
      or the text between them is blank. (A later opening tag ends no earlier
      than the leftmost one, so it cannot find a closing tag the leftmost one
      misses.) */
  function ExtractEnhancedPrompt(text: string): (r: Option<string>)
    ensures r.Some? ==> TaggedSpan(text).Some? && r.value == Trim(Enclosed(text))
    ensures r.None? <==> TaggedSpan(text).None? || AllWhitespace(Enclosed(text))
  {
    if TaggedSpan(text).None? then None
    else
      var t := Trim(Enclosed(text));
      TrimEmptyIff(Enclosed(text));
      if t == [] then None else Some(t)
  }

  /** The text between the tags, or "" when there is no tagged block. */
  function Enclosed(text: string): string {
    if TaggedSpan(text).None? then ""
    else text[TaggedSpan(text).value.0..TaggedSpan(text).value.1]
  }

  /** An extracted prompt is never blank and never starts or ends with
      whitespace. */
  lemma ExtractedIsTrimmed(text: string)
    requires ExtractEnhancedPrompt(text).Some?
    ensures Trimmed(ExtractEnhancedPrompt(text).value)
  {
    TrimmedEdges(Enclosed(text));
  }

  /** A response holding a tagged block yields exactly the trimmed block, or
      None when the block is blank: the opening tag sits at `p` with no '<'
      before it, is closed by the '>' at `e - 1` (at once, or after
      whitespace and '>'-free attributes), and the closing tag at `c`, with
      '>' right after it, follows a '<'-free block `text[e..c]`. */
  lemma ExtractFromTaggedBlock(text: string, p: nat, e: nat, c: nat)
    requires p + |OpenTag| < e <= c && c + |CloseTag| < |text|
    requires NoChar(text[..p], '<') && text[p..p + |OpenTag|] == OpenTag
    requires text[e - 1] == '>'
    requires e == p + |OpenTag| + 1 || (IsWhitespace(text[p + |OpenTag|]) && NoChar(text[p + |OpenTag|..e - 1], '>'))
    requires NoChar(text[e..c], '<')
    requires text[c..c + |CloseTag|] == CloseTag && text[c + |CloseTag|] == '>'
    ensures ExtractEnhancedPrompt(text) == if AllWhitespace(text[e..c]) then None else Some(Trim(text[e..c]))
  {
    OpenTagEndAt(text, p, e);
    FirstOpenAt(text, p, e);
    CloseTagExact(text, c);
    FirstCloseAt(text, e, c);
    TrimEmptyIff(text[e..c]);
  }

  /** An opening tag, then either '>' at once or whitespace and '>'-free
      attributes, then '>', ends just past that '>'. */
  lemma OpenTagEndAt(text: string, p: nat, e: nat)
    requires p + |OpenTag| < e <= |text|
    requires text[p..p + |OpenTag|] == OpenTag && text[e - 1] == '>'
    requires e == p + |OpenTag| + 1 || (IsWhitespace(text[p + |OpenTag|]) && NoChar(text[p + |OpenTag|..e - 1], '>'))
    ensures OpenTagEnd(text, p) == Some(e)
  {
    var q := p + |OpenTag|;
    if e > q + 1 {
      assert text[q..] == text[q..e - 1] + text[e - 1..];
      IndexOfPrefix(text[q..e - 1], text[e - 1..], '>');
    }
  }

  /** The closing tag name followed at once by '>' is a closing tag. */
  lemma CloseTagExact(text: string, c: nat)
    requires c + |CloseTag| < |text|
    requires text[c..c + |CloseTag|] == CloseTag && text[c + |CloseTag|] == '>'
    ensures CloseTagAt(text, c)
  {
  }

  lemma FirstOpenAt(text: string, p: nat, e: nat)
    requires OpenTagEnd(text, p) == Some(e) && NoChar(text[..p], '<')
    ensures FirstOpenTag(text, 0) == Some((p, e))
  {
    forall q | 0 <= q < p ensures OpenTagEnd(text, q).None? {
      assert text[q] == text[..p][q];
      NoOpenTagAt(text, q);
    }
    FirstOpenFrom(text, 0, p, e);
  }

  lemma FirstCloseAt(text: string, e: nat, c: nat)
    requires e <= c <= |text| && CloseTagAt(text, c) && NoChar(text[e..c], '<')
    ensures FirstCloseTag(text, e) == Some(c)
  {
    forall d | e <= d < c ensures !CloseTagAt(text, d) {
      assert text[d] == text[e..c][d - e];
      NoCloseTagAt(text, d);
    }
    FirstCloseFrom(text, e, c);
  }

  lemma NoOpenTagAt(text: string, q: nat)
    requires q < |text| && text[q] != '<'
    ensures OpenTagEnd(text, q).None?
  {
    assert q + |OpenTag| > |text| || text[q..q + |OpenTag|][0] == text[q];
  }

  lemma NoCloseTagAt(text: string, d: nat)
    requires d < |text| && text[d] != '<'
    ensures !CloseTagAt(text, d)
  {
    assert d + |CloseTag| > |text| || text[d..d + |CloseTag|][0] == text[d];
  }

  lemma FirstOpenFrom(text: string, from: nat, p: nat, e: nat)
    requires from <= p && OpenTagEnd(text, p) == Some(e)
    requires forall q :: from <= q < p ==> OpenTagEnd(text, q).None?
    ensures FirstOpenTag(text, from) == Some((p, e))
    decreases p - from
  {
    if from < p {
      FirstOpenFrom(text, from + 1, p, e);
    }
  }

  lemma FirstCloseFrom(text: string, from: nat, c: nat)
    requires from <= c && CloseTagAt(text, c)
    requires forall d :: from <= d < c ==> !CloseTagAt(text, d)
    ensures FirstCloseTag(text, from) == Some(c)
    decreases c - from
  {
    if from < c {
      FirstCloseFrom(text, from + 1, c);
    }
  }

  // ---------------------------------------------------------------------
  // Conversation history
  // ---------------------------------------------------------------------

  const UserPrefixes: seq<string> := ["User:", "用户:"]
  const AssistantPrefixes: seq<string> := ["AI:", "Assistant:", "助手:"]

  /** The rest of `line` after the first of `prefixes` it starts with. */
  function StripFirstPrefix(line: string, prefixes: seq<string>): (r: Option<string>)
    ensures r.None? <==> forall i :: 0 <= i < |prefixes| ==> !(prefixes[i] <= line)
    ensures r.Some? ==> exists i :: 0 <= i < |prefixes| && prefixes[i] <= line && r.value == line[|prefixes[i]|..]
  {
    if prefixes == [] then None
    else if prefixes[0] <= line then Some(line[|prefixes[0]|..])
    else
      var r := StripFirstPrefix(line, prefixes[1..]);
      assert forall i :: 1 <= i < |prefixes| ==> prefixes[i] == prefixes[1..][i - 1];
      r
  }

  /** `parse_history_line`: whether a trimmed line opens a message, and then
      its role and its trimmed text after the prefix; the user prefixes are
      tried before the assistant ones. */
  function ParseHistoryLine(line: string): (r: Option<(string, string)>)
    ensures r.None? <==> && (forall i :: 0 <= i < |UserPrefixes| ==> !(UserPrefixes[i] <= line))
                         && (forall i :: 0 <= i < |AssistantPrefixes| ==> !(AssistantPrefixes[i] <= line))
    ensures r.Some? ==> (r.value.0 == "user" <==> exists i :: 0 <= i < |UserPrefixes| && UserPrefixes[i] <= line)
    ensures r.Some? ==> r.value.0 == "user" || r.value.0 == "assistant"
    ensures r.Some? ==> r.value.1 == [] || Trimmed(r.value.1)
  {
    match StripFirstPrefix(line, UserPrefixes)
    case Some(rest) =>
      TrimNoEdgeWhitespace(rest);
      Some(("user", Trim(rest)))
    case None =>
      match StripFirstPrefix(line, AssistantPrefixes)
      case Some(rest) =>
        TrimNoEdgeWhitespace(rest);
        Some(("assistant", Trim(rest)))
      case None => None
  }

  /** "User:" opens a user message with the trimmed rest as its text. */
  lemma UserLine(x: string)
    ensures ParseHistoryLine("User:" + x) == Some(("user", Trim(x)))
  {
    assert ("User:" + x)[|"User:"|..] == x;
  }

  /** "Assistant:" opens an assistant message. */
  lemma AssistantLine(x: string)
    ensures ParseHistoryLine("Assistant:" + x) == Some(("assistant", Trim(x)))
  {
    var line := "Assistant:" + x;
    NotUserLine(line);
    assert !(AssistantPrefixes[0] <= line) by {
      assert line[1] == 's' && AssistantPrefixes[0][1] == 'I';
    }
    assert AssistantPrefixes[1..][0] == "Assistant:";
    assert line[|"Assistant:"|..] == x;
    assert StripFirstPrefix(line, AssistantPrefixes) == StripFirstPrefix(line, AssistantPrefixes[1..]);
  }

  /** "AI:" opens an assistant message. */
  lemma AiLine(x: string)
    ensures ParseHistoryLine("AI:" + x) == Some(("assistant", Trim(x)))
  {
    var line := "AI:" + x;
    NotUserLine(line);
    assert line[|"AI:"|..] == x;
  }

  /** A line starting with 'A' starts with no user prefix. */
  lemma NotUserLine(line: string)
    requires line != [] && line[0] == 'A'
    ensures StripFirstPrefix(line, UserPrefixes).None?
  {
    assert UserPrefixes[0][0] == 'U' && UserPrefixes[1][0] == '用';
    assert forall i :: 0 <= i < |UserPrefixes| ==> UserPrefixes[i] <= line ==> line[0] == UserPrefixes[i][0];
  }

  /** How the loop treats a line: as opening a message with a role and a
      text, as blank, or as any other line. */
  datatype LineKind = Opener(role: string, text: string) | Blank | Other(line: string)

  function Classify(line: string): LineKind {
    var trimmed := Trim(line);
    if trimmed == [] then Blank
    else match ParseHistoryLine(trimmed)
      case Some((role, text)) => Opener(role, text)
      case None => Other(line)
  }

  /** A line is blank exactly when it is all whitespace; it opens a message
      exactly when, trimmed, it starts with a known prefix. */
  lemma ClassifyKinds(line: string)
    ensures Classify(line).Blank? <==> AllWhitespace(line)
    ensures Classify(line).Opener? <==> !AllWhitespace(line) && ParseHistoryLine(Trim(line)).Some?
    ensures Classify(line).Other? ==> Classify(line).line == line
  {
    TrimEmptyIff(line);
  }

  lemma BlankLine(line: string)
    requires AllWhitespace(line)
    ensures Classify(line) == Blank
  {
    TrimEmptyIff(line);
  }

  /** The kind of each line. */
  function Kinds(lines: seq<string>): (r: seq<LineKind>)
    ensures |r| == |lines|
    decreases |lines|
  {
    if lines == [] then [] else Kinds(lines[..|lines| - 1]) + [Classify(lines[|lines| - 1])]
  }

  lemma {:induction false} KindsAt(lines: seq<string>, k: nat)
    requires k < |lines|
    ensures Kinds(lines)[k] == Classify(lines[k])
    decreases |lines|
  {
    if k < |lines| - 1 {
      KindsAt(lines[..|lines| - 1], k);
    }
  }

  /** The message being collected: its role and its lines so far. */
  datatype OpenMessage = OpenMessage(role: string, lines: seq<string>)

  /** The messages closed so far and the one still open. */
  datatype ScanState = ScanState(history: seq<ChatMessage>, current: Option<OpenMessage>)

  const NoMessages := ScanState([], None)

  /** The text a line that opens nothing adds to the open message: "" for a
      blank line, the line as it is otherwise. */
  function BodyText(k: LineKind): string
    requires !k.Opener?
  {
    if k.Blank? then "" else k.line
  }

  function Finish(m: OpenMessage): ChatMessage {
    ChatMessage(m.role, Join(m.lines, "\n"))
  }

  /** The messages with the open one, if any, closed. */
  function Close(st: ScanState): seq<ChatMessage> {
    if st.current.None? then st.history else st.history + [Finish(st.current.value)]
  }

  /** One turn of the loop in `parse_chat_history`: an opening line closes the
      open message and opens a new one with the text after the prefix; any
      other line is added to the open message (blank as ""), or dropped when
      none is open. */
  function ScanLine(st: ScanState, k: LineKind): ScanState {
    if k.Opener? then ScanState(Close(st), Some(OpenMessage(k.role, [k.text])))
    else if st.current.None? then st
    else st.(current := Some(st.current.value.(lines := st.current.value.lines + [BodyText(k)])))
  }

  /** The loop over lines of the given kinds, from `st`. */
  function Scan(st: ScanState, kinds: seq<LineKind>): ScanState
    decreases |kinds|
  {
    if kinds == [] then st else ScanLine(Scan(st, kinds[..|kinds| - 1]), kinds[|kinds| - 1])
  }

  /** The messages `parse_chat_history` returns for lines of the given kinds. */
  function HistoryOf(kinds: seq<LineKind>): seq<ChatMessage> {
    Close(Scan(NoMessages, kinds))
  }

  /** The loop state of `parse_chat_history`: the messages so far, the role
      of the open message and its lines. */
  function LoopState(history: seq<ChatMessage>, role: Option<string>, lines: seq<string>): ScanState {
    ScanState(history, if role.None? then None else Some(OpenMessage(role.value, lines)))
  }

  /** `parse_chat_history`: the conversation split at its lines. */
  method ParseChatHistory(conversationHistory: string) returns (chatHistory: seq<ChatMessage>)
    ensures chatHistory == HistoryOf(Kinds(Lines(conversationHistory)))
  {
    var lines := Lines(conversationHistory);
    chatHistory := [];
    var currentRole: Option<string> := None;
    var currentLines: seq<string> := [];
    for i := 0 to |lines|
      invariant currentRole.None? ==> currentLines == []
      invariant Scan(NoMessages, Kinds(lines[..i])) == LoopState(chatHistory, currentRole, currentLines)
    {
      KindsStep(lines, i);
      chatHistory, currentRole, currentLines := HistoryLine(chatHistory, currentRole, currentLines, lines[i]);
    }
    assert lines[..|lines|] == lines;
    if currentRole.Some? {
      chatHistory := chatHistory + [ChatMessage(currentRole.value, Join(currentLines, "\n"))];
    }
  }

  /** One turn of the loop in `parse_chat_history`. */
  method HistoryLine(history: seq<ChatMessage>, role: Option<string>, lines: seq<string>, line: string)
    returns (history': seq<ChatMessage>, role': Option<string>, lines': seq<string>)
    requires role.None? ==> lines == []
    ensures role'.None? ==> lines' == []
    ensures LoopState(history', role', lines') == ScanLine(LoopState(history, role, lines), Classify(line))
  {
    history', role', lines' := history, role, lines;
    var trimmed := Trim(line);
    if trimmed == [] {
      if role'.Some? {
        lines' := lines' + [""];
      }
      return;
    }
    var parsed := ParseHistoryLine(trimmed);
    if parsed.Some? {
      if role'.Some? {
        history' := history' + [ChatMessage(role'.value, Join(lines', "\n"))];
      }
      role' := Some(parsed.value.0);
      lines' := [parsed.value.1];
    } else if role'.Some? {
      lines' := lines' + [line];
    }
  }

  lemma KindsStep(lines: seq<string>, i: nat)
    requires i < |lines|
    ensures Kinds(lines[..i + 1]) == Kinds(lines[..i]) + [Classify(lines[i])]
  {
    assert lines[..i + 1][..i] == lines[..i];
  }

  /** Scanning `a + b` is scanning `a` and then `b`. */
  lemma {:induction false} ScanAppend(st: ScanState, a: seq<LineKind>, b: seq<LineKind>)
    ensures Scan(st, a + b) == Scan(Scan(st, a), b)
    decreases |b|
  {
    if b == [] {
      assert a + b == a;
    } else {
      assert (a + b)[..|a + b| - 1] == a + b[..|b| - 1];
      ScanAppend(st, a, b[..|b| - 1]);
    }
  }

  /** Messages closed before the scan starts stay in front, untouched. */
  lemma ScanLineBehind(done: seq<ChatMessage>, st: ScanState, k: LineKind)
    ensures ScanLine(ScanState(done + st.history, st.current), k)
            == ScanState(done + ScanLine(st, k).history, ScanLine(st, k).current)
  {
    if k.Opener? && st.current.Some? {
      assert done + st.history + [Finish(st.current.value)] == done + (st.history + [Finish(st.current.value)]);
    }
  }

  /** From an opening line on, the scan does not depend on what came before,
      beyond the messages that line closes. */
  lemma {:induction false} ScanFromOpener(st: ScanState, b: seq<LineKind>)
    requires b != [] && b[0].Opener?
    ensures Scan(st, b) == ScanState(Close(st) + Scan(NoMessages, b).history, Scan(NoMessages, b).current)
    decreases |b|
  {
    if |b| == 1 {
      assert b[..0] == [];
    } else {
      var init := b[..|b| - 1];
      assert init[0] == b[0];
      ScanFromOpener(st, init);
      ScanLineBehind(Close(st), Scan(NoMessages, init), b[|b| - 1]);
    }
  }

  /** A history splits at any opening line: the messages before it and the
      messages from it on. */
  lemma HistoryAppend(a: seq<LineKind>, b: seq<LineKind>)
    requires b != [] && b[0].Opener?
    ensures HistoryOf(a + b) == HistoryOf(a) + HistoryOf(b)
  {
    ScanAppend(NoMessages, a, b);
    ScanFromOpener(Scan(NoMessages, a), b);
    var head := HistoryOf(a);
    var tail := Scan(NoMessages, b);
    if tail.current.Some? {
      assert head + tail.history + [Finish(tail.current.value)] == head + (tail.history + [Finish(tail.current.value)]);
    }
  }

  /** Lines none of which opens a message yield no messages, and leave the
      scan where it started. */
  lemma {:induction false} NoOpenerNoMessages(kinds: seq<LineKind>)
    requires forall k :: 0 <= k < |kinds| ==> !kinds[k].Opener?
    ensures Scan(NoMessages, kinds) == NoMessages
    ensures HistoryOf(kinds) == []
    decreases |kinds|
  {
    if kinds != [] {
      NoOpenerNoMessages(kinds[..|kinds| - 1]);
    }
  }

  /** Lines before the first opening line are dropped. */
  lemma LeadingLinesDropped(pre: seq<LineKind>, rest: seq<LineKind>)
    requires forall k :: 0 <= k < |pre| ==> !pre[k].Opener?
    ensures HistoryOf(pre + rest) == HistoryOf(rest)
  {
    ScanAppend(NoMessages, pre, rest);
    NoOpenerNoMessages(pre);
  }

  /** A conversation made only of blank lines has no messages. */
  lemma BlankConversation(lines: seq<string>)
    requires forall k :: 0 <= k < |lines| ==> AllWhitespace(lines[k])
    ensures HistoryOf(Kinds(lines)) == []
  {
    forall k | 0 <= k < |lines| ensures !Kinds(lines)[k].Opener? {
      KindsAt(lines, k);
      BlankLine(lines[k]);
    }
    NoOpenerNoMessages(Kinds(lines));
  }

  /** The texts the body lines add to a message. */
  function BodyTexts(kinds: seq<LineKind>): (r: seq<string>)
    requires forall k :: 0 <= k < |kinds| ==> !kinds[k].Opener?
    ensures |r| == |kinds| && forall k :: 0 <= k < |kinds| ==> r[k] == BodyText(kinds[k])
  {
    seq(|kinds|, k requires 0 <= k < |kinds| => BodyText(kinds[k]))
  }

  lemma {:induction false} OneMessageScan(role: string, text: string, body: seq<LineKind>)
    requires forall k :: 0 <= k < |body| ==> !body[k].Opener?
    ensures Scan(NoMessages, [Opener(role, text)] + body)
            == ScanState([], Some(OpenMessage(role, [text] + BodyTexts(body))))
    decreases |body|
  {
    var all := [Opener(role, text)] + body;
    if body == [] {
      assert all[..0] == [];
      assert [text] + BodyTexts(body) == [text];
    } else {
      var init := body[..|body| - 1];
      assert all[..|all| - 1] == [Opener(role, text)] + init;
      OneMessageScan(role, text, init);
      assert all[|all| - 1] == body[|body| - 1];
      assert BodyTexts(body) == BodyTexts(init) + [BodyText(body[|body| - 1])];
      assert [text] + BodyTexts(body) == ([text] + BodyTexts(init)) + [BodyText(body[|body| - 1])];
    }
  }

  /** An opening line followed by lines that open nothing makes one message:
      the opening line's role, and its text joined by newlines with the body
      lines, blank ones as "". */
  lemma OneMessage(role: string, text: string, body: seq<LineKind>)
    requires forall k :: 0 <= k < |body| ==> !body[k].Opener?
    ensures HistoryOf([Opener(role, text)] + body) == [ChatMessage(role, Join([text] + BodyTexts(body), "\n"))]
  {
    OneMessageScan(role, text, body);
  }

  function Roles(h: seq<ChatMessage>): (r: seq<string>)
    ensures |r| == |h| && forall k :: 0 <= k < |h| ==> r[k] == h[k].role
  {
    seq(|h|, k requires 0 <= k < |h| => h[k].role)
  }

  /** The roles of the opening lines, in order. */
  function OpenerRoles(kinds: seq<LineKind>): seq<string>
    decreases |kinds|
  {
    if kinds == [] then []
    else
      var last := kinds[|kinds| - 1];
      OpenerRoles(kinds[..|kinds| - 1]) + (if last.Opener? then [last.role] else [])
  }

  lemma {:induction false} ScanRoles(kinds: seq<LineKind>)
    ensures var st := Scan(NoMessages, kinds);
            && (st.current.None? ==> st.history == [])
            && Roles(Close(st)) == OpenerRoles(kinds)
    decreases |kinds|
  {
    if kinds != [] {
      var init := kinds[..|kinds| - 1];
      ScanRoles(init);
      var st := Scan(NoMessages, init);
      var last := kinds[|kinds| - 1];
      if st.current.Some? {
        assert Roles(Close(st)) == Roles(st.history) + [st.current.value.role];
      }
      if last.Opener? {
        assert Roles(Close(ScanLine(st, last))) == Roles(Close(st)) + [last.role];
      } else if st.current.Some? {
        assert Roles(Close(ScanLine(st, last))) == Roles(st.history) + [st.current.value.role];
      }
    }
  }

  /** One message per opening line, with that line's role, in order. */
  lemma HistoryRoles(kinds: seq<LineKind>)
    ensures Roles(HistoryOf(kinds)) == OpenerRoles(kinds)
  {
    ScanRoles(kinds);
  }

  /** Every line of a conversation that opens a message is a user or an
      assistant line. */
  lemma KnownRoles(lines: seq<string>)
    ensures forall k :: 0 <= k < |lines| && Classify(lines[k]).Opener? ==>
              Classify(lines[k]).role == "user" || Classify(lines[k]).role == "assistant"
  {
  }
}

=== FILE: strings.dfy ===
/**
  The string primitives of Rust's `str` that the modelled code relies on,
  written over `seq<char>` (a Rust `char` is a Unicode scalar value, as a
  Dafny `char` is). Byte lengths are computed from the UTF-8 width of each
  character, so `ByteLen(s)` is Rust's `s.len()`.
*/
module Strings {
  import opened Wrappers

  /** Rust's `char::is_whitespace`: the Unicode White_Space property. The
      regex class `\s` (Unicode mode) is the same set. */
  predicate IsWhitespace(c: char) {
    || ('\t' <= c <= '\r')
    || c == ' '
    || c == '\U{0085}'
    || c == '\U{00A0}'
    || c == '\U{1680}'
    || ('\U{2000}' <= c <= '\U{200A}')
    || c == '\U{2028}'
    || c == '\U{2029}'
    || c == '\U{202F}'
    || c == '\U{205F}'
    || c == '\U{3000}'
  }

  predicate IsAsciiUpper(c: char) { 'A' <= c <= 'Z' }

  predicate IsAsciiLower(c: char) { 'a' <= c <= 'z' }

  /** `char::is_ascii_alphabetic` */
  predicate IsAsciiAlpha(c: char) { IsAsciiUpper(c) || IsAsciiLower(c) }

  /** `char::to_ascii_lowercase` */
  function AsciiLower(c: char): (r: char)
    ensures IsAsciiUpper(c) ==> IsAsciiLower(r)
    ensures !IsAsciiUpper(c) ==> r == c
  {
    if IsAsciiUpper(c) then (c as int + 32) as char else c
  }

  /** `char::to_ascii_uppercase` */
  function AsciiUpper(c: char): (r: char)
    ensures IsAsciiLower(c) ==> IsAsciiUpper(r)
    ensures !IsAsciiLower(c) ==> r == c
  {
    if IsAsciiLower(c) then (c as int - 32) as char else c
  }

  /** `str::to_ascii_lowercase` */
  function AsciiLowerStr(s: string): (r: string)
    ensures |r| == |s|
  {
    seq(|s|, i requires 0 <= i < |s| => AsciiLower(s[i]))
  }

  /** Number of bytes of the UTF-8 encoding of `c`. */
  function Utf8Len(c: char): nat {
    if c as int < 0x80 then 1
    else if c as int < 0x800 then 2
    else if c as int < 0x1_0000 then 3
    else 4
  }

  /** Rust's `str::len`: the length in bytes of the UTF-8 encoding. */
  function ByteLen(s: string): nat {
    if s == [] then 0 else Utf8Len(s[0]) + ByteLen(s[1..])
  }

  lemma {:induction false} ByteLenAppend(a: string, b: string)
    ensures ByteLen(a + b) == ByteLen(a) + ByteLen(b)
  {
    if a != [] {
      assert (a + b)[1..] == a[1..] + b;
      ByteLenAppend(a[1..], b);
    } else {
      assert a + b == b;
    }
  }

  lemma {:induction false} ByteLenAtLeastLength(s: string)
    ensures |s| <= ByteLen(s)
  {
    if s != [] { ByteLenAtLeastLength(s[1..]); }
  }

  /** `str::trim_start` */
  function TrimStart(s: string): (r: string)
    ensures |r| <= |s| && r == s[|s| - |r|..]
    ensures r == [] || !IsWhitespace(r[0])
    ensures forall i :: 0 <= i < |s| - |r| ==> IsWhitespace(s[i])
  {
    if s == [] || !IsWhitespace(s[0]) then s else TrimStart(s[1..])
  }

  /** `str::trim_end` */
  function TrimEnd(s: string): (r: string)
    ensures r <= s
    ensures r == [] || !IsWhitespace(r[|r| - 1])
    ensures forall i :: |r| <= i < |s| ==> IsWhitespace(s[i])
  {
    if s == [] || !IsWhitespace(s[|s| - 1]) then s else TrimEnd(s[..|s| - 1])
  }

  /** `str::trim` */
  function Trim(s: string): string {
    TrimEnd(TrimStart(s))
  }

  predicate AllWhitespace(s: string) {
    forall i :: 0 <= i < |s| ==> IsWhitespace(s[i])
  }

  lemma TrimEmptyIff(s: string)
    ensures Trim(s) == [] <==> AllWhitespace(s)
  {
    var t := TrimStart(s);
    if Trim(s) == [] {
      assert AllWhitespace(t);
      assert t == [];
    }
  }

  lemma TrimNoEdgeWhitespace(s: string)
    ensures Trim(s) == [] || (!IsWhitespace(Trim(s)[0]) && !IsWhitespace(Trim(s)[|Trim(s)| - 1]))
  {
    var t := TrimStart(s);
    var r := TrimEnd(t);
    if r != [] {
      assert r[0] == t[0];
    }
  }

  /** A non-empty string with no whitespace at either end. */
  predicate Trimmed(t: string) {
    t != [] && !IsWhitespace(t[0]) && !IsWhitespace(t[|t| - 1])
  }

  /** Trimming leaves a trimmed string as it is. */
  lemma TrimTrimmed(s: string)
    requires Trimmed(s)
    ensures Trim(s) == s
  {
  }

  /** Trimming a string that is not all whitespace leaves a non-empty string
      with no whitespace at either end. */
  lemma TrimmedEdges(s: string)
    requires !AllWhitespace(s)
    ensures Trimmed(Trim(s))
  {
    TrimEmptyIff(s);
    TrimNoEdgeWhitespace(s);
  }

  predicate AllAsciiLower(s: string) { forall i :: 0 <= i < |s| ==> IsAsciiLower(s[i]) }

  lemma LowerStrLowercase(s: string)
    requires AllAsciiLower(s)
    ensures LowerStr(s) == s
  {
  }

  /** A non-empty run of lowercase ASCII letters has nothing to trim. */
  lemma TrimAsciiLetters(s: string)
    requires s != [] && AllAsciiLower(s)
    ensures Trim(s) == s
  {
    assert !IsWhitespace(s[0]) && !IsWhitespace(s[|s| - 1]);
  }

  /** Index of the first occurrence of `c` in `s`, or `|s|` when there is none. */
  function IndexOf(s: string, c: char): (i: nat)
    ensures i <= |s|
    ensures i < |s| ==> s[i] == c
    ensures forall j :: 0 <= j < i ==> s[j] != c
  {
    if s == [] then 0
    else if s[0] == c then 0
    else 1 + IndexOf(s[1..], c)
  }

  lemma IndexOfPrefix(a: string, b: string, c: char)
    requires NoChar(a, c)
    ensures IndexOf(a + b, c) == |a| + IndexOf(b, c)
    decreases |a|
  {
    if a != [] {
      assert (a + b)[1..] == a[1..] + b;
      IndexOfPrefix(a[1..], b, c);
    } else {
      assert a + b == b;
    }
  }

  /** Drops one trailing '\r'. */
  function StripCr(l: string): string {
    if |l| > 0 && l[|l| - 1] == '\r' then l[..|l| - 1] else l
  }

  /** Rust's `str::lines`: split at '\n'; a '\r' immediately before a '\n'
      is dropped; a final line ending is optional; "" has no lines. */
  function Lines(s: string): seq<string>
    decreases |s|
  {
    if s == [] then []
    else
      var i := IndexOf(s, '\n');
      if i == |s| then [s] else [StripCr(s[..i])] + Lines(s[i + 1..])
  }

  /** A character found in `a` is found at the same place in `a + b`. */
  lemma IndexOfExtend(a: string, b: string, c: char)
    requires IndexOf(a, c) < |a|
    ensures IndexOf(a + b, c) == IndexOf(a, c)
  {
    var i := IndexOf(a, c);
    var k := IndexOf(a + b, c);
    assert (a + b)[i] == c;
    assert k <= i;
    assert (a + b)[k] == a[k];
  }

  lemma ConsAssoc<T>(x: T, l1: seq<T>, l2: seq<T>)
    ensures [x] + (l1 + l2) == ([x] + l1) + l2
  {
  }

  /** Text that ends with a line ending splits into its own lines followed
      by the lines of what comes after it. */
  lemma {:induction false} LinesAppend(a: string, b: string)
    requires a == [] || a[|a| - 1] == '\n'
    ensures Lines(a + b) == Lines(a) + Lines(b)
    decreases |a|
  {
    if a == [] {
      assert a + b == b;
    } else {
      var i := IndexOf(a, '\n');
      var ab := a + b;
      IndexOfExtend(a, b, '\n');
      var rest := a[i + 1..];
      assert ab[..i] == a[..i];
      assert ab[i + 1..] == rest + b;
      assert Lines(a) == [StripCr(a[..i])] + Lines(rest);
      assert Lines(ab) == [StripCr(a[..i])] + Lines(rest + b);
      assert rest == [] || rest[|rest| - 1] == '\n';
      LinesAppend(rest, b);
      ConsAssoc(StripCr(a[..i]), Lines(rest), Lines(b));
    }
  }

  /** `slice.join(sep)` */
  function Join(parts: seq<string>, sep: string): string {
    if |parts| == 0 then []
    else if |parts| == 1 then parts[0]
    else parts[0] + sep + Join(parts[1..], sep)
  }

  lemma {:induction false} JoinAppend(parts: seq<string>, last: string, sep: string)
    requires |parts| > 0
    ensures Join(parts + [last], sep) == Join(parts, sep) + sep + last
  {
    if |parts| == 1 {
      assert (parts + [last])[1..] == [last];
    } else {
      assert (parts + [last])[1..] == parts[1..] + [last];
      JoinAppend(parts[1..], last, sep);
    }
  }

  /** Concatenation with no separator (`concat()` / `join("")`). */
  function Concat(parts: seq<string>): string {
    if |parts| == 0 then [] else parts[0] + Concat(parts[1..])
  }

  lemma {:induction false} ConcatAppend(parts: seq<string>, last: string)
    ensures Concat(parts + [last]) == Concat(parts) + last
  {
    if |parts| == 0 {
      assert parts + [last] == [last];
    } else {
      assert (parts + [last])[1..] == parts[1..] + [last];
      ConcatAppend(parts[1..], last);
    }
  }

  /** `str::replace(a, b)` for single characters. */
  function ReplaceChar(s: string, a: char, b: char): (r: string)
    ensures |r| == |s|
  {
    seq(|s|, i requires 0 <= i < |s| => if s[i] == a then b else s[i])
  }

  predicate NoChar(s: string, c: char) {
    forall i :: 0 <= i < |s| ==> s[i] != c
  }

  /** After replacing `a` by a different `b`, no `a` is left, and nothing
      else moved. */
  lemma ReplaceCharRemoves(s: string, a: char, b: char)
    requires a != b
    ensures NoChar(ReplaceChar(s, a, b), a)
    ensures forall i :: 0 <= i < |s| && s[i] != a ==> ReplaceChar(s, a, b)[i] == s[i]
  {
  }

  /** Replacing `a` by `b` in a string without `b` is undone by replacing
      `b` by `a`. */
  lemma ReplaceCharInverse(s: string, a: char, b: char)
    requires NoChar(s, b)
    ensures ReplaceChar(ReplaceChar(s, a, b), b, a) == s
  {
  }

  /** Replacing a character that does not occur changes nothing. */
  lemma ReplaceCharAbsent(s: string, a: char, b: char)
    requires NoChar(s, a)
    ensures ReplaceChar(s, a, b) == s
  {
  }

  lemma ReplaceCharAppend(x: string, y: string, a: char, b: char)
    ensures ReplaceChar(x + y, a, b) == ReplaceChar(x, a, b) + ReplaceChar(y, a, b)
  {
  }

  /** `s[k..k + |pat|] == pat` */
  predicate OccursAt(s: string, pat: string, k: nat) {
    k + |pat| <= |s| && s[k..k + |pat|] == pat
  }

  /** `s.contains(pat)` */
  predicate Contains(s: string, pat: string) {
    exists k: nat | k <= |s| :: OccursAt(s, pat, k)
  }

  /** Rust's `str::replace(pat, rep)`: left-to-right, non-overlapping. */
  function ReplaceAll(s: string, pat: string, rep: string): string
    requires |pat| > 0
    decreases |s|
  {
    if |s| < |pat| then s
    else if pat <= s then rep + ReplaceAll(s[|pat|..], pat, rep)
    else [s[0]] + ReplaceAll(s[1..], pat, rep)
  }

  /** Without an occurrence of `pat`, `ReplaceAll` changes nothing. */
  lemma {:induction false} ReplaceAllAbsent(s: string, pat: string, rep: string)
    requires |pat| > 0 && !Contains(s, pat)
    ensures ReplaceAll(s, pat, rep) == s
    decreases |s|
  {
    if |s| >= |pat| {
      assert !OccursAt(s, pat, 0);
      assert !Contains(s[1..], pat) by {
        forall k: nat | k <= |s[1..]| ensures !OccursAt(s[1..], pat, k) {
          assert !OccursAt(s, pat, k + 1);
          if k + |pat| <= |s[1..]| {
            assert s[1..][k..k + |pat|] == s[k + 1..k + 1 + |pat|];
          }
        }
      }
      ReplaceAllAbsent(s[1..], pat, rep);
    }
  }

  /** `t` cannot overlap a copy of `rep` at any of its positions. */
  predicate ClashesNowhere(t: string, rep: string) {
    forall j :: 0 <= j < |t| ==> !(t[j..] <= rep) && !(rep <= t[j..])
  }

  lemma PrefixOfConcat(t: string, a: string, b: string)
    ensures t[0..] == t
    ensures t <= a + b ==> (|t| <= |a| ==> t <= a) && (|t| > |a| ==> a <= t)
  {
    if t <= a + b {
      if |t| <= |a| {
        assert t == (a + b)[..|t|] == a[..|t|];
      } else {
        assert a == (a + b)[..|a|] == t[..|a|];
      }
    }
  }

  /** A prefix of the replaced string that cannot overlap `rep` anywhere was
      already a prefix of the original. */
  lemma {:induction false} ReplaceAllPrefix(t: string, x: string, pat: string, rep: string)
    requires |pat| > 0 && t <= ReplaceAll(x, pat, rep) && ClashesNowhere(t, rep)
    ensures t <= x
    decreases |x|
  {
    if t != [] && |x| >= |pat| {
      if pat <= x {
        PrefixOfConcat(t, rep, ReplaceAll(x[|pat|..], pat, rep));
        assert false;
      } else {
        var r := ReplaceAll(x[1..], pat, rep);
        assert ReplaceAll(x, pat, rep) == [x[0]] + r;
        assert t[1..] <= r;
        forall j | 0 <= j < |t[1..]| ensures !(t[1..][j..] <= rep) && !(rep <= t[1..][j..]) {
          assert t[1..][j..] == t[j + 1..];
        }
        ReplaceAllPrefix(t[1..], x[1..], pat, rep);
      }
    }
  }

  /** Dropping a prefix cannot create an occurrence. */
  lemma AbsentInSuffix(s: string, d: nat, q: string)
    requires d <= |s| && !Contains(s, q)
    ensures !Contains(s[d..], q)
  {
    forall k: nat | k <= |s[d..]| ensures !OccursAt(s[d..], q, k) {
      assert !OccursAt(s, q, k + d);
      if k + |q| <= |s[d..]| {
        assert s[d..][k..k + |q|] == s[k + d..k + d + |q|];
      }
    }
  }

  lemma ConcatSliceLeft(a: string, b: string, i: nat, j: nat)
    requires i <= j <= |a|
    ensures (a + b)[i..j] == a[i..j]
  {
  }

  /** A copy of `rep` in front of a string without `q` adds no `q`, when `q`
      cannot start inside `rep`. */
  lemma AbsentAfterRep(rep: string, r: string, q: string)
    requires !Contains(r, q)
    requires forall k :: 0 <= k < |rep| ==> !(rep[k..] <= q) && !(q <= rep[k..])
    ensures !Contains(rep + r, q)
  {
    var out := rep + r;
    forall k: nat | k <= |out| ensures !OccursAt(out, q, k) {
      if k + |q| <= |out| {
        if k < |rep| {
          if k + |q| <= |rep| {
            ConcatSliceLeft(rep, r, k, k + |q|);
            assert rep[k..k + |q|] == rep[k..][..|q|];
          } else {
            ConcatSliceLeft(rep, r, k, |rep|);
            assert out[k..k + |q|][..|rep| - k] == out[k..|rep|];
          }
        } else {
          assert out[k..k + |q|] == r[k - |rep|..k - |rep| + |q|];
          assert !OccursAt(r, q, k - |rep|);
        }
      }
    }
  }

  /** A kept character in front of the replaced rest adds no `q`, unless `q`
      already started at that character. */
  lemma AbsentAfterKept(s: string, pat: string, rep: string, q: string)
    requires |pat| > 0 && |q| > 0 && |s| > 0
    requires !(q <= s)
    requires !Contains(ReplaceAll(s[1..], pat, rep), q)
    requires ClashesNowhere(q[1..], rep)
    ensures !Contains([s[0]] + ReplaceAll(s[1..], pat, rep), q)
  {
    var r := ReplaceAll(s[1..], pat, rep);
    var out := [s[0]] + r;
    forall k: nat | k <= |out| ensures !OccursAt(out, q, k) {
      if k + |q| <= |out| {
        if k == 0 {
          assert out[..|q|] == [s[0]] + r[..|q| - 1];
          if q[1..] <= r {
            ReplaceAllPrefix(q[1..], s[1..], pat, rep);
            assert q[1..] <= s[1..];
            assert q[0] != s[0];
          } else {
            assert r[..|q| - 1] != q[1..];
          }
        } else {
          assert out[k..k + |q|] == r[k - 1..k - 1 + |q|];
          assert !OccursAt(r, q, k - 1);
        }
      }
    }
  }

  /** After `ReplaceAll(s, pat, rep)`, `q` does not occur, when `q` is `pat`
      itself or was absent from `s`, provided no copy of `rep` can take part
      in an occurrence of `q`: `q` cannot start inside `rep`, and no later part
      of `q` can line up with `rep`. */
  lemma {:induction false} ReplaceAllLeavesNo(s: string, pat: string, rep: string, q: string)
    requires |pat| > 0 && |q| > 0
    requires q == pat || !Contains(s, q)
    requires forall k :: 0 <= k < |rep| ==> !(rep[k..] <= q) && !(q <= rep[k..])
    requires ClashesNowhere(q[1..], rep)
    ensures !Contains(ReplaceAll(s, pat, rep), q)
    decreases |s|
  {
    if |s| < |pat| {
      if q == pat {
        forall k: nat | k <= |s| ensures !OccursAt(s, q, k) { }
      }
    } else if pat <= s {
      if q != pat { AbsentInSuffix(s, |pat|, q); }
      ReplaceAllLeavesNo(s[|pat|..], pat, rep, q);
      AbsentAfterRep(rep, ReplaceAll(s[|pat|..], pat, rep), q);
    } else {
      if q != pat {
        AbsentInSuffix(s, 1, q);
        assert !OccursAt(s, q, 0);
      }
      ReplaceAllLeavesNo(s[1..], pat, rep, q);
      AbsentAfterKept(s, pat, rep, q);
    }
  }

  /** The first position at or after `from` where `pat` occurs. */
  function FindFrom(s: string, pat: string, from: nat): (r: Option<nat>)
    ensures r.Some? ==> from <= r.value && OccursAt(s, pat, r.value)
    ensures r.Some? ==> forall k :: from <= k < r.value ==> !OccursAt(s, pat, k)
    ensures r.None? ==> forall k :: from <= k ==> !OccursAt(s, pat, k)
    decreases |s| - from
  {
    if from + |pat| > |s| then None
    else if OccursAt(s, pat, from) then Some(from)
    else FindFrom(s, pat, from + 1)
  }

  /** A search from the start fails exactly when there is no occurrence. */
  lemma FindFromStart(s: string, pat: string)
    ensures FindFrom(s, pat, 0).None? <==> !Contains(s, pat)
  {
    if FindFrom(s, pat, 0).Some? {
      assert OccursAt(s, pat, FindFrom(s, pat, 0).value);
    }
  }

  /** Rust's `char::to_lowercase`, for comparisons with ASCII text: ASCII
      letters, and KELVIN SIGN, the one non-ASCII character whose lowercase
      is a single ASCII character. Other characters are kept; their real
      lowercase forms are never a single ASCII character. */
  function LowerChar(c: char): (r: char)
    ensures IsAsciiUpper(c) ==> IsAsciiLower(r)
    ensures !IsAsciiUpper(c) && c != '\U{212A}' ==> r == c
  {
    if c == '\U{212A}' then 'k' else AsciiLower(c)
  }

  /** `str::to_lowercase`, exact whenever the result is compared with an
      ASCII string. */
  function LowerStr(s: string): (r: string)
    ensures |r| == |s|
  {
    seq(|s|, i requires 0 <= i < |s| => LowerChar(s[i]))
  }

  /** `s.strip_suffix(suf).unwrap_or(s)` */
  function StripSuffixOr(s: string, suf: string): (r: string)
    ensures r <= s
  {
    if |suf| <= |s| && s[|s| - |suf|..] == suf then s[..|s| - |suf|] else s
  }

  /** `s.trim_end_matches(c)` for a single character. */
  function TrimEndChar(s: string, c: char): (r: string)
    ensures r <= s
    ensures r == [] || r[|r| - 1] != c
    ensures forall i :: |r| <= i < |s| ==> s[i] == c
  {
    if s == [] || s[|s| - 1] != c then s else TrimEndChar(s[..|s| - 1], c)
  }

  /** Number of characters of `s` that satisfy `p`. */
  function CountWhere(s: string, p: char -> bool): (n: nat)
    ensures n <= |s|
  {
    if s == [] then 0 else (if p(s[0]) then 1 else 0) + CountWhere(s[1..], p)
  }

  /** The decimal digits of `n` (Rust's `Display` for integers). */
  function NatToString(n: nat): (r: string)
    ensures |r| > 0
    decreases n
  {
    var d := ['0' + (n % 10) as char];
    if n < 10 then d else NatToString(n / 10) + d
  }

  predicate IsDigit(c: char) { '0' <= c <= '9' }

  predicate AllDigits(s: string) { forall i :: 0 <= i < |s| ==> IsDigit(s[i]) }

  /** The value of a string of decimal digits. */
  function DigitsValue(s: string): nat
    requires AllDigits(s)
  {
    if s == [] then 0 else DigitsValue(s[..|s| - 1]) * 10 + (s[|s| - 1] as int - '0' as int)
  }

  const U64Limit: nat := 0x1_0000_0000_0000_0000

  /** Rust's `str::parse::<u64>`: an optional '+', then one or more decimal
      digits whose value fits in 64 bits. */
  function ParseU64(s: string): (r: Option<nat>)
    ensures r.Some? ==> r.value < U64Limit
  {
    var digits := if |s| > 0 && s[0] == '+' then s[1..] else s;
    if digits == [] || !AllDigits(digits) then None
    else if DigitsValue(digits) >= U64Limit then None
    else Some(DigitsValue(digits))
  }

  lemma {:induction false} NatToStringDigits(n: nat)
    ensures AllDigits(NatToString(n)) && DigitsValue(NatToString(n)) == n
    decreases n
  {
    var d := ['0' + (n % 10) as char];
    if n >= 10 {
      NatToStringDigits(n / 10);
      var s := NatToString(n);
      assert s == NatToString(n / 10) + d;
      assert s[..|s| - 1] == NatToString(n / 10);
    }
  }

  /** Printing a 64-bit value and parsing it back gives the value. */
  lemma ParseNatToString(n: nat)
    requires n < U64Limit
    ensures ParseU64(NatToString(n)) == Some(n)
  {
    NatToStringDigits(n);
  }
}

=== FILE: third_party.dfy ===
/**
  The three third-party enhancer clients (Claude, OpenAI, Gemini): the
  endpoint URL each builds from the configured base URL, the message list
  each sends, the text each takes out of a decoded reply, and the shared
  handling of the reply status and of the final text. The HTTP exchange
  and the JSON codec are left out: a reply is its status, its body and
  what the body decodes to.
*/
module ThirdParty {
  import opened Wrappers
  import opened Strings
  import opened Prompt

  // ---------------------------------------------------------------------
  // Endpoint URLs
  // ---------------------------------------------------------------------

  /** The base URL without its trailing '/'s and then without one trailing
      `version` segment. */
  function VersionRoot(baseUrl: string, version: string): (r: string)
    ensures r <= baseUrl
  {
    StripSuffixOr(TrimEndChar(baseUrl, '/'), version)
  }

  /** `build_claude_url` */
  function ClaudeUrl(baseUrl: string): (r: string)
    ensures var path := "/v1/messages";
            |path| <= |r| && r[|r| - |path|..] == path && r[..|r| - |path|] <= baseUrl
  {
    VersionRoot(baseUrl, "/v1") + "/v1/messages"
  }

  /** `build_openai_url` */
  function OpenAIUrl(baseUrl: string): (r: string)
    ensures var path := "/v1/chat/completions";
            |path| <= |r| && r[|r| - |path|..] == path && r[..|r| - |path|] <= baseUrl
  {
    VersionRoot(baseUrl, "/v1") + "/v1/chat/completions"
  }

  /** `build_gemini_url` */
  function GeminiUrl(baseUrl: string, model: string): (r: string)
    ensures var path := "/v1beta/models/" + model + ":generateContent";
            |path| <= |r| && r[|r| - |path|..] == path && r[..|r| - |path|] <= baseUrl
  {
    VersionRoot(baseUrl, "/v1beta") + "/v1beta/models/" + model + ":generateContent"
  }

  /** Removing trailing '/'s from a URL that ends in one '/' gives the URL
      without it. */
  lemma TrimOneSlash(s: string)
    requires s == [] || s[|s| - 1] != '/'
    ensures TrimEndChar(s + "/", '/') == s
  {
    assert (s + "/")[..|s|] == s;
  }

  /** A URL ending in `version` loses exactly that segment. */
  lemma StripVersion(base: string, version: string)
    ensures StripSuffixOr(base + version, version) == base
  {
    var withVersion := base + version;
    assert withVersion[|withVersion| - |version|..] == version;
    assert withVersion[..|withVersion| - |version|] == base;
  }

  /** A base URL, that URL with a trailing '/', with the version segment
      appended, and with the version segment and a '/' appended all lead to
      the same root: the base URL itself. */
  lemma VersionRootVariants(base: string, version: string)
    requires |version| > 0 && version[|version| - 1] != '/'
    requires base == [] || base[|base| - 1] != '/'
    requires !(|version| <= |base| && base[|base| - |version|..] == version)
    ensures VersionRoot(base, version) == base
    ensures VersionRoot(base + "/", version) == base
    ensures VersionRoot(base + version, version) == base
    ensures VersionRoot(base + version + "/", version) == base
  {
    TrimOneSlash(base);
    TrimOneSlash(base + version);
    StripVersion(base, version);
  }

  /** Only one version segment is removed. */
  lemma VersionRootOnce(base: string, version: string)
    requires |version| > 0 && version[|version| - 1] != '/'
    ensures VersionRoot(base + version + version, version) == base + version
  {
    StripVersion(base + version, version);
  }

  /** The four spellings of a base URL give one Claude endpoint. */
  lemma ClaudeUrlVariants(base: string)
    requires base == [] || base[|base| - 1] != '/'
    requires !(|"/v1"| <= |base| && base[|base| - |"/v1"|..] == "/v1")
    ensures ClaudeUrl(base) == base + "/v1/messages"
    ensures ClaudeUrl(base + "/") == ClaudeUrl(base + "/v1") == ClaudeUrl(base + "/v1" + "/") == ClaudeUrl(base)
  {
    VersionRootVariants(base, "/v1");
  }

  /** The four spellings of a base URL give one OpenAI endpoint. */
  lemma OpenAIUrlVariants(base: string)
    requires base == [] || base[|base| - 1] != '/'
    requires !(|"/v1"| <= |base| && base[|base| - |"/v1"|..] == "/v1")
    ensures OpenAIUrl(base) == base + "/v1/chat/completions"
    ensures OpenAIUrl(base + "/") == OpenAIUrl(base + "/v1") == OpenAIUrl(base + "/v1" + "/") == OpenAIUrl(base)
  {
    VersionRootVariants(base, "/v1");
  }

  /** The four spellings of a base URL give one Gemini endpoint per model. */
  lemma GeminiUrlVariants(base: string, model: string)
    requires base == [] || base[|base| - 1] != '/'
    requires !(|"/v1beta"| <= |base| && base[|base| - |"/v1beta"|..] == "/v1beta")
    ensures GeminiUrl(base, model) == base + "/v1beta/models/" + model + ":generateContent"
    ensures GeminiUrl(base + "/", model) == GeminiUrl(base + "/v1beta", model) == GeminiUrl(base + "/v1beta" + "/", model)
            == GeminiUrl(base, model)
  {
    VersionRootVariants(base, "/v1beta");
  }

  // ---------------------------------------------------------------------
  // Requests
  // ---------------------------------------------------------------------

  /** The message list the Claude and OpenAI clients send: the parsed history
      in order, then the final prompt as one more user message. */
  function ChatMessages(history: seq<ChatMessage>, finalPrompt: string): (r: seq<ChatMessage>)
    ensures |r| == |history| + 1
    ensures r[..|history|] == history
    ensures r[|history|] == ChatMessage("user", finalPrompt)
  {
    history + [ChatMessage("user", finalPrompt)]
  }

  /** One entry of a Gemini request. */
  datatype GeminiContent = GeminiContent(role: string, parts: seq<string>)

  /** Gemini knows the roles "model" and "user" only. */
  function GeminiRole(role: string): (r: string)
    ensures r == "model" <==> role == "assistant"
    ensures r == "model" || r == "user"
  {
    if role == "assistant" then "model" else "user"
  }

  /** The contents of a Gemini request: each history message with its role
      mapped and its text as the single part, then the final prompt as a
      user entry. */
  function GeminiContents(history: seq<ChatMessage>, finalPrompt: string): (r: seq<GeminiContent>)
    ensures |r| == |history| + 1
    ensures forall i :: 0 <= i < |history| ==>
              r[i].parts == [history[i].content] && (r[i].role == "model" <==> history[i].role == "assistant")
    ensures r[|history|] == GeminiContent("user", [finalPrompt])
  {
    seq(|history|, i requires 0 <= i < |history| => GeminiContent(GeminiRole(history[i].role), [history[i].content]))
      + [GeminiContent("user", [finalPrompt])]
  }

  // ---------------------------------------------------------------------
  // Replies
  // ---------------------------------------------------------------------

  predicate IsSuccess(status: nat) { 200 <= status < 300 }

  /** The handling every client shares: 401 and 403 through
      `map_auth_error`, then any other non-2xx status as a failure carrying
      the status and the body, and only then the text taken out of the
      body, which is tag-extracted when it holds a tagged block and has the
      tool names rewritten. */
  function FinishReply(provider: string, status: nat, bodyText: string, text: Result<string, string>): (r: Result<string, string>)
    ensures status == 401 || status == 403 ==> r == Err(MapAuthError(status, provider).value)
    ensures status != 401 && status != 403 && !IsSuccess(status) ==>
              r == Err(provider + " API failed: " + NatToString(status) + " - " + bodyText)
    ensures r.Ok? ==> IsSuccess(status) && text.Ok?
    ensures IsSuccess(status) && text.Err? ==> r == text
    ensures IsSuccess(status) && text.Ok? ==>
              r == Ok(ReplaceToolNames(ExtractEnhancedPrompt(text.value).GetOr(text.value)))
    ensures r.Ok? ==> !Contains(r.value, DashedToolName) && !Contains(r.value, SnakeToolName)
  {
    if MapAuthError(status, provider).Some? then Err(MapAuthError(status, provider).value)
    else if !IsSuccess(status) then Err(provider + " API failed: " + NatToString(status) + " - " + bodyText)
    else match text
      case Err(e) => Err(e)
      case Ok(t) => Ok(ReplaceToolNames(ExtractEnhancedPrompt(t).GetOr(t)))
  }

  /** A failing status decides the reply before the body is looked at. */
  lemma StatusBeforeBody(provider: string, status: nat, bodyText: string, text1: Result<string, string>, text2: Result<string, string>)
    requires !IsSuccess(status)
    ensures FinishReply(provider, status, bodyText, text1) == FinishReply(provider, status, bodyText, text2)
    ensures FinishReply(provider, status, bodyText, text1).Err?
  {
  }

  /** A successful reply whose text has no tag and no tool name is passed
      through unchanged. */
  lemma PlainTextPassesThrough(provider: string, status: nat, bodyText: string, t: string)
    requires IsSuccess(status) && NoChar(t, '<')
    requires !Contains(t, DashedToolName) && !Contains(t, SnakeToolName)
    ensures FinishReply(provider, status, bodyText, Ok(t)) == Ok(t)
  {
    forall p | 0 <= p < |t| ensures OpenTagEnd(t, p).None? {
      NoOpenTagAt(t, p);
    }
    NoOpenTagNoExtract(t);
  }

  /** A successful reply whose text holds a tagged block yields the block's
      trimmed content, with tool names rewritten. */
  lemma TaggedReplyExtracts(provider: string, status: nat, bodyText: string, t: string)
    requires IsSuccess(status) && ExtractEnhancedPrompt(t).Some?
    ensures FinishReply(provider, status, bodyText, Ok(t)) == Ok(ReplaceToolNames(Trim(Enclosed(t))))
  {
  }

  lemma NoOpenTagNoExtract(t: string)
    requires forall p :: 0 <= p < |t| ==> OpenTagEnd(t, p).None?
    ensures ExtractEnhancedPrompt(t).None?
  {
    assert FirstOpenTag(t, 0).None?;
  }

  /** One content block of a Claude reply. */
  datatype ClaudeBlock = ClaudeBlock(contentType: string, text: Option<string>)

  /** The texts of the "text" blocks that have one, concatenated in order. */
  function ClaudeBlocksText(blocks: seq<ClaudeBlock>): string
    decreases |blocks|
  {
    if blocks == [] then ""
    else
      var last := blocks[|blocks| - 1];
      ClaudeBlocksText(blocks[..|blocks| - 1])
        + (if last.contentType == "text" && last.text.Some? then last.text.value else "")
  }

  /** The text of a reply made of two runs of blocks is the text of the
      first run followed by the text of the second. */
  lemma {:induction false} ClaudeBlocksTextAppend(a: seq<ClaudeBlock>, b: seq<ClaudeBlock>)
    ensures ClaudeBlocksText(a + b) == ClaudeBlocksText(a) + ClaudeBlocksText(b)
    decreases |b|
  {
    if b == [] {
      assert a + b == a;
    } else {
      assert (a + b)[..|a + b| - 1] == a + b[..|b| - 1];
      ClaudeBlocksTextAppend(a, b[..|b| - 1]);
    }
  }

  /** Blocks of any other type, and blocks without text, add nothing. */
  lemma ClaudeOtherBlockIgnored(blocks: seq<ClaudeBlock>, other: ClaudeBlock)
    requires other.contentType != "text" || other.text.None?
    ensures ClaudeBlocksText(blocks + [other]) == ClaudeBlocksText(blocks)
  {
    assert (blocks + [other])[..|blocks|] == blocks;
  }

  /** The text of a Claude reply: a body that does not decode fails, and so
      does a reply whose text blocks add up to "". */
  function ClaudeText(bodyText: string, decoded: Result<seq<ClaudeBlock>, string>): (r: Result<string, string>)
    ensures r.Ok? <==> decoded.Ok? && ClaudeBlocksText(decoded.value) != []
    ensures r.Ok? ==> r.value == ClaudeBlocksText(decoded.value)
  {
    match decoded
    case Err(e) => Err("Failed to parse Claude response: " + e + " - " + bodyText)
    case Ok(blocks) =>
      var text := ClaudeBlocksText(blocks);
      if text == [] then Err("Claude API returned empty response") else Ok(text)
  }

  /** The text of an OpenAI reply: the content of the first choice's message;
      no choice, or no content, fails. */
  function OpenAIText(bodyText: string, decoded: Result<seq<Option<string>>, string>): (r: Result<string, string>)
    ensures r.Ok? <==> decoded.Ok? && |decoded.value| > 0 && decoded.value[0].Some?
    ensures r.Ok? ==> r.value == decoded.value[0].value
  {
    match decoded
    case Err(e) => Err("Failed to parse OpenAI response: " + e + " - " + bodyText)
    case Ok(choices) =>
      if |choices| > 0 && choices[0].Some? then Ok(choices[0].value)
      else Err("OpenAI API returned empty response")
  }

  /** The text of a Gemini reply: the first part of the first candidate; a
      missing candidate, part or text fails. */
  function GeminiText(bodyText: string, decoded: Result<seq<seq<Option<string>>>, string>): (r: Result<string, string>)
    ensures r.Ok? <==> decoded.Ok? && |decoded.value| > 0 && |decoded.value[0]| > 0 && decoded.value[0][0].Some?
    ensures r.Ok? ==> r.value == decoded.value[0][0].value
  {
    match decoded
    case Err(e) => Err("Failed to parse Gemini response: " + e + " - " + bodyText)
    case Ok(candidates) =>
      if |candidates| > 0 && |candidates[0]| > 0 && candidates[0][0].Some? then Ok(candidates[0][0].value)
      else Err("Gemini API returned empty response")
  }

  /** The result of `call_claude_endpoint` once the reply has arrived. */
  function ClaudeReply(status: nat, bodyText: string, decoded: Result<seq<ClaudeBlock>, string>): (r: Result<string, string>)
    ensures r.Ok? ==>
              && IsSuccess(status) && decoded.Ok?
              && var t := ClaudeBlocksText(decoded.value);
                 r.value == ReplaceToolNames(ExtractEnhancedPrompt(t).GetOr(t))
  {
    FinishReply("Claude", status, bodyText, ClaudeText(bodyText, decoded))
  }

  /** The result of `call_openai_endpoint` once the reply has arrived. */
  function OpenAIReply(status: nat, bodyText: string, decoded: Result<seq<Option<string>>, string>): (r: Result<string, string>)
    ensures r.Ok? ==>
              && IsSuccess(status) && decoded.Ok? && |decoded.value| > 0 && decoded.value[0].Some?
              && var t := decoded.value[0].value;
                 r.value == ReplaceToolNames(ExtractEnhancedPrompt(t).GetOr(t))
  {
    FinishReply("OpenAI", status, bodyText, OpenAIText(bodyText, decoded))
  }

  /** The result of `call_gemini_endpoint` once the reply has arrived. */
  function GeminiReply(status: nat, bodyText: string, decoded: Result<seq<seq<Option<string>>>, string>): (r: Result<string, string>)
    ensures r.Ok? ==>
              && IsSuccess(status) && decoded.Ok? && |decoded.value| > 0 && |decoded.value[0]| > 0 && decoded.value[0][0].Some?
              && var t := decoded.value[0][0].value;
                 r.value == ReplaceToolNames(ExtractEnhancedPrompt(t).GetOr(t))
  {
    FinishReply("Gemini", status, bodyText, GeminiText(bodyText, decoded))
  }

  /** A Claude reply succeeds exactly with a 2xx status and a non-empty
      text. */
  lemma ClaudeReplyOk(status: nat, bodyText: string, decoded: Result<seq<ClaudeBlock>, string>)
    ensures ClaudeReply(status, bodyText, decoded).Ok? <==>
              IsSuccess(status) && decoded.Ok? && ClaudeBlocksText(decoded.value) != []
  {
  }

  /** An OpenAI reply succeeds exactly with a 2xx status and a first choice
      that has content. */
  lemma OpenAIReplyOk(status: nat, bodyText: string, decoded: Result<seq<Option<string>>, string>)
    ensures OpenAIReply(status, bodyText, decoded).Ok? <==>
              IsSuccess(status) && decoded.Ok? && |decoded.value| > 0 && decoded.value[0].Some?
  {
  }

  /** A Gemini reply succeeds exactly with a 2xx status and a first
      candidate whose first part has text. */
  lemma GeminiReplyOk(status: nat, bodyText: string, decoded: Result<seq<seq<Option<string>>>, string>)
    ensures GeminiReply(status, bodyText, decoded).Ok? <==>
              IsSuccess(status) && decoded.Ok? && |decoded.value| > 0 && |decoded.value[0]| > 0 && decoded.value[0][0].Some?
  {
  }
}

=== FILE: tools.dfy ===
/**
  The two MCP tools' `execute` methods: the guards on their arguments, the
  normalisation of the project path, and the text each returns. The
  filesystem, the index manager's search and the prompt enhancer are
  parameters.
*/
module Tools {
  import opened Wrappers
  import opened Strings

  datatype SearchContextArgs = SearchContextArgs(projectRootPath: Option<string>, query: Option<string>)

  datatype EnhancePromptArgs = EnhancePromptArgs(projectRootPath: Option<string>, prompt: Option<string>, conversationHistory: Option<string>)

  /** What the filesystem says about a path. */
  datatype PathKind = Missing | NotDirectory | Directory

  /** The index search: (project root, query) to the result text or the
      error of creating the index manager or of searching. */
  type Search = (string, string) -> Result<string, string>

  /** The prompt enhancer: (prompt, conversation history, project root). */
  type Enhance = (string, string, Option<string>) -> Result<string, string>

  /** A present, non-empty argument. */
  predicate Given(arg: Option<string>) {
    arg.Some? && arg.value != []
  }

  /** Backslashes become forward slashes. */
  function NormalizeRoot(path: string): (r: string)
    ensures NoChar(r, '\\') && |r| == |path|
  {
    ReplaceChar(path, '\\', '/')
  }

  /** `SearchContextTool::execute` */
  function SearchContext(args: SearchContextArgs, fs: string -> PathKind, search: Search): (r: string)
    ensures !Given(args.query) ==> r == "Error: query is required"
    ensures Given(args.query) && !Given(args.projectRootPath) ==> r == "Error: project_root_path is required"
    ensures Given(args.query) && Given(args.projectRootPath) ==>
              var root := NormalizeRoot(args.projectRootPath.value);
              r == match fs(root)
                   case Missing => "Error: Project path does not exist: " + root
                   case NotDirectory => "Error: Project path is not a directory: " + root
                   case Directory =>
                     match search(root, args.query.value)
                     case Ok(text) => text
                     case Err(e) => "Error: " + e
  {
    if !Given(args.query) then "Error: query is required"
    else if !Given(args.projectRootPath) then "Error: project_root_path is required"
    else
      var root := NormalizeRoot(args.projectRootPath.value);
      match fs(root)
      case Missing => "Error: Project path does not exist: " + root
      case NotDirectory => "Error: Project path is not a directory: " + root
      case Directory =>
        match search(root, args.query.value)
        case Ok(text) => text
        case Err(e) => "Error: " + e
  }

  /** The query is checked before the path: without a query the path, the
      filesystem and the index are never consulted. */
  lemma QueryCheckedFirst(args1: SearchContextArgs, args2: SearchContextArgs,
                          fs1: string -> PathKind, fs2: string -> PathKind, search1: Search, search2: Search)
    requires args1.query == args2.query && !Given(args1.query)
    ensures SearchContext(args1, fs1, search1) == SearchContext(args2, fs2, search2)
  {
  }

  /** The filesystem and the index only ever see the normalised path, so a
      path and its normalised form give the same result. */
  lemma SearchPathNormalized(root: string, query: Option<string>, fs: string -> PathKind, search: Search)
    ensures SearchContext(SearchContextArgs(Some(root), query), fs, search)
         == SearchContext(SearchContextArgs(Some(NormalizeRoot(root)), query), fs, search)
  {
    ReplaceCharAbsent(NormalizeRoot(root), '\\', '/');
  }

  /** `EnhancePromptTool::execute`: `noWebBrowser` is the configuration's
      `no_webbrowser_enhance_prompt` flag, choosing between the simple
      enhancer and the one that asks the user through the browser. */
  function EnhancePrompt(args: EnhancePromptArgs, noWebBrowser: bool, enhance: Enhance, enhanceSimple: Enhance): (r: string)
    ensures !Given(args.prompt) ==> r == "Error: prompt is required"
    ensures Given(args.prompt) ==>
              var history := args.conversationHistory.GetOr("");
              var root := if args.projectRootPath.Some? then Some(NormalizeRoot(args.projectRootPath.value)) else None;
              var result := if noWebBrowser then enhanceSimple(args.prompt.value, history, root)
                            else enhance(args.prompt.value, history, root);
              r == if result.Ok? then result.value else "Error: " + result.error
  {
    if !Given(args.prompt) then "Error: prompt is required"
    else
      var history := match args.conversationHistory case Some(h) => h case None => "";
      var root := match args.projectRootPath case Some(p) => Some(NormalizeRoot(p)) case None => None;
      var result := if noWebBrowser then enhanceSimple(args.prompt.value, history, root)
                    else enhance(args.prompt.value, history, root);
      match result
      case Ok(enhanced) => enhanced
      case Err(e) => "Error: " + e
  }

  /** An absent history is an empty one, and an absent project root stays
      absent. */
  lemma EnhanceDefaults(prompt: string, noWebBrowser: bool, enhance: Enhance, enhanceSimple: Enhance)
    requires prompt != []
    ensures EnhancePrompt(EnhancePromptArgs(None, Some(prompt), None), noWebBrowser, enhance, enhanceSimple)
         == EnhancePrompt(EnhancePromptArgs(None, Some(prompt), Some("")), noWebBrowser, enhance, enhanceSimple)
    ensures var result := if noWebBrowser then enhanceSimple(prompt, "", None) else enhance(prompt, "", None);
            EnhancePrompt(EnhancePromptArgs(None, Some(prompt), None), noWebBrowser, enhance, enhanceSimple)
              == if result.Ok? then result.value else "Error: " + result.error
  {
  }
}

=== FILE: wrappers.dfy ===
/** Failure-carrying datatypes shared by every module of the model. */
module Wrappers {

  /** A value that may be absent (Rust's `Option`). */
  datatype Option<+T> = None | Some(value: T) {
    function GetOr(default: T): T {
      match this
      case Some(v) => v
      case None => default
    }
  }

  /** A value or an error message (Rust's `Result<T, anyhow::Error>`). */
  datatype Result<+T, +E> = Ok(value: T) | Err(error: E)
}
